=== FILE: README.md ===
# APEX terminal sessions and project review, modelled in Dafny

APEX is a project-submission system. Students upload a project as a zip
archive plus a LaTeX report. Admins review the project, and can open a
sandboxed shell on its files in a Docker container through a browser
terminal. This project models the core of that system:

- **The terminal-session orchestration.** This covers:
  - the server's registry of live attachments (`activeSessions`), and its
    setup steps between awaits;
  - the ownership gates on output, input and resize;
  - the server's line splitter;
  - the browser terminal's line discipline and its start/cleanup guards;
  - the container lifecycle decisions of the Docker service.
- **The request-level decisions.** These are the admin, project and
  file-download endpoints, the Bearer authentication with its role guards,
  and the two upload configurations.
- **The client's Redux reducers.** These are the terminal, project and
  admin reducers, and their combination in one store.

Code that changes state in place is modelled as classes whose methods
state the whole new state. This covers the registry, the connection
handlers, the browser terminal, the Docker host and the two admin endpoints
that drive it. Where it helps, those methods are stated through pure step
functions, with the properties proved as lemmas about the functions. The
pure code is modelled as functions: validators, filters, reducers and the
controllers' decision chains.

Each stretch of code between two `await`s runs atomically on the event
loop, so most become one step each. The admin controller's
`startTerminalSession` is the exception: it is one step across its awaits,
and "## Left out" says what that hides. Races become interleavings of steps.

Foreign collaborators become parameters:
- outcomes of the Docker runtime: a failed call, a container that is not
  running, a missing container;
- answers of the database;
- token verification;
- whether a file exists on disk;
- JSON parsing;
- the time-and-random suffix of stored file names.

Identifiers that the runtime or the database mints fresh (session ids,
container ids, setup tokens) come from counters.

Modules:

| file | module | models |
|---|---|---|
| wrappers.dfy | Wrappers | Option, Result and the three-way database lookup `Fetch` |
| text.dfy | Text | lower-casing, prefix/suffix tests, the header split, and Node's POSIX `path.extname` |
| models.dfy | Models | users, projects and terminal-session records; status spellings; the review update |
| http.dfy | Http | an endpoint's answer and a middleware's `next` call |
| registry.dfy | Registry | the `activeSessions` map, its setup steps, and the release, gates and invariants |
| socket_service.dfy | SocketService | socket authentication and one connection's handlers |
| server_input.dfy | ServerInput | the server-side input handler and its line-splitting loop |
| client_terminal.dfy | ClientTerminal | the browser terminal's `onData` discipline and component lifecycle |
| docker_service.dfy | DockerService | the container runtime, path conversion, sandbox settings, and start/get/recreate/terminate |
| listing.dfy | Listing | paging and project query filters shared by both listings |
| admin_controller.dfy | AdminController | admin listing, statistics, review, and terminal-session start/terminate/list |
| project_controller.dfy | ProjectController | project listing, read, create, update and delete |
| file_controller.dfy | FileController | the download checks and the offered file name |
| auth_middleware.dfy | AuthMiddleware | `protect`, `admin` and `student` |
| upload.dfy | Upload | the single-file upload middlewares and the project route's upload |
| actions.dfy | ClientActions | the Redux actions |
| terminal_reducer.dfy, project_reducer.dfy, admin_reducer.dfy | TerminalReducer, ProjectReducer, AdminReducer | the three reducers |
| client_store.dfy | ClientStore | `combineReducers` over the three |

## Model

| member | source | states |
|---|---|---|
| Text.ExtName | server/middlewares/uploadMiddleware.js:43 | Node's `path.extname`: the result is empty or one leading '.' with no further '.' or '/'; it is a proper suffix of the last path segment; it is non-empty exactly when the last segment has a '.' after its first character and is not ".." |
| Text.SecondField | server/middlewares/authMiddleware.js:12 | `split(' ')[1]`: absent exactly when there is no space; otherwise the text from just after the first space up to the next space or the end |
| Text.SecondFieldOfBearer | server/middlewares/authMiddleware.js:12 | the second field of "Bearer " followed by a space-free token is that token |
| Models.ParseStatus | server/models/Project.js:40-43 | a parsed status spells the input back; a failed parse means the input is none of "submitted", "reviewed", "pending" |
| Models.ParseStatusName | server/models/Project.js:40-43 | every status's spelling parses back to that status |
| Models.WithReview | server/controllers/adminController.js:101-110 | the review sets the status and comments when given, records reviewer and time, and changes no other field |
| Registry.Released | server/services/socketService.js:11-30 | after cleanup the session is absent, every other entry is unchanged, and no other key is added or lost |
| Registry.ReleaseIsIdempotent | server/services/socketService.js:11-30 | a second cleanup is a no-op, and so is cleanup of an absent session |
| Registry.WithPlaceholder | server/services/socketService.js:214-239 | an in-progress or completed entry aborts setup with the map untouched; otherwise a placeholder is installed with this socket and token, and the other entries are kept |
| Registry.Completed | server/services/socketService.js:250-287 | the corrected completion, re-validated by token: it changes nothing unless the attempt still owns the entry; otherwise it stores container and stream, clears the flag, and keeps socket and token |
| Registry.CompletedAsWritten | server/services/socketService.js:282-287 | completion as written: the snapshot is stored back completed, with the snapshot's socket and token, whatever the map held for the session; every other entry is kept |
| Registry.CompletionsAgreeWhenUndisturbed | server/services/socketService.js:251-287 | when the entry was not touched during the attach await, the completion as written and the re-validated one give the same map |
| Registry.StaleCompletionOverwritesNewerAttempt | server/services/socketService.js:268-287 | as written, an attempt whose entry was released and re-placed by a newer attempt during the attach await overwrites the newer placeholder with its old socket and token |
| Registry.StepKeepsNoStale | server/services/socketService.js:214-287 | cleanup, placeholder, the completion as written and the re-validated completion each keep every entry either a placeholder or a completed setup |
| Registry.NoStaleEntriesEverArise | server/services/socketService.js:214-287 | any sequence of those steps keeps that invariant |
| Registry.ReadyEntryOnlyReleased | server/services/socketService.js:214-226 | with completions re-validated by token, a completed entry is changed by no step except its own release |
| Registry.ReadyEntryStable | server/services/socketService.js:214-226 | with completions re-validated by token, a completed entry survives any sequence of steps that does not release it |
| Registry.UncheckedCompletionOverwritesReadyEntry | server/services/socketService.js:251-287 | the completion as written replaces even a completed entry when its snapshot carries another token, which is why the two lemmas above are stated for re-validated completions only |
| Registry.CompletionIsOneShot | server/services/socketService.js:251-287 | after a re-validated completion, a second completion by the same attempt changes nothing |
| Registry.ActiveSessions.constructor | server/services/socketService.js:8 | the registry starts empty |
| Registry.ActiveSessions.FreshToken | server/services/socketService.js:160 | a setup token is minted that no entry carries |
| Registry.ActiveSessions.Cleanup | server/services/socketService.js:11-30 | the entry is dropped exactly as `Released` says, and its stream, if any, is ended |
| Registry.ActiveSessions.PlacePlaceholder | server/services/socketService.js:214-239 | setup goes on exactly when no attempt is in progress or done, and the map becomes `WithPlaceholder` |
| Registry.ActiveSessions.CompleteAsWritten | server/services/socketService.js:282-287 | the map becomes `CompletedAsWritten` of the snapshot |
| Registry.ActiveSessions.CompleteSetup | server/services/socketService.js:250-287 | the corrected completion: it succeeds exactly when the token still owns the entry, and the map becomes `Completed` |
| SocketService.Authenticate | server/services/socketService.js:36-74 | a missing or empty token, a token that fails verification, a missing user and a non-admin are each refused with their own message; success exactly for a verified admin |
| SocketService.Connection.constructor | server/services/socketService.js:85-92 | a new connection holds no session, stream, container, buffer or events |
| SocketService.Connection.Admit | server/services/socketService.js:93-123 | no session id gives "Session ID is required" and a disconnect; an entry held by another socket with a stream or setup in progress gives "Session already active elsewhere."; otherwise the record lookup follows; the registry is untouched |
| SocketService.Connection.OnSessionRecord | server/services/socketService.js:126-161 | a failed lookup is refused with its message and a disconnect and releases the session's entry, whoever owns it; a missing, inactive or foreign record is refused with its message and a disconnect and leaves the registry alone; a good record runs the setup guard and placeholder |
| SocketService.Connection.OnContainer | server/services/socketService.js:241-262 | a container error releases the entry and reports it; an attempt whose token no longer owns the entry stops with the map untouched; otherwise the entry read there is kept as the snapshot and attaching follows |
| SocketService.Connection.OnAttached | server/services/socketService.js:268-296 | an attach error releases the entry and reports it; otherwise, as written, the snapshot is stored back completed (`CompletedAsWritten`) with no second re-check, and the connection goes live, turning echo off with "stty -echo\n" and emitting "connected" |
| SocketService.Connection.OnAttachedRevalidated | server/services/socketService.js:268-296 | the corrected handler: the completion is re-validated by token (`Completed`), and only the attempt that still owns the entry goes live |
| SocketService.Connection.OnStreamData | server/services/socketService.js:298-314 | a chunk is emitted as one "output" event exactly while the map's stream is this connection's stream |
| SocketService.Connection.OnStreamEnd | server/services/socketService.js:316-327 | the session's entry is released and "terminated" is emitted |
| SocketService.Connection.OnStreamError | server/services/socketService.js:329-343 | the session's entry is released and the error is reported |
| SocketService.Connection.OnInput | server/services/socketService.js:348-399 | input from a socket that does not own a streaming entry is ignored; otherwise the writes and the new line buffer are those of `InputStep` |
| SocketService.Connection.OnResize | server/services/socketService.js:401-431 | a resize from the owning socket with a container reaches that container; a failure is reported; otherwise it is ignored |
| SocketService.Connection.OnDisconnect | server/services/socketService.js:164-189 | fires at most once per socket; the entry is released only when setup has returned and this socket owns it |
| SocketService.Connection.OnDisconnectRegisteredEarly | server/services/socketService.js:164-189 | the intended handler, registered before setup: releases the entry whenever this socket owns it |
| SocketService.DisconnectDuringSetupStrandsEntry | server/services/socketService.js:159-189 | a client that disconnects while `getContainer` is awaited leaves, once setup completes, a ready entry owned by its dead socket, and the next connection to the session is refused with "Session already active elsewhere." |
| SocketService.EarlyDisconnectFreesSession | server/services/socketService.js:159-189 | with the handler registered early and the completion re-validated, a disconnect during the attach await frees the entry, the late completion writes nothing, and the next connection is let in |
| ServerInput.FirstLineEnd | server/services/socketService.js:379 | the index found is a line end with none before it |
| ServerInput.Lines | server/services/socketService.js:377-398 | text without a line end completes no line and stays buffered whole; the remainder is never longer than the input |
| ServerInput.LinesRemainderIsSuffix | server/services/socketService.js:377-398 | what stays buffered is the input's tail after its last line end |
| ServerInput.IsRawControl | server/services/socketService.js:370 | a raw control event is never DEL, so the DEL branch and the raw branch never overlap |
| ServerInput.PasteStartingWithLineEndBypassesBuffer | server/services/socketService.js:370-375 | data longer than one character whose first character is a line end is written raw and leaves the buffer alone |
| ServerInput.SplitLines | server/services/socketService.js:377-398 | the splitting loop computes exactly the recursive line split `Lines` |
| ServerInput.DropLast | server/services/socketService.js:368 | `slice(0, -1)` drops the last character, and of an empty buffer leaves it empty (a character here is a Unicode scalar value, not a UTF-16 code unit) |
| ServerInput.InputStep | server/services/socketService.js:363-398 | DEL is written raw and drops the last buffered character; other control characters are written raw with the buffer kept; after text the buffer holds no line end |
| ServerInput.LinesRemainderHasNoLineEnd | server/services/socketService.js:378-398 | the buffer left after splitting holds no "\n" or "\r" |
| ServerInput.LinesAreSingleLines | server/services/socketService.js:378-398 | every written command is line-end-free text followed by exactly one "\n" |
| ServerInput.LinesRoundTrip | server/services/socketService.js:378-398 | the written commands followed by the remainder are the input with "\r\n" and lone "\r" turned into "\n" |
| ServerInput.EnteredLineIsWrittenWhole | server/services/socketService.js:377-398 | a plain line followed by "\n" into an empty buffer is written as that one command, leaving the buffer empty |
| ServerInput.PartialLineIsBuffered | server/services/socketService.js:377-398 | text without a line end is only buffered: nothing is written |
| ClientTerminal.Keystroke | client/src/components/terminal/Terminal.js:211-276 | Enter sends the buffer plus "\n", echoes "\r\n" and clears; DEL on a non-empty buffer echoes "\b \b", drops one character and sends DEL; on an empty buffer it does nothing; other control characters are sent unechoed; printables are echoed and buffered; empty data changes nothing |
| ClientTerminal.KeyAsErasure | client/src/components/terminal/Terminal.js:226-270 | one printable or DEL key leaves the buffer that erasing the DELs from buffer-plus-key gives |
| ClientTerminal.RunMatchesErase | client/src/components/terminal/Terminal.js:226-270 | after any run of printables and DELs, the buffer is the typed text with each DEL having removed the character (Unicode scalar value) before it |
| ClientTerminal.RunSendsOnlyErasures | client/src/components/terminal/Terminal.js:226-270 | before Enter, such a run sends nothing but DEL characters |
| ClientTerminal.EnterSendsErasedLine | client/src/components/terminal/Terminal.js:214-270 | Enter after such a run sends the erased typed text plus "\n" as the last payload, and leaves the buffer empty |
| ClientTerminal.EnteredLineReachesShellWhole | client/src/components/terminal/Terminal.js:214-225 | the line sent on Enter, received by the server into an empty buffer, is written to the shell as that one command |
| ClientTerminal.TypingWithCorrection | client/src/components/terminal/Terminal.js:214-265 | "ls", DEL, "s -la", Enter sends DEL and then "ls -la\n" |
| ClientTerminal.TerminalView.constructor | client/src/components/terminal/Terminal.js:67-72 | no terminal, no socket, empty buffer |
| ClientTerminal.TerminalView.InitTerminal | client/src/components/terminal/Terminal.js:109-143 | initialisation is refused while a terminal or a socket exists; otherwise both are created, the socket is not yet connected, and the buffer is empty |
| ClientTerminal.TerminalView.RequestStart | client/src/components/terminal/Terminal.js:290-299 | a start request goes out exactly when the view is inactive and no terminal or socket exists; nothing marks it pending |
| ClientTerminal.TerminalView.OnStartResponse | client/src/components/terminal/Terminal.js:299-311 | a returned session id initialises the terminal exactly when no terminal or socket exists yet; `isActive` is not looked at again |
| ClientTerminal.TerminalView.DoubleClickStartsTwice | client/src/components/terminal/Terminal.js:290-311 | two clicks before the first response send two start requests; the first session id initialises the terminal and the second is refused by `initTerminal` |
| ClientTerminal.TerminalView.OnConnect | client/src/components/terminal/Terminal.js:146-151 | an existing socket becomes connected |
| ClientTerminal.TerminalView.OnData | client/src/components/terminal/Terminal.js:203-276 | input without a connected socket changes nothing; otherwise the screen, the sent payloads and the buffer change as `Keystroke` says |
| ClientTerminal.TerminalView.OnOutput | client/src/components/terminal/Terminal.js:153-167 | output is written while the terminal exists and is dropped otherwise |
| ClientTerminal.TerminalView.Cleanup | client/src/components/terminal/Terminal.js:75-94 | the socket and terminal are dropped and the buffer is emptied |
| ClientTerminal.TerminalView.HandleTerminate | client/src/components/terminal/Terminal.js:314-329 | cleanup, then a terminate request for the session of record, if there is one |
| ClientTerminal.TerminalView.OnServerError | client/src/components/terminal/Terminal.js:182-189 | the error is shown while the terminal exists, then everything is terminated |
| ClientTerminal.TerminalView.OnTerminated | client/src/components/terminal/Terminal.js:191-199 | the message is shown, then cleanup runs without a terminate request |
| ClientTerminal.TerminalView.OnDisconnect | client/src/components/terminal/Terminal.js:169-180 | the reason is shown, then cleanup runs |
| DockerService.ToPosixPath | server/services/dockerService.js:169 | every backslash becomes '/', other characters and the length are kept |
| DockerService.PosixPathIsClean | server/services/dockerService.js:169 | no backslash survives, converting again changes nothing, and a path without backslashes is unchanged |
| DockerService.Bind | server/services/dockerService.js:181 | the bind is the converted path followed by ":/app" |
| DockerService.SandboxLimits | server/services/dockerService.js:172-191 | the sandbox has 512 MiB memory, 1 GiB swap, CPU set "0", bridge networking, no-new-privileges, working directory /app and /bin/sh |
| DockerService.ImageListed | server/services/dockerService.js:105-107 | an image counts as present exactly when some listed image's RepoTags contains the name |
| DockerService.EnsureImage | server/services/dockerService.js:101-129 | a failed listing gives false; a listed image gives true; otherwise the result is whether the pull succeeded |
| DockerService.DockerHost.Launch | server/services/dockerService.js:172-194 | a create error leaves the runtime unchanged; otherwise a fresh container with the sandbox settings is added, running exactly when its start succeeded |
| DockerService.DockerHost.Recreate | server/services/dockerService.js:294-355 | a missing project fails; extraction happens only when the path is missing; success exactly when the project exists, has or gets extracted files, and create and start succeed; each error carries the prefix "Failed to recreate container: "; on success only the record's container id changes, to a fresh running container's |
| DockerService.DockerHost.GetContainer | server/services/dockerService.js:248-291 | a missing or inactive record fails; a running container is returned with nothing changed; any other inspect error fails without recreation; a stopped or missing one is recreated once, and the answer is then the recreation's, its errors prefixed with "Failed to get container for session: ", its success the fresh container recorded for the session |
| DockerService.DockerHost.Terminate | server/services/dockerService.js:215-245 | a missing record fails; an already terminated one succeeds with nothing changed; otherwise stop and remove, then the record becomes terminated with an end time; any failure is one error |
| DockerService.DockerHost.Start | server/services/dockerService.js:132-212 | the active record is created only after the container was created and started; every failure is "Failed to start terminal session" with the records unchanged |
| Listing.PageWindow | server/controllers/adminController.js:11-13 | page and limit default to 1 and 10 when absent or 0, and the offset is (page-1)*limit |
| Listing.Pages | server/controllers/adminController.js:72 | `Math.ceil(total / limit)`: for a positive limit the least r with total <= r*limit, and the mirrored bound for a negative limit |
| Listing.PagesOfPositiveLimit | server/controllers/adminController.js:72 | with a positive limit the page count is never negative and is 0 exactly when nothing was found |
| Listing.EveryItemIsOnAListedPage | server/controllers/adminController.js:11-13 | with a positive limit every item's index falls in the window of some page between 1 and the page count |
| Listing.Select | server/controllers/projectController.js:29-37 | a query finds only projects of the collection |
| Listing.Truthy | server/controllers/projectController.js:19-21 | an absent or empty query parameter adds no filter; any other is used as given |
| Listing.UnknownStatusFindsNothing | server/models/Project.js:40-43 | a status filter that spells no status finds nothing |
| Listing.FilterNarrows | server/controllers/adminController.js:24-26 | adding a student filter only narrows the result, to that student's projects |
| AdminController.AdminProjectsQuery | server/controllers/adminController.js:16-27 | status and student filter exactly when given and not empty, with the given value |
| AdminController.GetAdminProjects | server/controllers/adminController.js:8-79 | the answer lists the query's matches and their count, with the shared paging rules, and stats filled from the aggregation |
| AdminController.AdminListingIsComplete | server/controllers/adminController.js:55-64 | an unfiltered listing finds every project; the stats always hold all four keys; `total` is the project count unless a row overwrites it |
| AdminController.Stats | server/controllers/adminController.js:55-64 | the `forEach` loop computes the defaults overlaid, row by row, with the aggregated counts |
| AdminController.StatsHaveAllKeys | server/controllers/adminController.js:55-64 | total, submitted, reviewed and pending are always present |
| AdminController.StatsDefault | server/controllers/adminController.js:55-64 | a key no row names keeps its default |
| AdminController.StatsLastRowWins | server/controllers/adminController.js:62-64 | a key some row names holds the count of the last such row |
| AdminController.Review | server/controllers/adminController.js:84-119 | a missing or invalid status gives 400 before the lookup; a missing project gives 404; success exactly otherwise, storing the review on that project alone |
| AdminController.ReviewStoresStatus | server/controllers/adminController.js:88-110 | each of the three statuses is accepted, and stored with the reviewer recorded |
| AdminController.StartMessage | server/controllers/adminController.js:175 | the answer's message is never empty: the error's own message when it has one |
| AdminController.CaughtAsWritten | server/controllers/adminController.js:172-178 | the catch block as written answers every error with 500 |
| AdminController.ProjectNotFoundAnsweredWith500 | server/controllers/adminController.js:140-143 | as written, the 404 for a missing project reaches the client as 500 |
| AdminController.Caught | server/controllers/adminController.js:172-178 | the catch block as intended keeps a status set before the error, and otherwise answers 500 |
| AdminController.StartTerminalSession | server/controllers/adminController.js:124-179 | Docker unavailable gives 500 before any lookup; as written, a missing project gives 500 "Project not found"; an active session of this admin for the project is reused with 200 and no container; otherwise success (201) exactly when the Docker start succeeds, and the started session is new, active and backed by a running container, while a failure is 500 "Failed to start terminal session"; taken as one step, it keeps at most one active session per project and admin |
| AdminController.InterleavedStartsDuplicateSession | server/controllers/adminController.js:145-163 | two starts whose `findOne` checks both run before either session is saved leave two active sessions for the same project and admin |
| AdminController.OverlappingStartsBothSave | server/controllers/adminController.js:145-163 | after both checks saw no active session, two `DockerHost.Start` calls both succeed with different ids, and the store holds two active sessions for the pair |
| AdminController.ActiveSessionsOf | server/controllers/adminController.js:214-236 | the listing holds only sessions of the store |
| AdminController.TerminateTerminalSession | server/controllers/adminController.js:184-209 | a missing session or one of another admin gives 404 with nothing changed; an already terminated one gives 200 "Session already terminated" with nothing changed; an active one succeeds exactly when its container is stopped and removed, and is then terminated with the end time; any failure is passed on as "Failed to terminate terminal session" with the records unchanged; other sessions are untouched |
| AdminController.TerminatedSessionLeavesListing | server/controllers/adminController.js:214-219 | termination removes exactly that session from its admin's listing |
| AdminController.StartedSessionJoinsListing | server/controllers/adminController.js:214-219 | a started session joins its admin's listing and no other admin's |
| ProjectController.ProjectsQuery | server/controllers/projectController.js:11-21 | a student's query is confined to their own id, an admin's is not; a non-empty status adds an equality filter |
| ProjectController.StudentListsOnlyOwnProjects | server/controllers/projectController.js:14-16 | every project a student lists is their own |
| ProjectController.AdminListsEveryProject | server/controllers/projectController.js:11-21 | an admin's unfiltered listing holds every project |
| ProjectController.GetProjects | server/controllers/projectController.js:9-52 | the answer is the query's matches, their count, the page window and `Math.ceil(total/limit)` pages |
| ProjectController.GetProject | server/controllers/projectController.js:57-81 | a missing project gives 404, another student's 403, otherwise the project |
| ProjectController.UploadedPaths | server/controllers/projectController.js:130-137 | the files removed after a failure are exactly the paths of the uploaded files |
| ProjectController.CreateProject | server/controllers/projectController.js:86-140 | a non-student gets 403; a missing file field 400; a stack that does not parse 400; an empty file list fails reading `path`; a store error fails; each failure removes the uploads; success creates one submitted project owned by the student |
| ProjectController.CreatedProjectIsSubmitted | server/controllers/projectController.js:114-127 | a created project is new, submitted, unreviewed, not extracted, owned by its creator and points at the uploaded files |
| ProjectController.StudentEdit | server/controllers/projectController.js:163-174 | a student update sets name, description and stack when given, and nothing else |
| ProjectController.ParsedStack | server/controllers/projectController.js:166-168 | an absent or empty stack leaves the stack alone; a list is taken as is; a text is parsed, and its parse error is passed on |
| ProjectController.UpdateProject | server/controllers/projectController.js:145-198 | a missing project gives 404; another student's 403; failures leave the collection unchanged; success stores the update on that project only, field-restricted by role; the owner's update succeeds exactly when the stack parses and the store accepts it, and stores `StudentEdit` of the parsed stack; an admin's succeeds exactly when the status is absent or valid and stores the review |
| ProjectController.EnumError | server/models/Project.js:40-43 | the enum validator's message embeds the rejected value between its fixed head and tail |
| ProjectController.StudentCannotReview | server/controllers/projectController.js:163-174 | a student update never changes status, review, owner or files |
| ProjectController.AdminCannotEditSubmission | server/controllers/projectController.js:175-188 | an admin update never changes name, description, stack or owner, whatever name, description and stack it sends |
| ProjectController.ExistingFiles | server/controllers/projectController.js:219-230 | exactly the project's zip, LaTeX and extracted paths that exist on disk are deleted |
| ProjectController.DeleteProject | server/controllers/projectController.js:203-241 | a missing project gives 404; another student's 403; otherwise the record and its existing files are removed |
| ProjectController.DeleteTwiceIsNotFound | server/controllers/projectController.js:207-210 | a second delete of the same project finds nothing and changes nothing |
| FileController.Sanitize | server/controllers/fileController.js:57 | each character (Unicode scalar value) outside `[a-zA-Z0-9_.-]` becomes '_', allowed characters and the length in characters are kept |
| FileController.SanitizeIsClean | server/controllers/fileController.js:57 | the result holds only allowed characters, sanitising again changes nothing, and a clean name is unchanged |
| FileController.CheckAndDownload | server/controllers/fileController.js:6-89 | a missing project gives 404, another student's 403, an unset path 404, a file missing on disk 404; only then is the stored path sent as the sanitised name with the kind's extension |
| FileController.OfferedNameIsSafe | server/controllers/fileController.js:57 | the offered name holds only allowed characters and ends with ".zip" or ".tex" |
| FileController.Extension | server/controllers/fileController.js:95-104 | each offered extension is three characters with no '.' or '/' |
| FileController.DownloadEndpoints | server/controllers/fileController.js:95-104 | the zip endpoint serves `zipFilePath` as "ZIP" with "zip", the LaTeX one `latexFilePath` as "LaTeX" with "tex"; the two share no label and no extension |
| AuthMiddleware.Verify | server/middlewares/authMiddleware.js:15 | an absent or empty token never verifies |
| AuthMiddleware.Protect | server/middlewares/authMiddleware.js:5-42 | `next` is called once, without an error exactly when a user was loaded; no Bearer header gives "no token"; a verification or lookup error gives "token failed"; a missing user gives "user not found" |
| AuthMiddleware.AdminGuard | server/middlewares/authMiddleware.js:45-53 | passes exactly a loaded admin, otherwise 403 |
| AuthMiddleware.StudentGuard | server/middlewares/authMiddleware.js:56-64 | passes exactly a loaded student, otherwise 403 |
| AuthMiddleware.GuardsPartitionUsers | server/middlewares/authMiddleware.js:45-64 | a loaded user passes exactly one guard, and a request without a user passes neither |
| AuthMiddleware.BearerHeaderCarriesToken | server/middlewares/authMiddleware.js:9-15 | "Bearer " followed by a space-free token is a Bearer header that hands that token to the verifier |
| Upload.ZipFileFilter | server/middlewares/uploadMiddleware.js:41-50 | accepts exactly a lower-cased extension of ".zip", otherwise "Only zip files are allowed!" |
| Upload.LatexFileFilter | server/middlewares/uploadMiddleware.js:53-62 | accepts exactly a lower-cased extension of ".tex" or ".latex", otherwise "Only LaTeX files are allowed!" |
| Upload.StoredName | server/middlewares/uploadMiddleware.js:23-26 | the stored name is prefix, "-" and suffix followed by the original extension |
| Upload.StoredNameKeepsExtension | server/middlewares/uploadMiddleware.js:34-37 | the stored name's extension is the original's, letter case included |
| Upload.Field | server/middlewares/uploadMiddleware.js:65-75 | each middleware reads one of the two fields the project route knows |
| Upload.Limit | server/middlewares/uploadMiddleware.js:68-74 | each cap is positive and at most the project route's 50 MiB |
| Upload.Destination | server/middlewares/uploadMiddleware.js:19-33 | each middleware stores in the directory the project route uses for the same field |
| Upload.Prefix | server/middlewares/uploadMiddleware.js:23-37 | each stored-name prefix is non-empty, holds no '.' or '/', and differs from the route's field-name prefix |
| Upload.Filter | server/middlewares/uploadMiddleware.js:65-75 | a file is accepted only with an extension, and refused with one of the two filter messages |
| Upload.ReceiveKeepsExtension | server/middlewares/uploadMiddleware.js:23-37 | a stored file keeps its original extension |
| Upload.Receive | server/middlewares/uploadMiddleware.js:65-75 | a file under another field is unexpected; then the filter decides; then the 50 MiB or 10 MiB cap; an accepted file is stored in the kind's directory |
| Upload.UploadMiddleware | server/middlewares/uploadMiddleware.js:78-98 | an upload error is passed on with 400; no file or an accepted file proceeds without an error |
| Upload.RouteFilter | server/routes/projectRoutes.js:31-55 | a zip is accepted by MIME type or a lower-cased ".zip" name ending; a LaTeX file by ".tex", ".latex" or ".ltx"; any other field is "Unexpected field" |
| Upload.RouteDestination | server/routes/projectRoutes.js:17-23 | a destination exists exactly for the two known fields |
| Upload.RouteReceive | server/routes/projectRoutes.js:24-63 | the filter, then the 50 MiB cap; an accepted file is stored as field name, "-", suffix and extension in its field's directory |
| Upload.RouteAcceptsMiddlewareZips | server/routes/projectRoutes.js:32-37 | every zip the middleware accepts the route accepts too |
| Upload.RouteAcceptsMiddlewareLatex | server/routes/projectRoutes.js:41-48 | every LaTeX file the middleware accepts the route accepts too |
| Upload.RouteTakesZipByMimeType | server/routes/projectRoutes.js:34-36 | the route takes a zip by MIME type alone, which the middleware refuses |
| Upload.RouteTakesLtx | server/routes/projectRoutes.js:44 | the route takes ".ltx", which the middleware refuses |
| TerminalReducer.Reduce | client/src/redux/reducers/terminalReducer.js:17-51 | START sets the session, active and not loading; CONNECTED sets connected; DISCONNECTED and TERMINATE clear session, active, connected and loading while keeping the error; ERROR sets only error and loading; other actions change nothing |
| TerminalReducer.EndingIsIdempotent | client/src/redux/reducers/terminalReducer.js:34-42 | disconnect and terminate give the same state, each is idempotent, and the error is kept |
| TerminalReducer.StartThenConnect | client/src/redux/reducers/terminalReducer.js:21-33 | start then connect gives an active, connected session with that id |
| TerminalReducer.SecondStartReplacesSession | client/src/redux/reducers/terminalReducer.js:21-28 | a second START_TERMINAL replaces the stored session id, so after a double click the store names the second session while the view shows the first |
| TerminalReducer.EndedStaysInactive | client/src/redux/reducers/terminalReducer.js:17-51 | an ended terminal stays inactive under every action but START |
| ProjectReducer.ReplaceById | client/src/redux/reducers/projectReducer.js:45-47 | exactly the elements with the payload's id are replaced; length and order are kept |
| ProjectReducer.RemoveById | client/src/redux/reducers/projectReducer.js:54 | the result holds exactly the elements with another id |
| ProjectReducer.RemoveByIdIsIdempotent | client/src/redux/reducers/projectReducer.js:51-56 | removing twice is removing once |
| ProjectReducer.RemoveByIdKeepsOthers | client/src/redux/reducers/projectReducer.js:51-56 | a list without the id is unchanged, order included |
| ProjectReducer.RemoveByIdAppend | client/src/redux/reducers/projectReducer.js:51-56 | removal distributes over concatenation, so the survivors keep their order |
| ProjectReducer.Reduce | client/src/redux/reducers/projectReducer.js:19-71 | GET_PROJECTS and GET_PROJECT replace their fields; ADD prepends; UPDATE replaces by id and sets the project; DELETE removes by id; ERROR sets only error and loading; CLEAR nulls the project; only GET_PROJECTS changes the pagination; other actions change nothing |
| ProjectReducer.DeleteIsIdempotent | client/src/redux/reducers/projectReducer.js:51-56 | deleting twice is deleting once |
| ProjectReducer.AddThenDelete | client/src/redux/reducers/projectReducer.js:36-56 | adding a project with a new id and deleting it restores the list |
| ProjectReducer.UpdateKeepsIds | client/src/redux/reducers/projectReducer.js:42-50 | an update keeps the list's length and every element's id |
| AdminReducer.Reduce | client/src/redux/reducers/adminReducer.js:23-79 | GET_ADMIN_PROJECTS replaces projects, stats and pagination and keeps the terminal; ERROR sets error and loading; START, TERMINATE and TERMINAL_ERROR change only the terminal as stated; CLEAR resets the terminal to its initial value; other actions change nothing |
| AdminReducer.ClearForgetsTerminal | client/src/redux/reducers/adminReducer.js:68-76 | clearing after any terminal action is the same as clearing at once |
| AdminReducer.TerminalActionsKeepListing | client/src/redux/reducers/adminReducer.js:41-76 | terminal actions never touch projects, stats, loading or error |
| ClientStore.UnhandledActionLeavesStore | client/src/redux/reducers/index.js:8-14 | a slice moves only for an action its reducer handles; an action no reducer handles leaves the store as it was |
| ClientStore.StartAndTerminateSynchronise | client/src/redux/reducers/index.js:8-14 | START and TERMINATE leave the terminal and admin views in agreement and the project slice untouched |
| ClientStore.DisconnectLeavesAdminView | client/src/redux/reducers/index.js:8-14 | a socket disconnect ends the terminal view's session but leaves the admin view's session active |

## Left out

- Socket.io transport: emitted events and stream writes are appended logs; listener registration and `socket.disconnect()` are flags.
- Real concurrency: the async code is modelled as ordered atomic steps between awaits, and races as interleavings of those steps.
- AdminController.StartTerminalSession: the handler is one atomic step across its awaits, so its preservation of one active session per project and admin holds only for starts that do not overlap; two overlapping starts can both pass the `findOne` check and both create a session, as `AdminController.InterleavedStartsDuplicateSession` shows; the collection has no unique index. `AdminController.OverlappingStartsBothSave` shows the same through two `DockerHost.Start` calls.
- ClientTerminal.TerminalView.RequestStart: the client's half of the same race (two clicks before the first response) is modelled; the server's handling of the two requests is the server-side race above.
- ServerInput.DropLast: strings are sequences of Unicode scalar values, while JavaScript's `slice(0, -1)` removes one UTF-16 code unit; after a character outside the Basic Multilingual Plane (such as "a😀"), DEL leaves "a" in the model but "a" plus a lone high surrogate in the program, and Enter then sends that surrogate to the shell.
- ClientTerminal.Keystroke: the DEL branch has the same difference (Terminal.js:233 also uses `slice(0, -1)`), so `ClientTerminal.RunMatchesErase` and `ClientTerminal.EnterSendsErasedLine` speak of scalar values, not of the code units the program erases.
- FileController.Sanitize: the regular expression has no `u` flag, so the program replaces each UTF-16 code unit; a character outside the Basic Multilingual Plane becomes "__" in the program and one '_' in the model, and the length kept by `FileController.OfferedNameIsSafe` is in scalar values.
- dockerode: ping, list, create, start, attach, inspect, stop, remove and pull are an abstract runtime map plus parameters for success or failure. The `execSync` diagnostics and the Docker host and socket environment parsing are not modelled.
- Filesystem and archives: extraction is a parameter that returns a path or an error; file existence is a parameter; `unlinkSync` and the recursive directory removal never fail in the model; the download transfer and `createDirs` are not modelled.
- Mongo: collections are maps; `populate`, `sort`, `skip`/`limit` slicing of the page contents and the status `aggregate` are not computed. The aggregation rows are a parameter of `AdminController.GetAdminProjects`. Database errors are modelled only where a controller handles them differently (the create and update store errors, the session lookup failure).
- Admin listing search: the `$regex` search on name and description is not modelled.
- JWT, bcrypt and uuid: token verification is a parameter; setup tokens, session ids and container ids come from counters; timestamps and the time-and-random file-name suffix are parameters.
- Error middleware: it is not part of this model; a `next(error)` is reported with the status set before it, if any (`preset`).
- ProjectController.CreateProject: schema validation (required fields, maximum lengths) is folded into the `createError` parameter; the schema's `trim: true` on the name is not modelled, so the model stores the name as sent where the program stores it trimmed; and the new id is required to be fresh, as the store guarantees.
- ProjectController.UpdateProject: the update validators are folded into `storeError`, except the status enum, whose message is reproduced; as for creation, the name is stored untrimmed in the model, while Mongoose's setters trim it in the program.
- Models.WithReview: assumes Mongoose 6 or later, which drops an undefined field from an update; with Mongoose 5 and no `omitUndefined`, the program would write null comments.
- Listing.Pages: JavaScript's `parseInt` results of `NaN`, and the floating-point division inside `Math.ceil`, are modelled on integers only.
- ClientTerminal.Keystroke: `data` is one xterm event; multi-character pastes that begin with a printable are buffered whole, as in the source.
- ClientTerminal.TerminalView: the effect at Terminal.js:366-372 is not modelled. Its cleanup calls `handleTerminateTerminal`, which depends on the store's `sessionId` (:329), so it runs on every change of that id, not only on unmount: each run cleans up the terminal and asks the server to terminate the previous id. Two consequences are therefore missing from the model: after a client socket disconnect, `terminalDisconnected()` clears the id and the effect then sends a terminate request for the session, which `ClientTerminal.TerminalView.OnDisconnect` does not; and after a double click, the second START_TERMINAL tears down the shown terminal and terminates the first session, which `ClientTerminal.TerminalView.DoubleClickStartsTwice` does not show.
- ClientTerminal.TerminalView: the fit add-on, the resize listener, React rendering and `downloadFile` are UI.
- Redux action creators are HTTP wrappers and are not modelled; the action type constants are assumed distinct (types.js is not part of this model).
- `authController.js`, `User.js`, the route wiring files, `server.js`, `config/db.js` and `scripts/setup.js` are outside the modelled core.

## Findings

| source | as written | input that shows it | evidently intended | confidence | as-written member | corrected member |
|---|---|---|---|---|---|---|
| server/services/socketService.js:268-287 | completion writes a copy of the entry read before the attach await, with no token re-check after it | attempt 1 places its placeholder and gets its container; while it awaits `attach`, the entry is released and attempt 2 places its own placeholder; attempt 1 then completes | a completion stores container and stream only while its token still owns the entry | not executed | Registry.StaleCompletionOverwritesNewerAttempt, SocketService.Connection.OnAttached | Registry.Completed, SocketService.Connection.OnAttachedRevalidated |
| server/controllers/adminController.js:140-178 | the 404 set for a missing project is overwritten by the catch block's `res.status(500)` | start a terminal session for a project id that does not exist, with Docker running | the client receives 404 "Project not found" | not executed | AdminController.ProjectNotFoundAnsweredWith500, AdminController.StartTerminalSession | AdminController.Caught |
| server/controllers/adminController.js:145-163 | the check for an active session and the creation of a new one are separated by awaits, and the session collection has no unique index | the same admin sends two start requests for one project; both `findOne` checks run before either session is saved | at most one active session per project and admin | not executed | AdminController.InterleavedStartsDuplicateSession, AdminController.OverlappingStartsBothSave, ClientTerminal.TerminalView.DoubleClickStartsTwice | AdminController.StartTerminalSession |
| server/services/socketService.js:159-189 | the `disconnect` listener is registered only after `setupTerminalSession` returns, so a disconnect during setup releases nothing, and setup then completes for the dead socket | the client disconnects while `getContainer` is awaited; setup completes; another socket connects to the same session | a socket that disconnects releases the entry it owns, whatever stage setup has reached | not executed | SocketService.DisconnectDuringSetupStrandsEntry, SocketService.Connection.OnDisconnect | SocketService.Connection.OnDisconnectRegisteredEarly, SocketService.EarlyDisconnectFreesSession |

=== FILE: actions.dfy ===
/**
 * The client's Redux actions and the values they carry. Every reducer sees
 * every action; an action type a reducer does not name leaves its state
 * as it is.
 */
module ClientActions {
  import opened Wrappers
  import opened Models

  /** A project document as the client holds it: its `_id` and its fields. */
  datatype ProjectDoc = ProjectDoc(id: string, body: Project)

  /** A listing's pagination block. */
  datatype Pagination = Pagination(total: nat, page: int, pages: int)

  /**
   * An `error` field: `null`, the empty object a project state starts with,
   * or the `{ msg, status }` an action creator reports from a failed request.
   */
  datatype ErrorValue = NoError | EmptyObject | ErrorInfo(msg: string, status: int)

  datatype Action =
    | StartTerminal(sessionId: Option<string>)
    | TerminalConnected
    | TerminalDisconnected
    | TerminateTerminal
    | TerminalError(error: ErrorValue)
    | ClearTerminal
    | GetProjects(docs: seq<ProjectDoc>, paging: Option<Pagination>)
    | GetProject(doc: ProjectDoc)
    | AddProject(doc: ProjectDoc)
    | UpdateProject(doc: ProjectDoc)
    | DeleteProject(id: string)
    | ProjectError(error: ErrorValue)
    | ClearProject
    | GetAdminProjects(docs: seq<ProjectDoc>, stats: map<string, int>, pagination: Pagination)
    | AdminProjectError(error: ErrorValue)
    /** Any other action type (authentication, alerts). */
    | Other(name: string)
}

=== FILE: admin_controller.dfy ===
/**
 * The admin endpoints: the project listing's status statistics, project
 * review, and starting, terminating and listing terminal sessions.
 */
module AdminController {
  import opened Wrappers
  import opened Models
  import opened Http
  import opened Listing
  import opened DockerService

  /** One row of the status aggregation: a status value and how many projects have it. */
  datatype StatusCount = StatusCount(id: string, count: int)

  /** The stats object before the aggregation is copied in. */
  function InitialStats(total: int): map<string, int>
  {
    map["total" := total, "submitted" := 0, "reviewed" := 0, "pending" := 0]
  }

  /** `stats` after each aggregated row has been written over it in order. */
  function Overlay(stats: map<string, int>, counts: seq<StatusCount>): map<string, int>
    decreases |counts|
  {
    if counts == [] then stats
    else
      var last := counts[|counts| - 1];
      Overlay(stats, counts[..|counts| - 1])[last.id := last.count]
  }

  /** The `forEach` that fills the dashboard statistics. */
  method Stats(total: int, statusCounts: seq<StatusCount>) returns (stats: map<string, int>)
    ensures stats == Overlay(InitialStats(total), statusCounts)
  {
    stats := map["total" := total, "submitted" := 0, "reviewed" := 0, "pending" := 0];
    for i := 0 to |statusCounts|
      invariant stats == Overlay(InitialStats(total), statusCounts[..i])
    {
      assert statusCounts[..i + 1][..i] == statusCounts[..i];
      stats := stats[statusCounts[i].id := statusCounts[i].count];
    }
    assert statusCounts[..|statusCounts|] == statusCounts;
  }

  /** The four keys are always present, whatever the aggregation returns. */
  lemma {:induction false} StatsHaveAllKeys(total: int, counts: seq<StatusCount>)
    ensures {"total", "submitted", "reviewed", "pending"} <= Overlay(InitialStats(total), counts).Keys
    decreases |counts|
  {
    if counts != [] {
      StatsHaveAllKeys(total, counts[..|counts| - 1]);
    }
  }

  /** A key no row names keeps its initial value (0 for a status, the total for `total`). */
  lemma {:induction false} StatsDefault(stats: map<string, int>, counts: seq<StatusCount>, k: string)
    requires k in stats
    requires forall j :: 0 <= j < |counts| ==> counts[j].id != k
    ensures k in Overlay(stats, counts) && Overlay(stats, counts)[k] == stats[k]
    decreases |counts|
  {
    if counts != [] {
      StatsDefault(stats, counts[..|counts| - 1], k);
    }
  }

  /** A key some row names holds the count of the last such row: it overwrites the default. */
  lemma {:induction false} StatsLastRowWins(stats: map<string, int>, counts: seq<StatusCount>, j: nat)
    requires j < |counts|
    requires forall j' :: j < j' < |counts| ==> counts[j'].id != counts[j].id
    ensures counts[j].id in Overlay(stats, counts)
    ensures Overlay(stats, counts)[counts[j].id] == counts[j].count
    decreases |counts|
  {
    if j < |counts| - 1 {
      StatsLastRowWins(stats, counts[..|counts| - 1], j);
    }
  }

  /** The filters of `getAdminProjects`: status and student, each only when given and not empty. */
  function AdminProjectsQuery(status: Option<string>, student: Option<UserId>): (q: Query)
    ensures q.status.Some? <==> status.Some? && status.value != []
    ensures q.student.Some? <==> student.Some? && student.value != []
    ensures q.status.Some? ==> q.status == status
    ensures q.student.Some? ==> q.student == student
  {
    Query(Truthy(student), Truthy(status))
  }

  /** What `getAdminProjects` reports: the matching projects, the statistics, the page window and the page count. */
  datatype AdminListing = AdminListing(found: set<ProjectId>, stats: map<string, int>, window: Window,
                                       total: nat, pages: int)

  /**
   * `getAdminProjects`: the query's matches and their count, the paging of
   * the shared listing rules, and the statistics filled from the status
   * aggregation `statusCounts`.
   */
  function GetAdminProjects(projects: map<ProjectId, Project>, status: Option<string>, student: Option<UserId>,
                            page: Option<int>, limit: Option<int>, statusCounts: seq<StatusCount>)
    : (r: Reply<AdminListing>)
    ensures r.Success? && r.code == 200
    ensures r.data.found == Select(projects, AdminProjectsQuery(status, student))
    ensures r.data.total == |r.data.found|
    ensures r.data.window == PageWindow(page, limit)
    ensures r.data.pages == Pages(r.data.total, r.data.window.limit)
    ensures r.data.stats == Overlay(InitialStats(r.data.total), statusCounts)
  {
    var found := Select(projects, AdminProjectsQuery(status, student));
    var w := PageWindow(page, limit);
    Success(200, AdminListing(found, Overlay(InitialStats(|found|), statusCounts), w, |found|, Pages(|found|, w.limit)))
  }

  /**
   * The dashboard always shows all four figures, `total` counts what the
   * query found unless a status row is literally named "total", and a
   * listing without filters finds every project.
   */
  lemma AdminListingIsComplete(projects: map<ProjectId, Project>, page: Option<int>, limit: Option<int>,
                               statusCounts: seq<StatusCount>)
    ensures var r := GetAdminProjects(projects, None, None, page, limit, statusCounts);
            && r.data.found == projects.Keys
            && {"total", "submitted", "reviewed", "pending"} <= r.data.stats.Keys
            && ((forall j :: 0 <= j < |statusCounts| ==> statusCounts[j].id != "total") ==>
                  r.data.stats["total"] == |projects|)
  {
    var r := GetAdminProjects(projects, None, None, page, limit, statusCounts);
    assert r.data.found == projects.Keys;
    StatsHaveAllKeys(|projects|, statusCounts);
    if forall j :: 0 <= j < |statusCounts| ==> statusCounts[j].id != "total" {
      StatsDefault(InitialStats(|projects|), statusCounts, "total");
    }
  }

  /** `reviewProject`: status validation, then lookup, then the review fields. */
  function Review(projects: map<ProjectId, Project>, id: ProjectId, status: Option<string>,
                  comments: Option<string>, reviewer: UserId, now: int)
    : (r: (Reply<Project>, map<ProjectId, Project>))
    ensures status.None? || ParseStatus(status.value).None? ==>
              r == (Failure(Some(400), "Please provide a valid status"), projects)
    ensures status.Some? && ParseStatus(status.value).Some? && id !in projects ==>
              r == (Failure(Some(404), "Project not found"), projects)
    ensures r.0.Success? <==> status.Some? && ParseStatus(status.value).Some? && id in projects
    ensures r.0.Success? ==>
              && r.0.code == 200
              && r.0.data == WithReview(projects[id], ParseStatus(status.value), comments, reviewer, now)
              && r.1 == projects[id := r.0.data]
  {
    if status.None? || ParseStatus(status.value).None? then
      (Failure(Some(400), "Please provide a valid status"), projects)
    else if id !in projects then
      (Failure(Some(404), "Project not found"), projects)
    else
      var p := WithReview(projects[id], ParseStatus(status.value), comments, reviewer, now);
      (Success(200, p), projects[id := p])
  }

  /** Each of the three statuses is accepted and stored as given, with the reviewer recorded. */
  lemma ReviewStoresStatus(projects: map<ProjectId, Project>, id: ProjectId, st: ProjectStatus,
                           reviewer: UserId, now: int)
    requires id in projects
    ensures var r := Review(projects, id, Some(StatusName(st)), None, reviewer, now);
            && r.0 == Success(200, r.1[id])
            && r.1[id].status == st && r.1[id].reviewedBy == Some(reviewer)
            && r.1[id].reviewComments == projects[id].reviewComments
            && r.1.Keys == projects.Keys
  {
    ParseStatusName(st);
  }

  /** The catch-all answer of `error.message || 'Failed to start terminal session'`. */
  function StartMessage(message: string): (r: string)
    ensures r != []
    ensures message != [] ==> r == message
  {
    if message == [] then "Failed to start terminal session" else message
  }

  /** The catch block of `startTerminalSession` as written: every error is answered with 500. */
  function CaughtAsWritten<T>(preset: Option<int>, message: string): (r: Reply<T>)
    ensures r.Failure? && r.preset == Some(500) && r.message != []
  {
    Failure(Some(500), StartMessage(message))
  }

  /** As written, the 404 set for a missing project is overwritten with 500. */
  lemma ProjectNotFoundAnsweredWith500()
    ensures CaughtAsWritten<SessionId>(Some(404), "Project not found") == Failure(Some(500), "Project not found")
  {
  }

  /** The catch block as intended: a status set before the error is kept, otherwise 500. */
  function Caught<T>(preset: Option<int>, message: string): (r: Reply<T>)
    ensures r.Failure? && r.message != []
    ensures preset.Some? ==> r.preset == preset
    ensures preset.None? ==> r == CaughtAsWritten<T>(preset, message)
  {
    Failure(Some(if preset.Some? then preset.value else 500), StartMessage(message))
  }

  predicate ActiveFor(rec: SessionRecord, pid: ProjectId, admin: UserId)
  {
    rec.project == pid && rec.admin == admin && rec.status == Active
  }

  /** The `TerminalSession.findOne` of an active session of this admin for the project. */
  predicate HasActive(sessions: map<SessionId, SessionRecord>, pid: ProjectId, admin: UserId)
  {
    exists s :: s in sessions && ActiveFor(sessions[s], pid, admin)
  }

  /** At most one active session per project and admin. */
  ghost predicate UniqueActive(sessions: map<SessionId, SessionRecord>)
  {
    forall s1, s2 ::
      (s1 in sessions && s2 in sessions && sessions[s1].status == Active
       && ActiveFor(sessions[s2], sessions[s1].project, sessions[s1].admin)) ==> s1 == s2
  }

  /**
   * `startTerminalSession`: Docker must be up; the project must exist; an
   * active session of this admin for the project is reused (200); otherwise
   * a container and session are started (201).
   */
  method StartTerminalSession(host: DockerHost, pid: ProjectId, admin: UserId, dockerRunning: bool,
                              dockerUp: bool, listError: Option<string>, extraction: Option<string>,
                              createError: Option<string>, startError: Option<string>, now: int)
    returns (r: Reply<SessionId>)
    requires host.Valid()
    modifies host
    ensures host.Valid()
    ensures !dockerRunning ==>
              r == Failure(Some(500), "Docker service unavailable. Please contact system administrator.")
              && unchanged(host)
    ensures dockerRunning && pid !in old(host.projects) ==>
              r == Failure(Some(500), "Project not found") && unchanged(host)
    ensures dockerRunning && pid in old(host.projects)
            && HasActive(old(host.sessions), pid, admin) ==>
              && r.Success? && r.code == 200
              && r.data in old(host.sessions) && ActiveFor(old(host.sessions)[r.data], pid, admin)
              && unchanged(host)
    ensures r.Success? && r.code == 201 ==>
              && r.data !in old(host.sessions) && r.data in host.sessions
              && host.sessions == old(host.sessions)[r.data := host.sessions[r.data]]
              && ActiveFor(host.sessions[r.data], pid, admin)
              && host.sessions[r.data].containerId in host.containers
              && host.containers[host.sessions[r.data].containerId].running
    ensures r.Failure? ==> host.sessions == old(host.sessions)
    ensures r.Success? ==> r.code in {200, 201}
    ensures dockerRunning && pid in old(host.projects) && !HasActive(old(host.sessions), pid, admin) ==>
              && (r.Success? <==> && dockerUp && listError.None? && Mountable(old(host.projects), pid, extraction)
                                  && createError.None? && startError.None?)
              && (r.Success? ==> r.code == 201)
              && (r.Failure? ==> r == Failure(Some(500), "Failed to start terminal session"))
    ensures UniqueActive(old(host.sessions)) ==> UniqueActive(host.sessions)
  {
    if !dockerRunning {
      return Failure(Some(500), "Docker service unavailable. Please contact system administrator.");
    }
    if pid !in host.projects {
      return CaughtAsWritten(Some(404), "Project not found");
    }
    if HasActive(host.sessions, pid, admin) {
      var s :| s in host.sessions && ActiveFor(host.sessions[s], pid, admin);
      return Success(200, s);
    }
    var started := host.Start(pid, admin, dockerUp, listError, extraction, createError, startError, now);
    if started.Err? {
      return CaughtAsWritten(None, started.msg);
    }
    r := Success(201, started.value.0);
  }

  /**
   * Two starts for the same project and admin whose `findOne` checks both run
   * before either session is saved: both checks see no active session, both
   * records are added, and the store then holds two active sessions for the
   * pair.
   */
  lemma {:induction false} InterleavedStartsDuplicateSession(sessions: map<SessionId, SessionRecord>,
                                                             pid: ProjectId, admin: UserId,
                                                             s1: SessionId, s2: SessionId,
                                                             c1: ContainerId, c2: ContainerId, now: int)
    requires !HasActive(sessions, pid, admin)
    requires s1 !in sessions && s2 !in sessions && s1 != s2
    ensures var after := sessions[s1 := SessionRecord(pid, admin, c1, Active, now, None)]
                                 [s2 := SessionRecord(pid, admin, c2, Active, now, None)];
            !UniqueActive(after)
  {
    var after := sessions[s1 := SessionRecord(pid, admin, c1, Active, now, None)]
                         [s2 := SessionRecord(pid, admin, c2, Active, now, None)];
    assert s1 in after && s2 in after && after[s1].status == Active;
    assert ActiveFor(after[s2], after[s1].project, after[s1].admin);
  }

  /**
   * The same race on the store itself: both handlers' `findOne` checks have
   * seen no active session for the pair, and then each runs `startContainer`
   * (`DockerHost.Start`) to completion. With Docker up and the project
   * extractable, both saves succeed, under different session ids, and the
   * store holds two active sessions for one project and admin.
   */
  method OverlappingStartsBothSave(host: DockerHost, pid: ProjectId, admin: UserId,
                                   extraction: Option<string>, now: int)
    returns (first: Result<(SessionId, ContainerId)>, second: Result<(SessionId, ContainerId)>)
    requires host.Valid()
    requires pid in host.projects && !HasActive(host.sessions, pid, admin)
    modifies host
    ensures host.Valid()
    ensures Extracted(old(host.projects)[pid]) || extraction.Some? ==>
              && first.Ok? && second.Ok? && first.value.0 != second.value.0
              && first.value.0 in host.sessions && second.value.0 in host.sessions
              && ActiveFor(host.sessions[first.value.0], pid, admin)
              && ActiveFor(host.sessions[second.value.0], pid, admin)
              && !UniqueActive(host.sessions)
  {
    var before := host.sessions;
    first := host.Start(pid, admin, true, None, extraction, None, None, now);
    second := host.Start(pid, admin, true, None, extraction, None, None, now);
    if first.Ok? && second.Ok? {
      InterleavedStartsDuplicateSession(before, pid, admin, first.value.0, second.value.0,
                                        first.value.1, second.value.1, now);
    }
  }

  /** The listing of `getTerminalSessions`: this admin's active sessions. */
  function ActiveSessionsOf(sessions: map<SessionId, SessionRecord>, admin: UserId): (r: set<SessionId>)
    ensures r <= sessions.Keys
  {
    set s | s in sessions && sessions[s].admin == admin && sessions[s].status == Active
  }

  /**
   * `terminateTerminalSession`: only a session of this admin can be
   * terminated (404 otherwise); the container's teardown result is the
   * answer, and its errors are passed on without a status.
   */
  method TerminateTerminalSession(host: DockerHost, sid: SessionId, admin: UserId,
                                  stopError: Option<string>, removeError: Option<string>, now: int)
    returns (r: Reply<string>)
    requires host.Valid()
    modifies host
    ensures host.Valid()
    ensures sid !in old(host.sessions) || old(host.sessions)[sid].admin != admin ==>
              r == Failure(Some(404), "Terminal session not found") && unchanged(host)
    ensures r.Success? ==> r.code == 200 && sid in host.sessions && sid !in ActiveSessionsOf(host.sessions, admin)
    ensures r.Failure? && r.preset.None? ==> r.message == "Failed to terminate terminal session"
    ensures forall s :: s in old(host.sessions) && s != sid ==> s in host.sessions && host.sessions[s] == old(host.sessions)[s]
    ensures host.sessions.Keys == old(host.sessions).Keys
    ensures sid in old(host.sessions) && old(host.sessions)[sid].admin == admin ==>
              var rec := old(host.sessions)[sid];
              && (rec.status == Terminated ==>
                    r == Success(200, "Session already terminated") && host.sessions == old(host.sessions))
              && (rec.status == Active ==>
                    && (r.Success? <==> rec.containerId in old(host.containers) && stopError.None? && removeError.None?)
                    && (r.Success? ==>
                          && r == Success(200, "Terminal session terminated successfully")
                          && host.sessions == old(host.sessions)[sid := rec.(status := Terminated, endTime := Some(now))])
                    && (r.Failure? ==>
                          r == Failure(None, "Failed to terminate terminal session") && host.sessions == old(host.sessions)))
    ensures UniqueActive(old(host.sessions)) ==> UniqueActive(host.sessions)
  {
    if sid !in host.sessions || host.sessions[sid].admin != admin {
      return Failure(Some(404), "Terminal session not found");
    }
    var result := host.Terminate(sid, stopError, removeError, now);
    if result.Err? {
      return Failure(None, result.msg);
    }
    r := Success(200, result.value);
  }

  /** Terminating a session takes it out of its admin's listing and leaves the rest. */
  lemma TerminatedSessionLeavesListing(sessions: map<SessionId, SessionRecord>, sid: SessionId,
                                       admin: UserId, now: int)
    requires sid in sessions
    ensures var after := sessions[sid := sessions[sid].(status := Terminated, endTime := Some(now))];
            ActiveSessionsOf(after, admin) == ActiveSessionsOf(sessions, admin) - {sid}
  {
  }

  /** A started session appears in its admin's listing and in no other admin's. */
  lemma StartedSessionJoinsListing(sessions: map<SessionId, SessionRecord>, sid: SessionId,
                                   rec: SessionRecord, admin: UserId)
    requires sid !in sessions && rec.status == Active
    ensures ActiveSessionsOf(sessions[sid := rec], admin)
            == ActiveSessionsOf(sessions, admin) + (if rec.admin == admin then {sid} else {})
  {
  }
}

=== FILE: admin_reducer.dfy ===
/** The client's admin slice: the admin's project listing with its stats, and the admin's terminal. */
module AdminReducer {
  import opened Wrappers
  import opened ClientActions

  datatype AdminTerminal = AdminTerminal(sessionId: Option<string>, isActive: bool, error: ErrorValue)

  const InitialTerminal: AdminTerminal := AdminTerminal(None, false, NoError)

  datatype AdminState = AdminState(
    projects: seq<ProjectDoc>,
    stats: Option<map<string, int>>,
    pagination: Option<Pagination>,
    loading: bool,
    error: ErrorValue,
    terminal: AdminTerminal)

  const Initial: AdminState := AdminState([], None, None, true, NoError, InitialTerminal)

  /** The action types the admin reducer names. */
  predicate Handles(a: Action)
  {
    a.GetAdminProjects? || a.AdminProjectError? || a.StartTerminal? || a.TerminateTerminal?
    || a.TerminalError? || a.ClearTerminal?
  }

  /** `adminReducer` */
  function Reduce(s: AdminState, a: Action): (r: AdminState)
    ensures a.GetAdminProjects? ==>
              && r.projects == a.docs && r.stats == Some(a.stats) && r.pagination == Some(a.pagination)
              && !r.loading && r.error == s.error && r.terminal == s.terminal
    ensures a.AdminProjectError? ==> r == s.(error := a.error, loading := false)
    ensures a.StartTerminal? ==>
              && r.terminal == AdminTerminal(a.sessionId, true, NoError)
              && r.(terminal := s.terminal) == s
    ensures a.TerminateTerminal? ==>
              && r.terminal == AdminTerminal(None, false, s.terminal.error)
              && r.(terminal := s.terminal) == s
    ensures a.TerminalError? ==>
              && r.terminal == s.terminal.(error := a.error)
              && r.(terminal := s.terminal) == s
    ensures a.ClearTerminal? ==> r == s.(terminal := InitialTerminal)
    ensures !Handles(a) ==> r == s
  {
    match a
    case GetAdminProjects(docs, stats, pagination) =>
      s.(projects := docs, stats := Some(stats), pagination := Some(pagination), loading := false)
    case AdminProjectError(e) => s.(error := e, loading := false)
    case StartTerminal(sid) => s.(terminal := s.terminal.(sessionId := sid, isActive := true, error := NoError))
    case TerminateTerminal => s.(terminal := s.terminal.(sessionId := None, isActive := false))
    case TerminalError(e) => s.(terminal := s.terminal.(error := e))
    case ClearTerminal => s.(terminal := AdminTerminal(None, false, NoError))
    case _ => s
  }

  /** Clearing the terminal is a reset: it forgets every earlier terminal action. */
  lemma ClearForgetsTerminal(s: AdminState, a: Action)
    requires a.StartTerminal? || a.TerminateTerminal? || a.TerminalError?
    ensures Reduce(Reduce(s, a), ClearTerminal) == Reduce(s, ClearTerminal)
  {
  }

  /** Terminal actions never touch the project listing. */
  lemma TerminalActionsKeepListing(s: AdminState, a: Action)
    requires a.StartTerminal? || a.TerminateTerminal? || a.TerminalError? || a.ClearTerminal?
    ensures Reduce(s, a).projects == s.projects && Reduce(s, a).stats == s.stats
    ensures Reduce(s, a).loading == s.loading && Reduce(s, a).error == s.error
  {
  }
}

=== FILE: auth_middleware.dfy ===
/**
 * Request authentication: the Bearer header check of `protect`, which
 * loads the user a token names, and the role guards that follow it. Token
 * verification and the user lookup are parameters.
 */
module AuthMiddleware {
  import opened Wrappers
  import opened Models
  import opened Text
  import opened Http

  /** An `Authorization` header that is present and starts with "Bearer". */
  predicate IsBearer(header: Option<string>)
  {
    header.Some? && StartsWith(header.value, "Bearer")
  }

  /**
   * `jwt.verify`: the user id a token carries. A missing or empty token is
   * never valid; otherwise `verify` decides.
   */
  function Verify(token: Option<string>, verify: string -> Option<UserId>): (r: Option<UserId>)
    ensures r.Some? ==> token.Some? && token.value != []
  {
    if token.None? || token.value == [] then None else verify(token.value)
  }

  /**
   * `protect`: reads the token from a Bearer header, verifies it and loads
   * its user. `calls` records every call of `next`, in order; `user` is
   * what `req.user` ends up holding.
   */
  method Protect(header: Option<string>, verify: string -> Option<UserId>, users: UserId -> Fetch<User>)
    returns (calls: seq<Next>, user: Option<User>)
    ensures |calls| == 1
    ensures calls[0] == Proceed <==> user.Some?
    ensures !IsBearer(header) ==> calls == [Fail(Some(401), "Not authorized, no token")] && user.None?
    ensures IsBearer(header) ==>
              var id := Verify(SecondField(header.value), verify);
              && (id.None? ==> calls == [Fail(Some(401), "Not authorized, token failed")])
              && (id.Some? && users(id.value).Failed? ==> calls == [Fail(Some(401), "Not authorized, token failed")])
              && (id.Some? && users(id.value).Missing? ==>
                    calls == [Fail(Some(401), "Not authorized, user not found")])
              && (id.Some? && users(id.value).Found? ==> calls == [Proceed] && user == Some(users(id.value).value))
  {
    var token: Option<string> := None;
    calls := [];
    user := None;
    if header.Some? && StartsWith(header.value, "Bearer") {
      token := SecondField(header.value);
      var decoded := Verify(token, verify);
      if decoded.None? {
        calls := calls + [Fail(Some(401), "Not authorized, token failed")];
        return;
      }
      var found := users(decoded.value);
      if found.Failed? {
        calls := calls + [Fail(Some(401), "Not authorized, token failed")];
        return;
      }
      if found.Missing? {
        calls := calls + [Fail(Some(401), "Not authorized, user not found")];
        return;
      }
      user := Some(found.value);
      calls := calls + [Proceed];
    }
    if token.None? || token.value == [] {
      calls := calls + [Fail(Some(401), "Not authorized, no token")];
    }
  }

  /** `admin`: passes a loaded admin, refuses everyone else with 403. */
  function AdminGuard(user: Option<User>): (r: Next)
    ensures r == Proceed <==> user.Some? && user.value.role == Admin
    ensures r != Proceed ==> r == Fail(Some(403), "Not authorized as an admin")
  {
    if user.Some? && user.value.role == Admin then Proceed
    else Fail(Some(403), "Not authorized as an admin")
  }

  /** `student`: passes a loaded student, refuses everyone else with 403. */
  function StudentGuard(user: Option<User>): (r: Next)
    ensures r == Proceed <==> user.Some? && user.value.role == Student
    ensures r != Proceed ==> r == Fail(Some(403), "Not authorized as a student")
  {
    if user.Some? && user.value.role == Student then Proceed
    else Fail(Some(403), "Not authorized as a student")
  }

  /** A loaded user passes exactly one of the two guards; a request without one passes neither. */
  lemma GuardsPartitionUsers(user: Option<User>)
    ensures user.Some? ==> (AdminGuard(user) == Proceed) != (StudentGuard(user) == Proceed)
    ensures user.None? ==> AdminGuard(user) != Proceed && StudentGuard(user) != Proceed
  {
  }

  /** The header a client sends, "Bearer " and a token without spaces, hands that token to the verifier. */
  lemma BearerHeaderCarriesToken(t: string, verify: string -> Option<UserId>)
    requires ' ' !in t
    ensures IsBearer(Some("Bearer " + t))
    ensures Verify(SecondField("Bearer " + t), verify) == (if t == [] then None else verify(t))
  {
    SecondFieldOfBearer(t);
    assert "Bearer" <= "Bearer " + t;
  }
}

=== FILE: client_store.dfy ===
/**
 * The combined client store: every dispatched action reaches the admin,
 * project and terminal slices alike.
 */
module ClientStore {
  import opened Wrappers
  import opened ClientActions
  import TerminalReducer
  import ProjectReducer
  import AdminReducer

  datatype Store = Store(
    admin: AdminReducer.AdminState,
    project: ProjectReducer.ProjectState,
    terminal: TerminalReducer.TerminalState)

  const Initial: Store := Store(AdminReducer.Initial, ProjectReducer.Initial, TerminalReducer.Initial)

  /** `combineReducers`: one action, applied to each slice. */
  function Dispatch(s: Store, a: Action): Store
  {
    Store(AdminReducer.Reduce(s.admin, a), ProjectReducer.Reduce(s.project, a), TerminalReducer.Reduce(s.terminal, a))
  }

  /**
   * An action reaches every slice, but a slice moves only for an action its
   * own reducer handles; an action no reducer handles (authentication,
   * alerts) leaves the whole store as it was.
   */
  lemma UnhandledActionLeavesStore(s: Store, a: Action)
    ensures !AdminReducer.Handles(a) ==> Dispatch(s, a).admin == s.admin
    ensures !ProjectReducer.Handles(a) ==> Dispatch(s, a).project == s.project
    ensures !TerminalReducer.Handles(a) ==> Dispatch(s, a).terminal == s.terminal
    ensures a.Other? ==> Dispatch(s, a) == s
  {
  }

  /** The two terminal views agree on the session after a start or a termination. */
  predicate TerminalViewsAgree(s: Store)
  {
    s.admin.terminal.sessionId == s.terminal.sessionId && s.admin.terminal.isActive == s.terminal.isActive
  }

  /**
   * Starting or terminating brings the admin's and the terminal slice's
   * sessions into agreement, and the project slice does not move.
   */
  lemma StartAndTerminateSynchronise(s: Store, sid: Option<string>)
    ensures TerminalViewsAgree(Dispatch(s, StartTerminal(sid)))
    ensures Dispatch(s, StartTerminal(sid)).terminal.sessionId == sid
    ensures TerminalViewsAgree(Dispatch(s, TerminateTerminal))
    ensures Dispatch(s, StartTerminal(sid)).project == s.project
    ensures Dispatch(s, TerminateTerminal).project == s.project
  {
  }

  /**
   * A socket disconnect clears only the terminal slice: the admin's view
   * still names the session it started.
   */
  lemma DisconnectLeavesAdminView(s: Store, sid: string)
    ensures var r := Dispatch(Dispatch(s, StartTerminal(Some(sid))), TerminalDisconnected);
            && r.terminal.sessionId.None?
            && r.admin.terminal.sessionId == Some(sid)
            && !TerminalViewsAgree(r)
  {
  }
}

=== FILE: client_terminal.dfy ===
/**
 * The browser terminal's line discipline and lifecycle. The container's own
 * echo is turned off, so the client echoes locally: printable input is shown
 * and buffered, Enter sends the buffered line, Backspace erases locally and
 * tells the server, other control characters go straight to the server.
 */
module ClientTerminal {
  import opened Wrappers
  import opened Models
  import opened ServerInput

  /** The local echo of Backspace: back one column, blank it, back again. */
  const Rubout: string := [8 as char, ' ', 8 as char]

  /** What one `onData` event does: text echoed to the screen, payloads emitted as `input`, the new buffer. */
  datatype KeyEffect = KeyEffect(echo: string, emits: seq<string>, buffer: string)

  /** The `onData` handler on a connected socket. */
  function Keystroke(buffer: string, data: string): (r: KeyEffect)
    ensures data == "\r" ==> r == KeyEffect("\r\n", [buffer + "\n"], [])
    ensures data == [DEL] && buffer != [] ==> r == KeyEffect(Rubout, [[DEL]], buffer[..|buffer| - 1])
    ensures data == [DEL] && buffer == [] ==> r == KeyEffect([], [], buffer)
    ensures data != "\r" && |data| > 0 && data[0] < ' ' ==> r == KeyEffect([], [data], buffer)
    ensures data != [DEL] && |data| > 0 && data[0] >= ' ' ==> r == KeyEffect(data, [], buffer + data)
    ensures data == [] ==> r == KeyEffect([], [], buffer)
  {
    if data == "\r" then KeyEffect("\r\n", [buffer + "\n"], [])
    else if data == [DEL] then
      if |buffer| > 0 then KeyEffect(Rubout, [data], DropLast(buffer)) else KeyEffect([], [], buffer)
    else if data == [] then KeyEffect([], [], buffer)   // `charCodeAt(0)` is NaN: no branch applies
    else if data[0] < ' ' then KeyEffect([], [data], buffer)
    else KeyEffect(data, [], buffer + data)
  }

  /** A sequence of `onData` events on a connected socket, effects concatenated in order. */
  function Run(buffer: string, keys: seq<string>): KeyEffect
    decreases |keys|
  {
    if keys == [] then KeyEffect([], [], buffer)
    else
      var e := Keystroke(buffer, keys[0]);
      var rest := Run(e.buffer, keys[1..]);
      KeyEffect(e.echo + rest.echo, e.emits + rest.emits, rest.buffer)
  }

  /** A character that is buffered and echoed as typed. */
  predicate Plain(c: char)
  {
    c >= ' ' && c != DEL
  }

  /** A key made only of plain characters, or a lone Backspace. */
  predicate PlainKey(k: string)
  {
    k == [DEL] || (k != [] && forall i :: 0 <= i < |k| ==> Plain(k[i]))
  }

  /**
   * The line a user means by a stream of plain characters and Backspaces,
   * read from the end: Backspace erases the character before it, if any.
   */
  function Erase(s: string): (r: string)
    decreases |s|
  {
    if s == [] then []
    else if s[|s| - 1] == DEL then DropLast(Erase(s[..|s| - 1]))
    else Erase(s[..|s| - 1]) + [s[|s| - 1]]
  }

  lemma {:induction false} EraseHasNoDel(s: string)
    ensures DEL !in Erase(s)
    decreases |s|
  {
    if s != [] {
      EraseHasNoDel(s[..|s| - 1]);
      var init := Erase(s[..|s| - 1]);
      if s[|s| - 1] == DEL && init != [] {
        assert forall c :: c in init[..|init| - 1] ==> c in init;
      }
    }
  }

  lemma {:induction false} EraseKeepsDelFree(s: string)
    requires DEL !in s
    ensures Erase(s) == s
    decreases |s|
  {
    if s != [] {
      assert s[|s| - 1] in s;
      assert forall c :: c in s[..|s| - 1] ==> c in s;
      EraseKeepsDelFree(s[..|s| - 1]);
      assert s[..|s| - 1] + [s[|s| - 1]] == s;
    }
  }

  /** Erasing is a left-to-right machine: a prefix may be replaced by its erasure. */
  lemma {:induction false} EraseAppend(s: string, t: string)
    ensures Erase(s + t) == Erase(Erase(s) + t)
    decreases |t|
  {
    if t == [] {
      assert s + t == s;
      assert Erase(s) + t == Erase(s);
      EraseHasNoDel(s);
      EraseKeepsDelFree(Erase(s));
    } else {
      var t' := t[..|t| - 1];
      EraseAppend(s, t');
      assert (s + t)[..|s + t| - 1] == s + t';
      assert (Erase(s) + t)[..|Erase(s) + t| - 1] == Erase(s) + t';
    }
  }

  /** Erasure of plain characters and Backspaces is plain. */
  lemma {:induction false} EraseIsPlain(s: string)
    requires forall i :: 0 <= i < |s| ==> Plain(s[i]) || s[i] == DEL
    ensures forall i :: 0 <= i < |Erase(s)| ==> Plain(Erase(s)[i])
    decreases |s|
  {
    if s != [] {
      EraseIsPlain(s[..|s| - 1]);
    }
  }

  predicate PlainText(s: string)
  {
    forall i :: 0 <= i < |s| ==> Plain(s[i])
  }

  lemma PlainTextHasNoDel(s: string)
    requires PlainText(s)
    ensures DEL !in s
  {
  }

  /** The effect of one key on a buffer, as erasure sees it. */
  lemma KeyAsErasure(b: string, k: string)
    requires PlainText(b) && PlainKey(k)
    ensures Erase(b + k) == Keystroke(b, k).buffer
    ensures PlainText(Keystroke(b, k).buffer)
    ensures k == [DEL] ==> Keystroke(b, k).emits == (if b == [] then [] else [[DEL]])
    ensures k != [DEL] ==> Keystroke(b, k).emits == []
  {
    PlainTextHasNoDel(b);
    EraseKeepsDelFree(b);
    if k == [DEL] {
      assert (b + k)[..|b + k| - 1] == b;
    } else {
      assert k[0] >= ' ';
      assert PlainText(b + k);
      PlainTextHasNoDel(b + k);
      EraseKeepsDelFree(b + k);
    }
  }

  /**
   * Typing plain keys and Backspaces leaves in the buffer exactly the
   * erasure of everything typed.
   */
  lemma {:induction false} RunMatchesErase(b: string, keys: seq<string>)
    requires PlainText(b)
    requires forall i :: 0 <= i < |keys| ==> PlainKey(keys[i])
    ensures Run(b, keys).buffer == Erase(b + Concat(keys))
    decreases |keys|
  {
    if keys == [] {
      assert b + Concat(keys) == b;
      PlainTextHasNoDel(b);
      EraseKeepsDelFree(b);
    } else {
      var k := keys[0];
      var e := Keystroke(b, k);
      KeyAsErasure(b, k);
      RunMatchesErase(e.buffer, keys[1..]);
      assert Run(b, keys).buffer == Run(e.buffer, keys[1..]).buffer;
      var c := Concat(keys[1..]);
      ConcatCons(k, keys[1..]);
      assert [k] + keys[1..] == keys;
      assert b + Concat(keys) == (b + k) + c;
      EraseAppend(b + k, c);
    }
  }

  /** Before Enter, typing plain keys and Backspaces sends nothing but Backspaces. */
  lemma {:induction false} RunSendsOnlyErasures(b: string, keys: seq<string>)
    requires PlainText(b)
    requires forall i :: 0 <= i < |keys| ==> PlainKey(keys[i])
    ensures forall i :: 0 <= i < |Run(b, keys).emits| ==> Run(b, keys).emits[i] == [DEL]
    decreases |keys|
  {
    if keys != [] {
      var e := Keystroke(b, keys[0]);
      KeyAsErasure(b, keys[0]);
      RunSendsOnlyErasures(e.buffer, keys[1..]);
      assert Run(b, keys).emits == e.emits + Run(e.buffer, keys[1..]).emits;
    }
  }

  /** Appending one key to a run: the run's effect followed by that key's, on the run's buffer. */
  lemma {:induction false} RunSnoc(b: string, keys: seq<string>, k: string)
    ensures var r := Run(b, keys);
            var e := Keystroke(r.buffer, k);
            Run(b, keys + [k]) == KeyEffect(r.echo + e.echo, r.emits + e.emits, e.buffer)
    decreases |keys|
  {
    if keys == [] {
      assert keys + [k] == [k];
      var e := Keystroke(b, k);
      assert Run(e.buffer, []) == KeyEffect([], [], e.buffer);
      assert e.echo + [] == e.echo && e.emits + [] == e.emits;
    } else {
      var e0 := Keystroke(b, keys[0]);
      var r' := Run(e0.buffer, keys[1..]);
      var e := Keystroke(r'.buffer, k);
      RunSnoc(e0.buffer, keys[1..], k);
      assert (keys + [k])[0] == keys[0];
      assert (keys + [k])[1..] == keys[1..] + [k];
      assert Run(b, keys + [k]) == KeyEffect(e0.echo + (r'.echo + e.echo), e0.emits + (r'.emits + e.emits), e.buffer);
      assert Run(b, keys) == KeyEffect(e0.echo + r'.echo, e0.emits + r'.emits, r'.buffer);
      assert e0.echo + (r'.echo + e.echo) == (e0.echo + r'.echo) + e.echo;
      assert e0.emits + (r'.emits + e.emits) == (e0.emits + r'.emits) + e.emits;
    }
  }

  /**
   * The line sent on Enter is what was typed since the buffer was last
   * empty, with each Backspace having erased the character before it, and
   * a newline; the buffer is empty afterwards.
   */
  lemma EnterSendsErasedLine(keys: seq<string>)
    requires forall i :: 0 <= i < |keys| ==> PlainKey(keys[i])
    ensures var r := Run([], keys + ["\r"]);
            && |r.emits| > 0
            && r.emits[|r.emits| - 1] == Erase(Concat(keys)) + "\n"
            && (forall i :: 0 <= i < |r.emits| - 1 ==> r.emits[i] == [DEL])
            && r.buffer == []
  {
    RunMatchesErase([], keys);
    RunSendsOnlyErasures([], keys);
    RunSnoc([], keys, "\r");
    assert [] + Concat(keys) == Concat(keys);
  }

  /**
   * End to end: that line, received by the server as one input event on an
   * empty line buffer, reaches the container as exactly one write.
   */
  lemma EnteredLineReachesShellWhole(keys: seq<string>)
    requires forall i :: 0 <= i < |keys| ==> PlainKey(keys[i])
    ensures var r := Run([], keys + ["\r"]);
            && |r.emits| > 0
            && InputStep([], r.emits[|r.emits| - 1]) == InputEffect([r.emits[|r.emits| - 1]], [])
  {
    EnterSendsErasedLine(keys);
    var typed := Concat(keys);
    assert forall i :: 0 <= i < |typed| ==> Plain(typed[i]) || typed[i] == DEL by {
      ConcatOfPlainKeys(keys);
    }
    var line := Erase(typed);
    EraseIsPlain(typed);
    assert !HasLineEnd(line) by {
      forall c | c in line ensures !IsLineEnd(c) {
        var i :| 0 <= i < |line| && line[i] == c;
        assert Plain(line[i]);
      }
    }
    EnteredLineIsWrittenWhole(line);
  }

  lemma {:induction false} ConcatOfPlainKeys(keys: seq<string>)
    requires forall i :: 0 <= i < |keys| ==> PlainKey(keys[i])
    ensures forall i :: 0 <= i < |Concat(keys)| ==> Plain(Concat(keys)[i]) || Concat(keys)[i] == DEL
    decreases |keys|
  {
    if keys != [] {
      ConcatOfPlainKeys(keys[1..]);
      var k := keys[0];
      assert PlainKey(k);
      assert Concat(keys) == k + Concat(keys[1..]);
    }
  }

  /** "ls", Backspace, "s -la", Enter: the shell is sent a Backspace, then "ls -la\n". */
  lemma TypingWithCorrection()
    ensures Run([], ["ls", [DEL], "s -la", "\r"]).emits == [[DEL], "ls -la\n"]
  {
    var keys := ["ls", [DEL], "s -la", "\r"];
    assert "ls"[..1] == "l";
    assert "l" + "s -la" == "ls -la";
    var r4 := Run("ls -la", keys[3..]);
    assert keys[3..] == ["\r"];
    assert "ls -la" + "\n" == "ls -la\n";
    assert Keystroke("ls -la", "\r").emits == ["ls -la\n"];
    assert keys[3..][1..] == [];
    assert Run([], keys[3..][1..]) == KeyEffect([], [], []);
    assert r4.emits == Keystroke("ls -la", keys[3..][0]).emits + Run([], keys[3..][1..]).emits;
    assert r4.emits == ["ls -la\n"] + [];
    var r3 := Run("l", keys[2..]);
    assert keys[2..][1..] == keys[3..];
    assert r3.emits == [] + r4.emits;
    var r2 := Run("ls", keys[1..]);
    assert keys[1..][1..] == keys[2..];
    assert r2.emits == [[DEL]] + r3.emits;
    assert "ls" != [DEL] && "ls"[0] >= ' ';
    assert Keystroke([], "ls") == KeyEffect("ls", [], [] + "ls");
    assert [] + "ls" == "ls";
    assert Run([], keys).emits == [] + r2.emits;
  }

  /** The socket reference: none, or a socket that may or may not be connected yet. */
  datatype SocketRef = NoSocket | Socket(connected: bool)

  /** The component's terminal state: its xterm and socket references and the input buffer. */
  class TerminalView {
    var hasXterm: bool
    var socket: SocketRef
    /** The session the socket was opened for. */
    var session: Option<SessionId>
    var inputBuffer: string
    /** Everything written to the xterm, in order. */
    var screen: string
    /** The `input` payloads emitted, in order. */
    var sent: seq<string>
    /** The sessions whose termination was requested from the server, in order. */
    var terminateRequests: seq<SessionId>
    /** The projects whose terminal start was requested from the server, in order. */
    var startRequests: seq<ProjectId>

    /** The terminal and its socket exist together, and a torn-down terminal holds no input. */
    ghost predicate Valid()
      reads this
    {
      (hasXterm <==> socket.Socket?) && (!hasXterm ==> inputBuffer == [])
    }

    constructor ()
      ensures Valid() && !hasXterm && socket == NoSocket && session.None?
      ensures inputBuffer == [] && screen == [] && sent == [] && terminateRequests == [] && startRequests == []
    {
      hasXterm := false;
      socket := NoSocket;
      session := None;
      inputBuffer := [];
      screen := [];
      sent := [];
      terminateRequests := [];
      startRequests := [];
    }

    /** `initTerminal`: refused while a terminal or a socket exists; otherwise both are created, buffer cleared. */
    method InitTerminal(sid: SessionId) returns (initialized: bool)
      requires Valid()
      modifies this
      ensures Valid()
      ensures initialized == (!old(hasXterm) && old(socket) == NoSocket)
      ensures initialized ==> hasXterm && socket == Socket(false) && session == Some(sid) && inputBuffer == []
      ensures !initialized ==> hasXterm == old(hasXterm) && socket == old(socket) && session == old(session)
                               && inputBuffer == old(inputBuffer)
      ensures screen == old(screen) && sent == old(sent) && terminateRequests == old(terminateRequests) && startRequests == old(startRequests)
    {
      if hasXterm || socket.Socket? {
        return false;
      }
      hasXterm := true;
      socket := Socket(false);
      session := Some(sid);
      inputBuffer := [];
      initialized := true;
    }

    /**
     * `handleStartTerminal` up to its `await startTerminal(projectId)`:
     * refused while the session is active or a terminal or socket exists;
     * otherwise the start request goes out. Nothing records that a request
     * is pending, so another click before the response passes the same guard.
     */
    method RequestStart(isActive: bool, project: ProjectId) returns (requested: bool)
      requires Valid()
      modifies this
      ensures Valid()
      ensures requested <==> !isActive && !hasXterm && socket == NoSocket
      ensures startRequests == old(startRequests) + (if requested then [project] else [])
      ensures hasXterm == old(hasXterm) && socket == old(socket) && session == old(session)
      ensures inputBuffer == old(inputBuffer) && screen == old(screen) && sent == old(sent)
      ensures terminateRequests == old(terminateRequests)
    {
      if isActive || hasXterm || socket.Socket? {
        return false;
      }
      startRequests := startRequests + [project];
      requested := true;
    }

    /**
     * `handleStartTerminal` after the `await`: a returned session id goes to
     * `initTerminal` with no second look at `isActive`, so only
     * `initTerminal`'s own refusal keeps a second terminal out.
     */
    method OnStartResponse(started: Option<SessionId>) returns (initialized: bool)
      requires Valid()
      modifies this
      ensures Valid()
      ensures initialized <==> started.Some? && !old(hasXterm) && old(socket) == NoSocket
      ensures initialized ==> hasXterm && socket == Socket(false) && session == started && inputBuffer == []
      ensures !initialized ==> hasXterm == old(hasXterm) && socket == old(socket) && session == old(session)
                               && inputBuffer == old(inputBuffer)
      ensures screen == old(screen) && sent == old(sent)
      ensures terminateRequests == old(terminateRequests) && startRequests == old(startRequests)
    {
      if started.None? {
        return false;
      }
      initialized := InitTerminal(started.value);
    }

    /** The socket's `connect` event. */
    method OnConnect()
      requires Valid()
      modifies this
      ensures Valid()
      ensures socket == if old(socket).Socket? then Socket(true) else NoSocket
      ensures hasXterm == old(hasXterm) && session == old(session) && inputBuffer == old(inputBuffer)
      ensures screen == old(screen) && sent == old(sent) && terminateRequests == old(terminateRequests) && startRequests == old(startRequests)
    {
      if socket.Socket? {
        socket := Socket(true);
      }
    }

    /** xterm's `onData`: ignored unless the socket exists and is connected, otherwise one `Keystroke`. */
    method OnData(data: string)
      requires Valid()
      modifies this
      ensures Valid()
      ensures if old(socket) == Socket(true)
              then var e := Keystroke(old(inputBuffer), data);
                   screen == old(screen) + e.echo && sent == old(sent) + e.emits && inputBuffer == e.buffer
              else screen == old(screen) && sent == old(sent) && inputBuffer == old(inputBuffer)
      ensures hasXterm == old(hasXterm) && socket == old(socket) && session == old(session)
      ensures terminateRequests == old(terminateRequests) && startRequests == old(startRequests)
    {
      if socket != Socket(true) {
        return;
      }
      var e := Keystroke(inputBuffer, data);
      screen := screen + e.echo;
      sent := sent + e.emits;
      inputBuffer := e.buffer;
    }

    /** Server output is written to the terminal while it exists. */
    method OnOutput(data: string)
      requires Valid()
      modifies this
      ensures Valid()
      ensures screen == old(screen) + (if hasXterm then data else [])
      ensures hasXterm == old(hasXterm) && socket == old(socket) && session == old(session)
      ensures inputBuffer == old(inputBuffer) && sent == old(sent) && terminateRequests == old(terminateRequests) && startRequests == old(startRequests)
    {
      if hasXterm {
        screen := screen + data;
      }
    }

    /** `cleanupTerminalResources`: drop socket and terminal, clear the input buffer. */
    method Cleanup()
      requires Valid()
      modifies this
      ensures Valid()
      ensures !hasXterm && socket == NoSocket && inputBuffer == []
      ensures session == old(session) && screen == old(screen) && sent == old(sent)
      ensures terminateRequests == old(terminateRequests) && startRequests == old(startRequests)
    {
      socket := NoSocket;
      hasXterm := false;
      inputBuffer := [];
    }

    /** `handleTerminateTerminal`: clean up, then ask the server to end the session of record, if any. */
    method HandleTerminate(current: Option<SessionId>)
      requires Valid()
      modifies this
      ensures Valid()
      ensures !hasXterm && socket == NoSocket && inputBuffer == []
      ensures terminateRequests == old(terminateRequests) + (if current.Some? then [current.value] else [])
      ensures session == old(session) && screen == old(screen) && sent == old(sent) && startRequests == old(startRequests)
    {
      Cleanup();
      if current.Some? {
        terminateRequests := terminateRequests + [current.value];
      }
    }

    /** A line written to the terminal while it exists (`writeln`). */
    method WriteNotice(text: string)
      requires Valid()
      modifies this
      ensures Valid()
      ensures screen == old(screen) + (if hasXterm then text + "\r\n" else [])
      ensures hasXterm == old(hasXterm) && socket == old(socket) && session == old(session)
      ensures inputBuffer == old(inputBuffer) && sent == old(sent) && terminateRequests == old(terminateRequests) && startRequests == old(startRequests)
    {
      if hasXterm {
        screen := screen + text + "\r\n";
      }
    }

    /** The server's `error` event: show it, then terminate. */
    method OnServerError(message: string, current: Option<SessionId>)
      requires Valid()
      modifies this
      ensures Valid()
      ensures !hasXterm && socket == NoSocket && inputBuffer == []
      ensures screen == old(screen) + (if old(hasXterm) then "\r\n\r\n[ERROR: " + message + "]\r\n" + "\r\n" else [])
      ensures terminateRequests == old(terminateRequests) + (if current.Some? then [current.value] else [])
      ensures session == old(session) && sent == old(sent) && startRequests == old(startRequests)
    {
      WriteNotice("\r\n\r\n[ERROR: " + message + "]\r\n");
      HandleTerminate(current);
    }

    /** The server's `terminated` event: show it, then clean up without a terminate request. */
    method OnTerminated(message: string)
      requires Valid()
      modifies this
      ensures Valid()
      ensures !hasXterm && socket == NoSocket && inputBuffer == []
      ensures screen == old(screen) + (if old(hasXterm) then "\r\n\r\n[" + message + "]\r\n" + "\r\n" else [])
      ensures session == old(session) && sent == old(sent) && terminateRequests == old(terminateRequests) && startRequests == old(startRequests)
    {
      WriteNotice("\r\n\r\n[" + message + "]\r\n");
      Cleanup();
    }

    /** The socket's `disconnect` event: show the reason, then clean up. */
    method OnDisconnect(reason: string)
      requires Valid()
      modifies this
      ensures Valid()
      ensures !hasXterm && socket == NoSocket && inputBuffer == []
      ensures screen == old(screen) + (if old(hasXterm) then "\r\n\r\n[Socket disconnected: " + reason + "]\r\n" + "\r\n" else [])
      ensures session == old(session) && sent == old(sent) && terminateRequests == old(terminateRequests) && startRequests == old(startRequests)
    {
      WriteNotice("\r\n\r\n[Socket disconnected: " + reason + "]\r\n");
      Cleanup();
    }

    /**
     * A double click on "start": both clicks pass the guard before the
     * first response arrives, so two start requests go out. The first
     * session id initialises the terminal; the second is refused by
     * `initTerminal`. The store's session id meanwhile becomes the second
     * one (`TerminalReducer.SecondStartReplacesSession`), so the view shows
     * one session while the store names the other.
     */
    static method DoubleClickStartsTwice(project: ProjectId, s1: SessionId, s2: SessionId)
      returns (requests: seq<ProjectId>, shown: Option<SessionId>, secondShown: bool)
      ensures requests == [project, project]
      ensures shown == Some(s1) && !secondShown
    {
      var view := new TerminalView();
      var firstSent := view.RequestStart(false, project);
      var secondSent := view.RequestStart(false, project);
      var firstShown := view.OnStartResponse(Some(s1));
      secondShown := view.OnStartResponse(Some(s2));
      requests := view.startRequests;
      shown := view.session;
    }
  }
}

=== FILE: docker_service.dfy ===
/**
 * The container lifecycle behind terminal sessions: starting a sandbox
 * container for a project, finding (and if need be recreating) the
 * container of an active session, and terminating it. The container
 * runtime is a map from container id to its configuration and whether it
 * runs; session records and projects are maps too. What a foreign call
 * would fail with is passed in.
 */
module DockerService {
  import opened Wrappers
  import opened Models

  /** The host path with every backslash turned into a forward slash. */
  function ToPosixPath(p: string): (r: string)
    ensures |r| == |p|
    ensures forall i :: 0 <= i < |p| ==> r[i] == (if p[i] == '\\' then '/' else p[i])
  {
    seq(|p|, i requires 0 <= i < |p| => if p[i] == '\\' then '/' else p[i])
  }

  /** No backslash survives, and converting twice changes nothing more. */
  lemma PosixPathIsClean(p: string)
    ensures '\\' !in ToPosixPath(p)
    ensures ToPosixPath(ToPosixPath(p)) == ToPosixPath(p)
    ensures '\\' !in p ==> ToPosixPath(p) == p
  {
  }

  /** The single bind mount: the project's files at `/app`. */
  function Bind(hostPath: string): (b: string)
    ensures |b| == |hostPath| + 5
    ensures b[..|hostPath|] == ToPosixPath(hostPath)
    ensures b[|hostPath|..] == ":/app"
  {
    ToPosixPath(hostPath) + ":/app"
  }

  /** The settings of a container create call. */
  datatype ContainerConfig = ContainerConfig(
    image: string,
    attachStdin: bool, attachStdout: bool, attachStderr: bool,
    tty: bool, openStdin: bool, stdinOnce: bool,
    binds: seq<string>,
    memory: int, memorySwap: int,
    cpusetCpus: string, networkMode: string, securityOpt: seq<string>,
    workingDir: string, cmd: seq<string>, env: seq<string>)

  const MiB: int := 1024 * 1024

  /** The sandbox both create sites ask for. */
  function SandboxConfig(image: string, extractedPath: string): ContainerConfig
  {
    ContainerConfig(
      image, true, true, true, true, true, false,
      [Bind(extractedPath)],
      512 * MiB, 1024 * MiB,
      "0", "bridge", ["no-new-privileges:true"],
      "/app", ["/bin/sh"], ["TERM=xterm"])
  }

  /**
   * The sandbox: an interactive shell in `/app` over the project's files,
   * 512 MiB of memory and 1 GiB with swap, one CPU, no privilege gain.
   */
  lemma SandboxLimits(image: string, extractedPath: string)
    ensures var c := SandboxConfig(image, extractedPath);
            && c.image == image
            && c.binds == [ToPosixPath(extractedPath) + ":/app"]
            && c.memory == 536870912 && c.memorySwap == 1073741824
            && c.cpusetCpus == "0" && c.networkMode == "bridge"
            && c.securityOpt == ["no-new-privileges:true"]
            && c.tty && c.openStdin && !c.stdinOnce
            && c.workingDir == "/app" && c.cmd == ["/bin/sh"] && c.env == ["TERM=xterm"]
  {
  }

  /** One entry of the runtime's image list. */
  datatype ImageInfo = ImageInfo(repoTags: Option<seq<string>>)

  /** `images.some(img => img.RepoTags && img.RepoTags.includes(name))`, scanned in order. */
  function ImageListed(images: seq<ImageInfo>, name: string): (r: bool)
    ensures r <==> exists i :: 0 <= i < |images| && images[i].repoTags.Some? && name in images[i].repoTags.value
    decreases |images|
  {
    if images == [] then false
    else (images[0].repoTags.Some? && name in images[0].repoTags.value) || ImageListed(images[1..], name)
  }

  /**
   * `ensureDockerImage`: true when the image is listed, or absent and then
   * pulled; false when listing or pulling fails.
   */
  function EnsureImage(listing: Result<seq<ImageInfo>>, name: string, pullError: Option<string>): (r: bool)
    ensures listing.Err? ==> !r
    ensures listing.Ok? && ImageListed(listing.value, name) ==> r
    ensures listing.Ok? && !ImageListed(listing.value, name) ==> (r <==> pullError.None?)
  {
    match listing
    case Err(_) => false
    case Ok(images) => ImageListed(images, name) || pullError.None?
  }

  /** A container the runtime knows: how it was created, and whether it runs. */
  datatype ContainerState = ContainerState(config: ContainerConfig, running: bool)

  /** A project's files have been extracted (`extractedPath` is set and not empty). */
  predicate Extracted(p: Project)
  {
    p.extractedPath.Some? && p.extractedPath.value != []
  }

  /** The prefixes `recreateContainer` and `getContainer` put on the error they rethrow. */
  const RecreateFailed := "Failed to recreate container: "
  const GetFailed := "Failed to get container for session: "

  /** The project exists and has, or can be given, extracted files to mount. */
  predicate Mountable(projects: map<ProjectId, Project>, pid: ProjectId, extraction: Option<string>)
  {
    pid in projects && (Extracted(projects[pid]) || extraction.Some?)
  }

  /** The container runtime, the session records and the projects. */
  class DockerHost {
    const image: string
    var containers: map<ContainerId, ContainerState>
    var nextContainer: ContainerId
    var sessions: map<SessionId, SessionRecord>
    var nextSession: SessionId
    var projects: map<ProjectId, Project>

    /** Ids come from counters, and every record has an end time exactly when terminated. */
    ghost predicate Valid()
      reads this
    {
      && (forall c :: c in containers ==> c < nextContainer)
      && (forall s :: s in sessions ==> s < nextSession && sessions[s].WellFormed())
    }

    constructor (image: string, projects: map<ProjectId, Project>)
      ensures Valid()
      ensures this.image == image && this.projects == projects
      ensures containers == map[] && sessions == map[]
    {
      this.image := image;
      this.projects := projects;
      containers := map[];
      nextContainer := 0;
      sessions := map[];
      nextSession := 0;
    }

    /**
     * `createContainer` then `start`: a created container exists even if
     * starting it fails.
     */
    method Launch(hostPath: string, createError: Option<string>, startError: Option<string>)
      returns (r: Result<ContainerId>)
      requires Valid()
      modifies this`containers, this`nextContainer
      ensures Valid()
      ensures createError.Some? ==>
                r == Err(createError.value) && containers == old(containers) && nextContainer == old(nextContainer)
      ensures createError.None? ==>
                && nextContainer == old(nextContainer) + 1
                && old(nextContainer) !in old(containers)
                && containers == old(containers)[old(nextContainer) :=
                                   ContainerState(SandboxConfig(image, hostPath), startError.None?)]
                && r == if startError.None? then Ok(old(nextContainer)) else Err(startError.value)
    {
      if createError.Some? {
        return Err(createError.value);
      }
      var id := nextContainer;
      containers := containers[id := ContainerState(SandboxConfig(image, hostPath), false)];
      nextContainer := nextContainer + 1;
      if startError.Some? {
        return Err(startError.value);
      }
      containers := containers[id := containers[id].(running := true)];
      r := Ok(id);
    }

    /**
     * `recreateContainer`: a new container for the session's project,
     * extracting the project first when it has not been; only the record's
     * container id changes.
     */
    method Recreate(sid: SessionId, extraction: Option<string>,
                    createError: Option<string>, startError: Option<string>) returns (r: Result<ContainerId>)
      requires Valid() && sid in sessions
      modifies this
      ensures Valid()
      ensures var pid := old(sessions)[sid].project;
              && (pid !in old(projects) ==>
                    r == Err(RecreateFailed + "Project not found for session")
                    && projects == old(projects) && containers == old(containers))
              && (pid in old(projects) && !Extracted(old(projects)[pid]) && extraction.None? ==>
                    r == Err(RecreateFailed + "Failed to extract project zip file")
                    && projects == old(projects) && containers == old(containers))
              && (pid in old(projects) && !Extracted(old(projects)[pid]) && extraction.Some? ==>
                    projects == old(projects)[pid := old(projects)[pid].(extractedPath := extraction)])
              && (pid in old(projects) && Extracted(old(projects)[pid]) ==> projects == old(projects))
      ensures var pid := old(sessions)[sid].project;
              Mountable(old(projects), pid, extraction) ==>
                && (createError.Some? ==> r == Err(RecreateFailed + createError.value))
                && (createError.None? && startError.Some? ==>
                      r == Err(RecreateFailed + startError.value))
                && (createError.None? && startError.None? ==> r == Ok(old(nextContainer)))
      ensures r.Ok? <==>
                Mountable(old(projects), old(sessions)[sid].project, extraction) && createError.None? && startError.None?
      ensures r.Ok? ==>
                && r.value !in old(containers) && r.value in containers && containers[r.value].running
                && sessions == old(sessions)[sid := old(sessions)[sid].(containerId := r.value)]
      ensures r.Err? ==> sessions == old(sessions)
      ensures nextContainer <= old(nextContainer) + 1
      ensures forall c :: c in old(containers) ==> c in containers && containers[c] == old(containers)[c]
      ensures nextSession == old(nextSession)
    {
      var pid := sessions[sid].project;
      if pid !in projects {
        return Err(RecreateFailed + "Project not found for session");
      }
      if !Extracted(projects[pid]) {
        if extraction.None? {
          return Err(RecreateFailed + "Failed to extract project zip file");
        }
        projects := projects[pid := projects[pid].(extractedPath := extraction)];
      }
      var launched := Launch(projects[pid].extractedPath.value, createError, startError);
      if launched.Err? {
        return Err(RecreateFailed + launched.msg);
      }
      sessions := sessions[sid := sessions[sid].(containerId := launched.value)];
      r := launched;
    }

    /**
     * `getContainer`: the container of an active session. A running one is
     * returned as is; a stopped or vanished one is recreated, once; any
     * other inspection error fails without recreating.
     */
    method GetContainer(sid: SessionId, inspectError: Option<string>, extraction: Option<string>,
                        createError: Option<string>, startError: Option<string>) returns (r: Result<ContainerId>)
      requires Valid()
      modifies this
      ensures Valid()
      ensures sid !in old(sessions) ==>
                r == Err(GetFailed + "Terminal session not found")
      ensures sid in old(sessions) && old(sessions)[sid].status != Active ==>
                r == Err(GetFailed + "Terminal session is not active")
      ensures sid in old(sessions) && old(sessions)[sid].status == Active ==>
                var c := old(sessions)[sid].containerId;
                && (inspectError.Some? ==> r == Err(GetFailed + inspectError.value))
                && (inspectError.None? && c in old(containers) && old(containers)[c].running ==> r == Ok(c))
      ensures sid in old(sessions) && old(sessions)[sid].status == Active && inspectError.None? ==>
                var c := old(sessions)[sid].containerId;
                var pid := old(sessions)[sid].project;
                !(c in old(containers) && old(containers)[c].running) ==>
                  && (pid !in old(projects) ==> r == Err(GetFailed + (RecreateFailed + "Project not found for session")))
                  && (pid in old(projects) && !Mountable(old(projects), pid, extraction) ==>
                        r == Err(GetFailed + (RecreateFailed + "Failed to extract project zip file")))
                  && (Mountable(old(projects), pid, extraction) && createError.Some? ==>
                        r == Err(GetFailed + (RecreateFailed + createError.value)))
                  && (Mountable(old(projects), pid, extraction) && createError.None? && startError.Some? ==>
                        r == Err(GetFailed + (RecreateFailed + startError.value)))
                  && (Mountable(old(projects), pid, extraction) && createError.None? && startError.None? ==>
                        && r == Ok(old(nextContainer))
                        && sessions == old(sessions)[sid := old(sessions)[sid].(containerId := old(nextContainer))])
      ensures r.Ok? ==> sid in sessions && sessions[sid].containerId == r.value
                        && r.value in containers && containers[r.value].running
      ensures (sid !in old(sessions) || old(sessions)[sid].status != Active || inspectError.Some?
               || (var c := old(sessions)[sid].containerId; c in old(containers) && old(containers)[c].running)) ==>
                containers == old(containers) && sessions == old(sessions) && projects == old(projects)
                && nextContainer == old(nextContainer)
      ensures r.Err? ==> sessions == old(sessions)
      ensures nextContainer <= old(nextContainer) + 1
      ensures nextSession == old(nextSession)
    {
      if sid !in sessions {
        return Err(GetFailed + "Terminal session not found");
      }
      if sessions[sid].status != Active {
        return Err(GetFailed + "Terminal session is not active");
      }
      var c := sessions[sid].containerId;
      if inspectError.Some? {
        return Err(GetFailed + inspectError.value);
      }
      if c in containers && containers[c].running {
        return Ok(c);
      }
      assert sessions == old(sessions) && projects == old(projects) && nextContainer == old(nextContainer);
      var recreated := Recreate(sid, extraction, createError, startError);
      if recreated.Err? {
        return Err(GetFailed + recreated.msg);
      }
      r := recreated;
    }

    /**
     * `terminateContainer`: an already terminated session is reported as
     * such and left alone; otherwise its container is stopped and removed,
     * then the record is marked terminated with its end time.
     */
    method Terminate(sid: SessionId, stopError: Option<string>, removeError: Option<string>, now: int)
      returns (r: Result<string>)
      requires Valid()
      modifies this`containers, this`sessions
      ensures Valid()
      ensures sid !in old(sessions) ==>
                r == Err("Failed to terminate terminal session") && containers == old(containers)
      ensures sid in old(sessions) && old(sessions)[sid].status == Terminated ==>
                r == Ok("Session already terminated") && containers == old(containers)
      ensures sid in old(sessions) && old(sessions)[sid].status == Active ==>
                var c := old(sessions)[sid].containerId;
                && (c !in old(containers) || stopError.Some? ==>
                      r == Err("Failed to terminate terminal session") && containers == old(containers))
                && (c in old(containers) && stopError.None? && removeError.Some? ==>
                      r == Err("Failed to terminate terminal session")
                      && containers == old(containers)[c := old(containers)[c].(running := false)])
                && (c in old(containers) && stopError.None? && removeError.None? ==>
                      r == Ok("Terminal session terminated successfully")
                      && containers == old(containers) - {c})
      ensures r == Ok("Terminal session terminated successfully") ==>
                sessions == old(sessions)[sid := old(sessions)[sid].(status := Terminated, endTime := Some(now))]
      ensures r != Ok("Terminal session terminated successfully") ==> sessions == old(sessions)
    {
      if sid !in sessions {
        return Err("Failed to terminate terminal session");
      }
      if sessions[sid].status == Terminated {
        return Ok("Session already terminated");
      }
      var c := sessions[sid].containerId;
      if c !in containers || stopError.Some? {
        return Err("Failed to terminate terminal session");
      }
      containers := containers[c := containers[c].(running := false)];
      if removeError.Some? {
        return Err("Failed to terminate terminal session");
      }
      containers := containers - {c};
      sessions := sessions[sid := sessions[sid].(status := Terminated, endTime := Some(now))];
      r := Ok("Terminal session terminated successfully");
    }

    /**
     * `startContainer`: check the runtime, find and if need be extract the
     * project, create and start its container, and only then record an
     * active session. Every failure is the same error, and leaves the
     * session records as they were.
     */
    method Start(pid: ProjectId, admin: UserId, dockerUp: bool, listError: Option<string>,
                 extraction: Option<string>, createError: Option<string>, startError: Option<string>, now: int)
      returns (r: Result<(SessionId, ContainerId)>)
      requires Valid()
      modifies this
      ensures Valid()
      ensures r.Err? ==> r.msg == "Failed to start terminal session" && sessions == old(sessions)
      ensures r.Ok? <==> && dockerUp && listError.None? && pid in old(projects)
                         && (Extracted(old(projects)[pid]) || extraction.Some?)
                         && createError.None? && startError.None?
      ensures r.Ok? ==>
                && r.value.0 !in old(sessions) && r.value.1 !in old(containers)
                && sessions == old(sessions)[r.value.0 := SessionRecord(pid, admin, r.value.1, Active, now, None)]
                && r.value.1 in containers && containers[r.value.1].running
      ensures pid in old(projects) && dockerUp && listError.None? && !Extracted(old(projects)[pid]) && extraction.Some? ==>
                projects == old(projects)[pid := old(projects)[pid].(extractedPath := extraction)]
      ensures !(pid in old(projects) && dockerUp && listError.None? && !Extracted(old(projects)[pid]) && extraction.Some?) ==>
                projects == old(projects)
      ensures forall c :: c in old(containers) ==> c in containers && containers[c] == old(containers)[c]
    {
      if !dockerUp || listError.Some? || pid !in projects {
        return Err("Failed to start terminal session");
      }
      if !Extracted(projects[pid]) {
        if extraction.None? {
          return Err("Failed to start terminal session");
        }
        projects := projects[pid := projects[pid].(extractedPath := extraction)];
      }
      var launched := Launch(projects[pid].extractedPath.value, createError, startError);
      if launched.Err? {
        return Err("Failed to start terminal session");
      }
      var sid := nextSession;
      sessions := sessions[sid := SessionRecord(pid, admin, launched.value, Active, now, None)];
      nextSession := nextSession + 1;
      r := Ok((sid, launched.value));
    }
  }
}

=== FILE: file_controller.dfy ===
/**
 * The download endpoints: the checks before a project's stored file is
 * sent, and the file name the browser is offered. Whether a path exists on
 * disk is a parameter; the transfer itself is not modelled.
 */
module FileController {
  import opened Wrappers
  import opened Models
  import opened Http

  /** Which stored file a download asks for. */
  datatype FileKind = Zip | Latex

  /** The project field holding the file's path. */
  function StoredPath(p: Project, kind: FileKind): string
  {
    match kind
    case Zip => p.zipFilePath
    case Latex => p.latexFilePath
  }

  /** The label used in the answers. */
  function Label(kind: FileKind): (r: string)
    ensures r != []
  {
    match kind
    case Zip => "ZIP"
    case Latex => "LaTeX"
  }

  /** The extension of the offered file name: three characters, none of them '.' or '/'. */
  function Extension(kind: FileKind): (r: string)
    ensures |r| == 3 && '.' !in r && '/' !in r
  {
    match kind
    case Zip => "zip"
    case Latex => "tex"
  }

  /**
   * The two download endpoints: the zip endpoint serves `zipFilePath` as
   * "ZIP" with extension "zip", the LaTeX one `latexFilePath` as "LaTeX"
   * with "tex"; the two kinds share no label and no extension.
   */
  lemma DownloadEndpoints(p: Project)
    ensures StoredPath(p, Zip) == p.zipFilePath && Label(Zip) == "ZIP" && Extension(Zip) == "zip"
    ensures StoredPath(p, Latex) == p.latexFilePath && Label(Latex) == "LaTeX" && Extension(Latex) == "tex"
    ensures Label(Zip) != Label(Latex) && Extension(Zip) != Extension(Latex)
  {
  }

  /** A character the file-name pattern keeps: ASCII letters and digits, '_', '.' and '-'. */
  predicate Allowed(c: char)
  {
    'a' <= c <= 'z' || 'A' <= c <= 'Z' || '0' <= c <= '9' || c == '_' || c == '.' || c == '-'
  }

  /** `name.replace(/[^a-zA-Z0-9_.-]/g, '_')` */
  function Sanitize(name: string): (r: string)
    ensures |r| == |name|
    ensures forall i :: 0 <= i < |name| ==> r[i] == (if Allowed(name[i]) then name[i] else '_')
  {
    seq(|name|, i requires 0 <= i < |name| => if Allowed(name[i]) then name[i] else '_')
  }

  /** A sanitised name holds only allowed characters, and sanitising it again changes nothing. */
  lemma SanitizeIsClean(name: string)
    ensures forall i :: 0 <= i < |name| ==> Allowed(Sanitize(name)[i])
    ensures Sanitize(Sanitize(name)) == Sanitize(name)
    ensures (forall i :: 0 <= i < |name| ==> Allowed(name[i])) ==> Sanitize(name) == name
  {
  }

  /** What is sent: the stored path and the offered file name. */
  datatype Download = Download(path: string, filename: string)

  /**
   * `checkAndDownload`: the project must exist (404), a student must own it
   * (403), its path field must be set (404) and the file must exist on disk
   * (404); only then is the file offered as the sanitised project name with
   * the kind's extension.
   */
  function CheckAndDownload(projects: map<ProjectId, Project>, id: ProjectId, user: User,
                            kind: FileKind, onDisk: string -> bool): (r: Reply<Download>)
    ensures id !in projects ==> r == Failure(Some(404), "Project not found")
    ensures id in projects && !MayAccess(user, projects[id]) ==>
              r == Failure(Some(403), "Not authorized to access this file")
    ensures id in projects && MayAccess(user, projects[id]) && StoredPath(projects[id], kind) == [] ==>
              r == Failure(Some(404), Label(kind) + " file path not configured for this project.")
    ensures id in projects && MayAccess(user, projects[id]) && StoredPath(projects[id], kind) != []
            && !onDisk(StoredPath(projects[id], kind)) ==>
              r == Failure(Some(404), Label(kind) + " file not found on server at the expected location.")
    ensures r.Success? <==>
              id in projects && MayAccess(user, projects[id]) && StoredPath(projects[id], kind) != []
              && onDisk(StoredPath(projects[id], kind))
    ensures r.Success? ==>
              && r.code == 200
              && r.data.path == StoredPath(projects[id], kind)
              && r.data.filename == Sanitize(projects[id].name) + "." + Extension(kind)
  {
    if id !in projects then Failure(Some(404), "Project not found")
    else
      var p := projects[id];
      if !MayAccess(user, p) then Failure(Some(403), "Not authorized to access this file")
      else if StoredPath(p, kind) == [] then
        Failure(Some(404), Label(kind) + " file path not configured for this project.")
      else if !onDisk(StoredPath(p, kind)) then
        Failure(Some(404), Label(kind) + " file not found on server at the expected location.")
      else Success(200, Download(StoredPath(p, kind), Sanitize(p.name) + "." + Extension(kind)))
  }

  /**
   * The offered name keeps the name's length, holds only allowed characters,
   * and ends with the kind's extension.
   */
  lemma OfferedNameIsSafe(projects: map<ProjectId, Project>, id: ProjectId, user: User,
                          kind: FileKind, onDisk: string -> bool)
    requires CheckAndDownload(projects, id, user, kind, onDisk).Success?
    ensures var f := CheckAndDownload(projects, id, user, kind, onDisk).data.filename;
            && |f| == |projects[id].name| + 1 + |Extension(kind)|
            && (forall i :: 0 <= i < |f| ==> Allowed(f[i]))
            && f[|f| - |Extension(kind)| - 1..] == "." + Extension(kind)
  {
    var f := CheckAndDownload(projects, id, user, kind, onDisk).data.filename;
    var n := Sanitize(projects[id].name);
    SanitizeIsClean(projects[id].name);
    assert f == n + ("." + Extension(kind));
    forall i | 0 <= i < |f|
      ensures Allowed(f[i])
    {
      if i >= |n| {
        match kind
        case Zip => assert f[|n|..] == ".zip";
        case Latex => assert f[|n|..] == ".tex";
      }
    }
  }
}

=== FILE: http.dfy ===
/**
 * What an Express handler or middleware does with a request, stated as a
 * value: it answers with a JSON body and a status, or it passes control on
 * with `next()`, or it passes an error on with `next(error)` after possibly
 * setting the response status with `res.status(..)`.
 */
module Http {
  import opened Wrappers

  /**
   * A handler's answer. `Failure` is an error answer: `preset` is the status
   * the handler set (`None` when it passed the error on without setting one)
   * and `message` the error's message.
   */
  datatype Reply<+T> = Success(code: int, data: T) | Failure(preset: Option<int>, message: string)

  /** How a middleware hands a request on: `next()` or `next(error)`. */
  datatype Next = Proceed | Fail(preset: Option<int>, message: string)
}

=== FILE: listing.dfy ===
/**
 * The listing endpoints' shared arithmetic and filtering: page and limit
 * parameters with their defaults, the skip offset, the page count of the
 * pagination block, and the equality filters a project query carries.
 */
module Listing {
  import opened Wrappers
  import opened Models

  /** `parseInt(x, 10) || d`: an unparsable parameter (NaN, here `None`) and 0 both give `d`. */
  function OrDefault(parsed: Option<int>, d: int): int
  {
    if parsed.Some? && parsed.value != 0 then parsed.value else d
  }

  /** The page requested, the page size, and how many matching projects are skipped. */
  datatype Window = Window(page: int, limit: int, startIndex: int)

  /** The page window of a listing request: page defaults to 1, limit to 10. */
  function PageWindow(page: Option<int>, limit: Option<int>): (w: Window)
    ensures w.page != 0 && w.limit != 0
    ensures w.startIndex == (w.page - 1) * w.limit
    ensures w.page == (if page.Some? && page.value != 0 then page.value else 1)
    ensures w.limit == (if limit.Some? && limit.value != 0 then limit.value else 10)
  {
    var p := OrDefault(page, 1);
    var l := OrDefault(limit, 10);
    Window(p, l, (p - 1) * l)
  }

  /**
   * `Math.ceil(total / limit)`: the least whole number of pages of size
   * `limit` that holds `total` items (for a negative limit, the ceiling of
   * the negative quotient).
   */
  function Pages(total: nat, limit: int): (r: int)
    requires limit != 0
    ensures limit > 0 ==> (r - 1) * limit < total <= r * limit
    ensures limit < 0 ==> r * limit <= total < (r - 1) * limit
  {
    if limit > 0 then
      var q := (total + limit - 1) / limit;
      var rem := (total + limit - 1) % limit;
      assert total + limit - 1 == q * limit + rem && 0 <= rem < limit;
      assert (q - 1) * limit == q * limit - limit;
      q
    else
      var m := -limit;
      var q := total / m;
      assert total == q * m + total % m && 0 <= total % m < m;
      assert (-q) * limit == q * m;
      assert (-q - 1) * limit == q * m + m;
      -q
  }

  /** With a positive limit the page count never goes negative, and no items means no pages. */
  lemma PagesOfPositiveLimit(total: nat, limit: int)
    requires limit > 0
    ensures Pages(total, limit) >= 0
    ensures Pages(total, limit) == 0 <==> total == 0
  {
    var r := Pages(total, limit);
    if r > 0 {
      assert r * limit >= limit;
    }
  }

  /**
   * Every one of `total` matching items is on some page between 1 and
   * `Pages(total, limit)`: the page windows cover the whole result.
   */
  lemma {:induction false} EveryItemIsOnAListedPage(total: nat, limit: int, i: nat)
    requires limit > 0 && i < total
    ensures var p := i / limit + 1;
            && 1 <= p <= Pages(total, limit)
            && PageWindow(Some(p), Some(limit)).startIndex <= i < PageWindow(Some(p), Some(limit)).startIndex + limit
  {
    var p := i / limit + 1;
    var w := PageWindow(Some(p), Some(limit));
    assert i == (p - 1) * limit + i % limit && 0 <= i % limit < limit;
    assert w.startIndex == (p - 1) * limit;
    var r := Pages(total, limit);
    if p > r {
      assert (p - 1) * limit >= r * limit by {
        assert p - 1 >= r;
        MulMonotone(r, p - 1, limit);
      }
    }
  }

  lemma MulMonotone(a: int, b: int, c: int)
    requires a <= b && c > 0
    ensures a * c <= b * c
  {
  }

  /** The equality filters of a project query; `None` means the field is not filtered. */
  datatype Query = Query(student: Option<UserId>, status: Option<string>)

  predicate Matches(p: Project, q: Query)
  {
    && (q.student.Some? ==> p.student == q.student.value)
    && (q.status.Some? ==> StatusName(p.status) == q.status.value)
  }

  /** The projects a query finds (and counts). */
  function Select(projects: map<ProjectId, Project>, q: Query): (r: set<ProjectId>)
    ensures r <= projects.Keys
  {
    set id | id in projects && Matches(projects[id], q)
  }

  /** `if (req.query.x)`: an absent or empty parameter adds no filter. */
  function Truthy(s: Option<string>): (r: Option<string>)
    ensures r.Some? <==> s.Some? && s.value != []
    ensures r.Some? ==> r == s
  {
    if s.Some? && s.value != [] then s else None
  }

  /** A status filter that is not a status spelling finds nothing. */
  lemma UnknownStatusFindsNothing(projects: map<ProjectId, Project>, q: Query)
    requires q.status.Some? && ParseStatus(q.status.value).None?
    ensures Select(projects, q) == {}
  {
    forall id | id in projects
      ensures !Matches(projects[id], q)
    {
      ParseStatusName(projects[id].status);
    }
  }

  /** Adding a filter only narrows the result. */
  lemma FilterNarrows(projects: map<ProjectId, Project>, q: Query, student: UserId)
    requires q.student.None?
    ensures Select(projects, q.(student := Some(student))) <= Select(projects, q)
    ensures forall id :: id in Select(projects, q.(student := Some(student))) ==> projects[id].student == student
  {
  }
}

=== FILE: models.dfy ===
/**
 * The persistent records the core reads and writes: users, projects and
 * terminal-session records, with the identifiers that link them.
 */
module Models {
  import opened Wrappers

  type UserId = string
  type ProjectId = string
  /** A terminal-session record's `_id`; fresh ones are drawn from a counter. */
  type SessionId = nat
  /** A container's id; the runtime hands out fresh ones from a counter. */
  type ContainerId = nat

  /** The `role` enum of a user account. */
  datatype Role = Student | Admin

  datatype User = User(id: UserId, role: Role)

  /** The `status` enum of a terminal-session record. */
  datatype SessionStatus = Active | Terminated

  /**
   * A terminal-session record: the audit trail of one container binding.
   * `endTime` is absent while the session is active.
   */
  datatype SessionRecord = SessionRecord(
    project: ProjectId,
    admin: UserId,
    containerId: ContainerId,
    status: SessionStatus,
    startTime: int,
    endTime: Option<int>)
  {
    /** The record shape the schema promises: an end time exactly when terminated. */
    predicate WellFormed()
    {
      status == Active <==> endTime.None?
    }
  }

  /** The `status` enum of a project. */
  datatype ProjectStatus = Submitted | Reviewed | Pending

  /** A submitted project. */
  datatype Project = Project(
    name: string,
    description: string,
    student: UserId,
    stack: seq<string>,
    latexFilePath: string,
    zipFilePath: string,
    extractedPath: Option<string>,
    status: ProjectStatus,
    reviewComments: string,
    reviewedBy: Option<UserId>,
    reviewedAt: Option<int>)

  /** The wire spelling of a project status. */
  function StatusName(s: ProjectStatus): string
  {
    match s
    case Submitted => "submitted"
    case Reviewed => "reviewed"
    case Pending => "pending"
  }

  /** Parses a status from its wire spelling; inverse of `StatusName`. */
  function ParseStatus(s: string): (r: Option<ProjectStatus>)
    ensures r.Some? ==> StatusName(r.value) == s
    ensures r.None? ==> s !in {"submitted", "reviewed", "pending"}
  {
    if s == "submitted" then Some(Submitted)
    else if s == "reviewed" then Some(Reviewed)
    else if s == "pending" then Some(Pending)
    else None
  }

  lemma {:induction false} ParseStatusName(st: ProjectStatus)
    ensures ParseStatus(StatusName(st)) == Some(st)
  {
    match st
    case Submitted =>
    case Reviewed =>
      assert "reviewed" != "submitted";
    case Pending =>
      assert "pending" != "submitted" && "pending" != "reviewed";
  }

  /**
   * The review an admin's update writes into a project: the status (kept
   * when none is given), the comments (kept when none are given, since
   * Mongoose 6 and later drop an undefined field from an update; Mongoose 5
   * without `omitUndefined` would write null), the reviewer and the time.
   */
  function WithReview(p: Project, status: Option<ProjectStatus>, comments: Option<string>,
                      reviewer: UserId, now: int): (r: Project)
    ensures r.status == (if status.Some? then status.value else p.status)
    ensures r.reviewComments == (if comments.Some? then comments.value else p.reviewComments)
    ensures r.reviewedBy == Some(reviewer) && r.reviewedAt == Some(now)
    ensures r.(status := p.status, reviewComments := p.reviewComments,
               reviewedBy := p.reviewedBy, reviewedAt := p.reviewedAt) == p
  {
    p.(status := if status.Some? then status.value else p.status,
       reviewComments := if comments.Some? then comments.value else p.reviewComments,
       reviewedBy := Some(reviewer),
       reviewedAt := Some(now))
  }

  /** The ownership rule of the project endpoints: an admin may reach any project, a student only their own. */
  predicate MayAccess(user: User, p: Project)
  {
    !(user.role == Student && p.student != user.id)
  }
}

=== FILE: project_controller.dfy ===
/**
 * The project endpoints: listing with the role filter, reading, creating
 * with uploaded files, field-restricted updates, and deletion with the
 * project's files. The project collection is a map from id to record; file
 * existence and JSON parsing are parameters.
 */
module ProjectController {
  import opened Wrappers
  import opened Models
  import opened Http
  import opened Listing

  /** The filters of `getProjects`: a student is confined to their own projects. */
  function ProjectsQuery(user: User, status: Option<string>): (q: Query)
    ensures user.role == Student ==> q.student == Some(user.id)
    ensures user.role == Admin ==> q.student.None?
    ensures q.status.Some? <==> status.Some? && status.value != []
    ensures q.status.Some? ==> q.status == status
  {
    Query(if user.role == Student then Some(user.id) else None, Truthy(status))
  }

  /** A student's listing holds only their own projects, whatever the filters. */
  lemma StudentListsOnlyOwnProjects(projects: map<ProjectId, Project>, user: User, status: Option<string>)
    requires user.role == Student
    ensures forall id :: id in Select(projects, ProjectsQuery(user, status)) ==>
              id in projects && projects[id].student == user.id
  {
  }

  /** An admin's unfiltered listing holds every project. */
  lemma AdminListsEveryProject(projects: map<ProjectId, Project>, user: User)
    requires user.role == Admin
    ensures Select(projects, ProjectsQuery(user, None)) == projects.Keys
  {
  }

  /** The pagination block of a listing. */
  datatype Pagination = Pagination(total: nat, page: int, pages: int)

  /** What `getProjects` reports: the matching projects, the page's offset and limit, and the pagination. */
  datatype Listed = Listed(found: set<ProjectId>, window: Window, pagination: Pagination)

  function GetProjects(projects: map<ProjectId, Project>, user: User, status: Option<string>,
                       page: Option<int>, limit: Option<int>): (r: Reply<Listed>)
    ensures r.Success? && r.code == 200
    ensures r.data.found == Select(projects, ProjectsQuery(user, status))
    ensures r.data.pagination.total == |r.data.found|
    ensures r.data.window == PageWindow(page, limit) && r.data.pagination.page == r.data.window.page
    ensures r.data.pagination.pages == Pages(r.data.pagination.total, r.data.window.limit)
  {
    var found := Select(projects, ProjectsQuery(user, status));
    var w := PageWindow(page, limit);
    Success(200, Listed(found, w, Pagination(|found|, w.page, Pages(|found|, w.limit))))
  }

  /** `getProject`: 404 for a missing project, 403 for another student's. */
  function GetProject(projects: map<ProjectId, Project>, id: ProjectId, user: User): (r: Reply<Project>)
    ensures id !in projects ==> r == Failure(Some(404), "Project not found")
    ensures id in projects && !MayAccess(user, projects[id]) ==>
              r == Failure(Some(403), "Not authorized to access this project")
    ensures r.Success? <==> id in projects && MayAccess(user, projects[id])
    ensures r.Success? ==> r == Success(200, projects[id])
  {
    if id !in projects then Failure(Some(404), "Project not found")
    else if !MayAccess(user, projects[id]) then Failure(Some(403), "Not authorized to access this project")
    else Success(200, projects[id])
  }

  /**
   * The uploaded files of a request, by field: the stored paths of the
   * files under `zipFile` and `latexFile`, `None` when the field is absent.
   */
  datatype Uploads = Uploads(zipFile: Option<seq<string>>, latexFile: Option<seq<string>>)

  /** The files the error path of `createProject` deletes: the first file of each field present. */
  function UploadedPaths(files: Option<Uploads>): (r: seq<string>)
    ensures |r| <= 2
  {
    if files.None? then []
    else
      (if files.value.zipFile.Some? && |files.value.zipFile.value| > 0 then [files.value.zipFile.value[0]] else [])
      + (if files.value.latexFile.Some? && |files.value.latexFile.value| > 0 then [files.value.latexFile.value[0]] else [])
  }

  /** The outcome of `createProject`: the answer, the collection, and the uploaded files deleted. */
  datatype Created = Created(reply: Reply<ProjectId>, projects: map<ProjectId, Project>, unlinked: seq<string>)

  /** The message of the `TypeError` raised by reading `[0].path` of an empty file list. */
  const ReadPathOfUndefined: string := "Cannot read properties of undefined (reading 'path')"

  /**
   * `createProject`: only students, both file fields present, a stack that
   * parses; the new project is `submitted` with the uploaded paths. Any
   * failure deletes the uploaded files. `createError` is the collection's
   * refusal (schema validation or a store error).
   */
  function CreateProject(projects: map<ProjectId, Project>, user: User, files: Option<Uploads>,
                         name: string, description: string, stack: Option<string>,
                         parseStack: string -> Result<seq<string>>, newId: ProjectId,
                         createError: Option<string>): (r: Created)
    requires newId !in projects
    ensures user.role != Student ==>
              r == Created(Failure(Some(403), "Only students can create projects"), projects, UploadedPaths(files))
    ensures user.role == Student
            && (files.None? || files.value.zipFile.None? || files.value.latexFile.None?) ==>
              r == Created(Failure(Some(400), "Please upload both project zip and LaTeX files"),
                           projects, UploadedPaths(files))
    ensures user.role == Student && files.Some? && files.value.zipFile.Some? && files.value.latexFile.Some?
            && Truthy(stack).Some? && parseStack(stack.value).Err? ==>
              r == Created(Failure(Some(400), "Invalid stack format"), projects, UploadedPaths(files))
    ensures r.reply.Failure? ==> r.projects == projects && r.unlinked == UploadedPaths(files)
    ensures r.reply.Success? <==>
              && user.role == Student && files.Some?
              && files.value.zipFile.Some? && |files.value.zipFile.value| > 0
              && files.value.latexFile.Some? && |files.value.latexFile.value| > 0
              && (Truthy(stack).None? || parseStack(stack.value).Ok?)
              && createError.None?
    ensures r.reply.Success? ==>
              && r.reply == Success(201, newId) && r.unlinked == []
              && r.projects == projects[newId := Project(
                   name, description, user.id,
                   if Truthy(stack).Some? then parseStack(stack.value).value else [],
                   files.value.latexFile.value[0], files.value.zipFile.value[0],
                   None, Submitted, "", None, None)]
  {
    var unlink := UploadedPaths(files);
    if user.role != Student then
      Created(Failure(Some(403), "Only students can create projects"), projects, unlink)
    else if files.None? || files.value.zipFile.None? || files.value.latexFile.None? then
      Created(Failure(Some(400), "Please upload both project zip and LaTeX files"), projects, unlink)
    else if Truthy(stack).Some? && parseStack(stack.value).Err? then
      Created(Failure(Some(400), "Invalid stack format"), projects, unlink)
    else if |files.value.latexFile.value| == 0 || |files.value.zipFile.value| == 0 then
      Created(Failure(None, ReadPathOfUndefined), projects, unlink)
    else if createError.Some? then
      Created(Failure(None, createError.value), projects, unlink)
    else
      var parsed := if Truthy(stack).Some? then parseStack(stack.value).value else [];
      var p := Project(name, description, user.id, parsed,
                       files.value.latexFile.value[0], files.value.zipFile.value[0],
                       None, Submitted, "", None, None);
      Created(Success(201, newId), projects[newId := p], [])
  }

  /** A created project always starts unreviewed, owned by its creator, with its uploaded files. */
  lemma CreatedProjectIsSubmitted(projects: map<ProjectId, Project>, user: User, files: Option<Uploads>,
                                  name: string, description: string, stack: Option<string>,
                                  parseStack: string -> Result<seq<string>>, newId: ProjectId,
                                  createError: Option<string>)
    requires newId !in projects
    requires CreateProject(projects, user, files, name, description, stack, parseStack, newId, createError).reply.Success?
    ensures var r := CreateProject(projects, user, files, name, description, stack, parseStack, newId, createError);
            && newId in r.projects && r.projects.Keys == projects.Keys + {newId}
            && r.projects[newId].status == Submitted && r.projects[newId].student == user.id
            && r.projects[newId].reviewedBy.None? && r.projects[newId].extractedPath.None?
            && r.projects[newId].zipFilePath in files.value.zipFile.value
            && r.projects[newId].latexFilePath in files.value.latexFile.value
  {
  }

  /** The `stack` of an update request: a JSON text to parse, or a list given as is. */
  datatype StackInput = StackText(text: string) | StackList(items: seq<string>)

  /** The student's update: name, description and stack, each kept when not given. */
  function StudentEdit(p: Project, name: Option<string>, description: Option<string>,
                       stack: Option<seq<string>>): (r: Project)
    ensures r.(name := p.name, description := p.description, stack := p.stack) == p
    ensures name.Some? ==> r.name == name.value
    ensures description.Some? ==> r.description == description.value
    ensures stack.Some? ==> r.stack == stack.value
  {
    p.(name := if name.Some? then name.value else p.name,
       description := if description.Some? then description.value else p.description,
       stack := if stack.Some? then stack.value else p.stack)
  }

  /**
   * The `stack` field of a student's update: absent or an empty text leaves
   * the stack alone, a list is taken as is, and a text is parsed as JSON.
   */
  function ParsedStack(stack: Option<StackInput>, parseStack: string -> Result<seq<string>>)
    : (r: Result<Option<seq<string>>>)
    ensures (stack.None? || stack == Some(StackText([]))) ==> r == Ok(None)
    ensures stack.Some? && stack.value.StackList? ==> r == Ok(Some(stack.value.items))
    ensures stack.Some? && stack.value.StackText? && stack.value.text != [] ==>
              && (r.Ok? <==> parseStack(stack.value.text).Ok?)
              && (r.Ok? ==> r.value == Some(parseStack(stack.value.text).value))
              && (r.Err? ==> r.msg == parseStack(stack.value.text).msg)
  {
    match stack
    case None => Ok(None)
    case Some(StackText(t)) =>
      if t == [] then Ok(None)
      else (match parseStack(t)
            case Ok(items) => Ok(Some(items))
            case Err(msg) => Err(msg))
    case Some(StackList(items)) => Ok(Some(items))
  }

  /**
   * `updateProject`: 404 for a missing project; a student may update only
   * their own project and only its name, description and stack; an admin
   * updates only the review fields. `storeError` is the collection's
   * refusal (update validators or a store error); a JSON text that does not
   * parse and a status outside the enum are passed on without a status.
   */
  function UpdateProject(projects: map<ProjectId, Project>, id: ProjectId, user: User,
                         name: Option<string>, description: Option<string>, stack: Option<StackInput>,
                         parseStack: string -> Result<seq<string>>,
                         status: Option<string>, comments: Option<string>, now: int,
                         storeError: Option<string>): (r: (Reply<Project>, map<ProjectId, Project>))
    ensures id !in projects ==> r == (Failure(Some(404), "Project not found"), projects)
    ensures id in projects && !MayAccess(user, projects[id]) ==>
              r == (Failure(Some(403), "Not authorized to update this project"), projects)
    ensures r.0.Failure? ==> r.1 == projects
    ensures r.0.Failure? && r.0.preset.None? ==> id in projects && MayAccess(user, projects[id])
    ensures r.0.Success? ==>
              && id in projects && MayAccess(user, projects[id]) && storeError.None?
              && r.0.code == 200 && r.1 == projects[id := r.0.data]
    ensures r.0.Success? && user.role == Student ==>
              r.0.data.(name := projects[id].name, description := projects[id].description,
                        stack := projects[id].stack) == projects[id]
    ensures user.role == Student && id in projects && projects[id].student == user.id ==>
              var parsed := ParsedStack(stack, parseStack);
              && (r.0.Success? <==> parsed.Ok? && storeError.None?)
              && (parsed.Err? ==> r.0 == Failure(None, parsed.msg))
              && (r.0.Success? ==> r.0.data == StudentEdit(projects[id], name, description, parsed.value))
    ensures r.0.Success? && user.role == Admin ==>
              r.0.data == WithReview(projects[id], if status.Some? then ParseStatus(status.value) else None,
                                     comments, user.id, now)
    ensures user.role == Admin && id in projects && storeError.None? ==>
              (r.0.Success? <==> status.None? || ParseStatus(status.value).Some?)
  {
    if id !in projects then (Failure(Some(404), "Project not found"), projects)
    else
      var p := projects[id];
      if user.role == Student then
        if p.student != user.id then (Failure(Some(403), "Not authorized to update this project"), projects)
        else
          var parsed := ParsedStack(stack, parseStack);
          if parsed.Err? then (Failure(None, parsed.msg), projects)
          else if storeError.Some? then (Failure(None, storeError.value), projects)
          else
            var q := StudentEdit(p, name, description, parsed.value);
            (Success(200, q), projects[id := q])
      else
        if status.Some? && ParseStatus(status.value).None? then
          (Failure(None, EnumError(status.value)), projects)
        else if storeError.Some? then (Failure(None, storeError.value), projects)
        else
          var q := WithReview(p, if status.Some? then ParseStatus(status.value) else None, comments, user.id, now);
          (Success(200, q), projects[id := q])
  }

  /** The update validator's message for a status outside the enum, around the rejected value. */
  const EnumErrorHead := "Validation failed: status: `"
  const EnumErrorTail := "` is not a valid enum value for path `status`."

  /** The message names the rejected value, and the value can be read back out of it. */
  function EnumError(value: string): (r: string)
    ensures |r| == |EnumErrorHead| + |value| + |EnumErrorTail|
    ensures EnumErrorHead <= r
    ensures r[|EnumErrorHead|..|r| - |EnumErrorTail|] == value
    ensures r[|r| - |EnumErrorTail|..] == EnumErrorTail
  {
    EnumErrorHead + value + EnumErrorTail
  }

  /** A student's update never touches the status or the review, nor the files or the owner. */
  lemma StudentCannotReview(projects: map<ProjectId, Project>, id: ProjectId, user: User,
                            name: Option<string>, description: Option<string>, stack: Option<StackInput>,
                            parseStack: string -> Result<seq<string>>,
                            status: Option<string>, comments: Option<string>, now: int,
                            storeError: Option<string>)
    requires user.role == Student
    ensures var r := UpdateProject(projects, id, user, name, description, stack, parseStack,
                                   status, comments, now, storeError);
            forall k :: k in r.1 ==>
              (&& k in projects
               && r.1[k].status == projects[k].status && r.1[k].reviewComments == projects[k].reviewComments
               && r.1[k].reviewedBy == projects[k].reviewedBy && r.1[k].student == projects[k].student
               && r.1[k].zipFilePath == projects[k].zipFilePath)
  {
  }

  /** An admin's update never touches what the student wrote. */
  lemma AdminCannotEditSubmission(projects: map<ProjectId, Project>, id: ProjectId, user: User,
                                  name: Option<string>, description: Option<string>, stack: Option<StackInput>,
                                  status: Option<string>, comments: Option<string>, now: int,
                                  storeError: Option<string>, parseStack: string -> Result<seq<string>>)
    requires user.role == Admin
    ensures var r := UpdateProject(projects, id, user, name, description, stack,
                                   parseStack, status, comments, now, storeError);
            forall k :: k in r.1 ==>
              (&& k in projects
               && r.1[k].name == projects[k].name && r.1[k].description == projects[k].description
               && r.1[k].stack == projects[k].stack && r.1[k].student == projects[k].student)
  {
  }

  /** The outcome of `deleteProject`: the answer, the collection, and the paths deleted from disk. */
  datatype Deleted = Deleted(reply: Reply<()>, projects: map<ProjectId, Project>, removed: seq<string>)

  /** The files of a project that exist on disk, in the order they are deleted. */
  function ExistingFiles(p: Project, onDisk: string -> bool): (r: seq<string>)
    ensures forall f :: f in r ==> onDisk(f)
    ensures onDisk(p.zipFilePath) ==> p.zipFilePath in r
    ensures onDisk(p.latexFilePath) ==> p.latexFilePath in r
    ensures p.extractedPath.Some? && p.extractedPath.value != [] && onDisk(p.extractedPath.value) ==>
              p.extractedPath.value in r
    ensures forall f :: f in r ==> f == p.zipFilePath || f == p.latexFilePath || Some(f) == p.extractedPath
  {
    (if onDisk(p.zipFilePath) then [p.zipFilePath] else [])
    + (if onDisk(p.latexFilePath) then [p.latexFilePath] else [])
    + (if p.extractedPath.Some? && p.extractedPath.value != [] && onDisk(p.extractedPath.value)
       then [p.extractedPath.value] else [])
  }

  /** `deleteProject`: 404 for a missing project, 403 for another student's; otherwise its files and record go. */
  function DeleteProject(projects: map<ProjectId, Project>, id: ProjectId, user: User,
                         onDisk: string -> bool): (r: Deleted)
    ensures id !in projects ==> r == Deleted(Failure(Some(404), "Project not found"), projects, [])
    ensures id in projects && !MayAccess(user, projects[id]) ==>
              r == Deleted(Failure(Some(403), "Not authorized to delete this project"), projects, [])
    ensures r.reply.Success? <==> id in projects && MayAccess(user, projects[id])
    ensures r.reply.Success? ==>
              && r.reply == Success(200, ())
              && r.projects == projects - {id}
              && r.removed == ExistingFiles(projects[id], onDisk)
  {
    if id !in projects then Deleted(Failure(Some(404), "Project not found"), projects, [])
    else if !MayAccess(user, projects[id]) then
      Deleted(Failure(Some(403), "Not authorized to delete this project"), projects, [])
    else Deleted(Success(200, ()), projects - {id}, ExistingFiles(projects[id], onDisk))
  }

  /** Deleting twice is deleting once: the second request finds nothing and changes nothing. */
  lemma DeleteTwiceIsNotFound(projects: map<ProjectId, Project>, id: ProjectId, user: User,
                              onDisk: string -> bool)
    requires DeleteProject(projects, id, user, onDisk).reply.Success?
    ensures var once := DeleteProject(projects, id, user, onDisk);
            DeleteProject(once.projects, id, user, onDisk) == Deleted(Failure(Some(404), "Project not found"), once.projects, [])
  {
  }
}

=== FILE: project_reducer.dfy ===
/** The client's project slice: the listed projects, the open project, and the last error. */
module ProjectReducer {
  import opened Wrappers
  import opened ClientActions

  datatype ProjectState = ProjectState(
    projects: seq<ProjectDoc>,
    project: Option<ProjectDoc>,
    loading: bool,
    pagination: Option<Pagination>,
    error: ErrorValue)

  const Initial: ProjectState := ProjectState([], None, true, None, EmptyObject)

  /** `projects.map(p => p._id === doc._id ? doc : p)` */
  function ReplaceById(list: seq<ProjectDoc>, doc: ProjectDoc): (r: seq<ProjectDoc>)
    ensures |r| == |list|
    ensures forall i :: 0 <= i < |list| ==> r[i] == (if list[i].id == doc.id then doc else list[i])
  {
    seq(|list|, i requires 0 <= i < |list| => if list[i].id == doc.id then doc else list[i])
  }

  /** `projects.filter(p => p._id !== id)` */
  function RemoveById(list: seq<ProjectDoc>, id: string): (r: seq<ProjectDoc>)
    ensures forall d :: d in r ==> d in list && d.id != id
    ensures forall d :: d in list && d.id != id ==> d in r
    ensures |r| <= |list|
  {
    if list == [] then []
    else if list[0].id == id then RemoveById(list[1..], id)
    else [list[0]] + RemoveById(list[1..], id)
  }

  /** Removing an id twice is removing it once. */
  lemma {:induction false} RemoveByIdIsIdempotent(list: seq<ProjectDoc>, id: string)
    ensures RemoveById(RemoveById(list, id), id) == RemoveById(list, id)
  {
    if list != [] {
      RemoveByIdIsIdempotent(list[1..], id);
      if list[0].id != id {
        var r := [list[0]] + RemoveById(list[1..], id);
        assert r[0] == list[0] && r[1..] == RemoveById(list[1..], id);
      }
    }
  }

  /** Removal keeps the other projects in their order: it is a no-op on a list without the id. */
  lemma {:induction false} RemoveByIdKeepsOthers(list: seq<ProjectDoc>, id: string)
    requires forall d :: d in list ==> d.id != id
    ensures RemoveById(list, id) == list
  {
    if list != [] {
      assert list[0] in list;
      assert forall d :: d in list[1..] ==> d in list;
      RemoveByIdKeepsOthers(list[1..], id);
      assert [list[0]] + list[1..] == list;
    }
  }

  /** Removal distributes over concatenation, so order is kept segment by segment. */
  lemma {:induction false} RemoveByIdAppend(a: seq<ProjectDoc>, b: seq<ProjectDoc>, id: string)
    ensures RemoveById(a + b, id) == RemoveById(a, id) + RemoveById(b, id)
  {
    if a == [] {
      assert a + b == b;
    } else {
      assert (a + b)[0] == a[0] && (a + b)[1..] == a[1..] + b;
      RemoveByIdAppend(a[1..], b, id);
    }
  }

  /** The action types the project reducer names. */
  predicate Handles(a: Action)
  {
    a.GetProjects? || a.GetProject? || a.AddProject? || a.UpdateProject? || a.DeleteProject?
    || a.ProjectError? || a.ClearProject?
  }

  /** `projectReducer` */
  function Reduce(s: ProjectState, a: Action): (r: ProjectState)
    ensures a.GetProjects? ==>
              r == s.(projects := a.docs, pagination := a.paging, loading := false)
    ensures a.GetProject? ==> r.project == Some(a.doc) && !r.loading && r.projects == s.projects
    ensures a.AddProject? ==>
              && |r.projects| == |s.projects| + 1 && r.projects[0] == a.doc && r.projects[1..] == s.projects
              && r.project == s.project && !r.loading
    ensures a.UpdateProject? ==>
              && r.projects == ReplaceById(s.projects, a.doc) && r.project == Some(a.doc) && !r.loading
    ensures a.DeleteProject? ==>
              && r.projects == RemoveById(s.projects, a.id) && r.project == s.project && !r.loading
    ensures a.ProjectError? ==> r == s.(error := a.error, loading := false)
    ensures a.ClearProject? ==> r.project.None? && r.projects == s.projects && !r.loading
    ensures !a.ProjectError? ==> r.error == s.error
    ensures !a.GetProjects? ==> r.pagination == s.pagination
    ensures !Handles(a) ==> r == s
  {
    match a
    case GetProjects(docs, pagination) => s.(projects := docs, pagination := pagination, loading := false)
    case GetProject(doc) => s.(project := Some(doc), loading := false)
    case AddProject(doc) => s.(projects := [doc] + s.projects, loading := false)
    case UpdateProject(doc) => s.(projects := ReplaceById(s.projects, doc), project := Some(doc), loading := false)
    case DeleteProject(id) => s.(projects := RemoveById(s.projects, id), loading := false)
    case ProjectError(e) => s.(error := e, loading := false)
    case ClearProject => s.(project := None, loading := false)
    case _ => s
  }

  /** Deleting the same project twice leaves the list as deleting it once. */
  lemma DeleteIsIdempotent(s: ProjectState, id: string)
    ensures Reduce(Reduce(s, DeleteProject(id)), DeleteProject(id)) == Reduce(s, DeleteProject(id))
  {
    RemoveByIdIsIdempotent(s.projects, id);
  }

  /** A project added and then deleted is gone, and the others stay in their order. */
  lemma {:induction false} AddThenDelete(s: ProjectState, doc: ProjectDoc)
    requires forall d :: d in s.projects ==> d.id != doc.id
    ensures Reduce(Reduce(s, AddProject(doc)), DeleteProject(doc.id)).projects == s.projects
  {
    RemoveByIdAppend([doc], s.projects, doc.id);
    RemoveByIdKeepsOthers(s.projects, doc.id);
    assert RemoveById([doc], doc.id) == [];
  }

  /** An update changes no list membership by id: the ids listed stay the same, in order. */
  lemma UpdateKeepsIds(s: ProjectState, doc: ProjectDoc)
    ensures var r := Reduce(s, UpdateProject(doc));
            forall i :: 0 <= i < |s.projects| ==> r.projects[i].id == s.projects[i].id
  {
  }
}

=== FILE: registry.dfy ===
/**
 * The process-wide registry of live terminal sessions (`activeSessions`):
 * a map from session id to the transient state of the one connection that
 * owns it. Each step the socket service performs on the map between two
 * awaits is a function here; `ActiveSessions` is the mutable map itself,
 * whose methods are specified by those functions.
 */
module Registry {
  import opened Wrappers
  import opened Models

  /** A socket.io connection's `socket.id`. */
  type SocketId = nat
  /** The per-setup-attempt token (`setupInstanceId`), minted fresh for each attempt. */
  type Token = nat
  /** The identity of one attached container stream. */
  type StreamId = nat

  /** The transient state of one session: owner socket, container, stream, setup flag, token. */
  datatype Entry = Entry(
    socket: SocketId,
    container: Option<ContainerId>,
    stream: Option<StreamId>,
    setupInProgress: bool,
    token: Token)
  {
    /** The shape installed when a setup attempt starts. */
    predicate IsPlaceholder()
    {
      setupInProgress && container.None? && stream.None?
    }

    /** The shape left by a completed setup. */
    predicate IsReady()
    {
      !setupInProgress && container.Some? && stream.Some?
    }
  }

  type Sessions = map<SessionId, Entry>

  /** `cleanupSessionResources`: the entry is dropped and nothing else changes. */
  function Released(m: Sessions, sid: SessionId): (r: Sessions)
    ensures sid !in r
    ensures r.Keys == m.Keys - {sid}
    ensures forall k :: k in r ==> r[k] == m[k]
  {
    m - {sid}
  }

  lemma ReleaseIsIdempotent(m: Sessions, sid: SessionId)
    ensures Released(Released(m, sid), sid) == Released(m, sid)
    ensures sid !in m ==> Released(m, sid) == m
  {
  }

  /**
   * The connection-time conflict check: another socket owns the entry and
   * it is either streaming or mid-setup.
   */
  predicate ActiveElsewhere(m: Sessions, sid: SessionId, sock: SocketId)
  {
    sid in m && m[sid].socket != sock && (m[sid].stream.Some? || m[sid].setupInProgress)
  }

  /** The guard at the start of setup: some attempt is in progress or done. */
  predicate SetupBusy(m: Sessions, sid: SessionId)
  {
    sid in m && (m[sid].setupInProgress || m[sid].stream.Some?)
  }

  /**
   * Setup's first atomic step: abort without touching the map when busy,
   * otherwise install a placeholder bound to the socket and the fresh token.
   */
  function WithPlaceholder(m: Sessions, sid: SessionId, sock: SocketId, token: Token): (r: Sessions)
    ensures SetupBusy(m, sid) ==> r == m
    ensures !SetupBusy(m, sid) ==> sid in r && r[sid].IsPlaceholder()
                                   && r[sid].socket == sock && r[sid].token == token
    ensures r.Keys == m.Keys + (if SetupBusy(m, sid) then {} else {sid})
    ensures forall k :: k in m && k != sid ==> r[k] == m[k]
  {
    if SetupBusy(m, sid) then m
    else m[sid := Entry(sock, None, None, true, token)]
  }

  /** The re-check after `getContainer`: the attempt's token is still the one of record. */
  predicate StillOwns(m: Sessions, sid: SessionId, token: Token)
  {
    sid in m && m[sid].token == token && m[sid].setupInProgress
  }

  /**
   * Completion AS WRITTEN: the snapshot read at the re-check is written back
   * with container and stream, whatever the map holds by then.
   */
  function CompletedAsWritten(m: Sessions, sid: SessionId, snapshot: Entry, c: ContainerId, s: StreamId): (r: Sessions)
    ensures sid in r && r[sid].IsReady() && r[sid].container == Some(c) && r[sid].stream == Some(s)
    ensures r[sid].socket == snapshot.socket && r[sid].token == snapshot.token
    ensures r.Keys == m.Keys + {sid}
    ensures forall k :: k in m && k != sid ==> r[k] == m[k]
  {
    m[sid := snapshot.(container := Some(c), stream := Some(s), setupInProgress := false)]
  }

  /**
   * Completion re-validated by token: only the attempt whose placeholder is
   * still in the map may complete it; socket and token are kept.
   */
  function Completed(m: Sessions, sid: SessionId, token: Token, c: ContainerId, s: StreamId): (r: Sessions)
    ensures !StillOwns(m, sid, token) ==> r == m
    ensures StillOwns(m, sid, token) ==>
              sid in r && r[sid].IsReady() && r[sid].container == Some(c) && r[sid].stream == Some(s)
              && r[sid].socket == m[sid].socket && r[sid].token == token
    ensures r.Keys == m.Keys
    ensures forall k :: k in m && k != sid ==> r[k] == m[k]
  {
    if StillOwns(m, sid, token)
    then m[sid := m[sid].(container := Some(c), stream := Some(s), setupInProgress := false)]
    else m
  }

  /** When nothing touched the entry during the attach await, both completions agree. */
  lemma CompletionsAgreeWhenUndisturbed(m: Sessions, sid: SessionId, token: Token, c: ContainerId, s: StreamId)
    requires StillOwns(m, sid, token)
    ensures CompletedAsWritten(m, sid, m[sid], c, s) == Completed(m, sid, token, c, s)
  {
  }

  /**
   * The missing re-check after attach, exhibited: attempt 1 (socket 10)
   * passes its re-check, the entry is then released and attempt 2 (socket 20)
   * installs its placeholder; attempt 1's completion as written overwrites
   * attempt 2's placeholder with its own socket and token, after which
   * attempt 2's own re-check fails. The re-validated completion leaves
   * attempt 2's placeholder alone.
   */
  lemma StaleCompletionOverwritesNewerAttempt()
    ensures var m1 := WithPlaceholder(map[], 7, 10, 1);
            var snapshot := m1[7];
            var m3 := WithPlaceholder(Released(m1, 7), 7, 20, 2);
            var asWritten := CompletedAsWritten(m3, 7, snapshot, 100, 200);
            && StillOwns(m1, 7, 1)
            && StillOwns(m3, 7, 2)
            && asWritten[7].socket == 10 && asWritten[7].token == 1
            && !StillOwns(asWritten, 7, 2)
            && Completed(m3, 7, 1, 100, 200) == m3
  {
  }

  /** Ownership gate of output forwarding: the map's stream is this very stream. */
  predicate ForwardsOutput(m: Sessions, sid: SessionId, s: StreamId)
  {
    sid in m && m[sid].stream == Some(s)
  }

  /** Ownership gate of input: a stream is attached and this socket owns the entry. */
  predicate AcceptsInput(m: Sessions, sid: SessionId, sock: SocketId)
  {
    sid in m && m[sid].stream.Some? && m[sid].socket == sock
  }

  /** Ownership gate of resize: a container is attached and this socket owns the entry. */
  predicate AcceptsResize(m: Sessions, sid: SessionId, sock: SocketId)
  {
    sid in m && m[sid].container.Some? && m[sid].socket == sock
  }

  /** The disconnect handler releases the entry only when this socket owns it. */
  predicate OwnedBy(m: Sessions, sid: SessionId, sock: SocketId)
  {
    sid in m && m[sid].socket == sock
  }

  /** The map-mutating steps, for reasoning about arbitrary interleavings. */
  datatype Step =
    | Place(sid: SessionId, sock: SocketId, token: Token)
    | Complete(sid: SessionId, token: Token, c: ContainerId, s: StreamId)
    | CompleteUnchecked(sid: SessionId, snapshot: Entry, c: ContainerId, s: StreamId)
    | Release(sid: SessionId)

  function Apply(m: Sessions, st: Step): Sessions
  {
    match st
    case Place(sid, sock, token) => WithPlaceholder(m, sid, sock, token)
    case Complete(sid, token, c, s) => Completed(m, sid, token, c, s)
    case CompleteUnchecked(sid, snapshot, c, s) => CompletedAsWritten(m, sid, snapshot, c, s)
    case Release(sid) => Released(m, sid)
  }

  function ApplyAll(m: Sessions, steps: seq<Step>): Sessions
    decreases |steps|
  {
    if steps == [] then m else ApplyAll(Apply(m, steps[0]), steps[1..])
  }

  /** Every entry is a placeholder or a completed setup: none is stale. */
  ghost predicate NoStaleEntries(m: Sessions)
  {
    forall k :: k in m ==> m[k].IsPlaceholder() || m[k].IsReady()
  }

  lemma {:induction false} StepKeepsNoStale(m: Sessions, st: Step)
    requires NoStaleEntries(m)
    ensures NoStaleEntries(Apply(m, st))
  {
    match st
    case Place(sid, sock, token) =>
    case Complete(sid, token, c, s) =>
    case CompleteUnchecked(sid, snapshot, c, s) =>
    case Release(sid) =>
  }

  /**
   * From an empty registry, every interleaving of placements, completions
   * (re-validated or as written) and releases leaves only placeholders and
   * completed entries:
   * the "stale entry" that the connection check and the setup guard allow to
   * be taken over never arises.
   */
  lemma {:induction false} NoStaleEntriesEverArise(m: Sessions, steps: seq<Step>)
    requires NoStaleEntries(m)
    ensures NoStaleEntries(ApplyAll(m, steps))
    decreases |steps|
  {
    if steps != [] {
      StepKeepsNoStale(m, steps[0]);
      NoStaleEntriesEverArise(Apply(m, steps[0]), steps[1..]);
    }
  }

  /**
   * At most one owner: once a setup has completed, no placement and no
   * re-validated completion by any attempt changes the entry; only a
   * release does. (An unchecked completion can, as
   * `UncheckedCompletionOverwritesReadyEntry` shows.)
   */
  lemma {:induction false} ReadyEntryOnlyReleased(m: Sessions, sid: SessionId, st: Step)
    requires sid in m && m[sid].IsReady()
    requires st.Release? ==> st.sid != sid
    requires !st.CompleteUnchecked?
    ensures sid in Apply(m, st) && Apply(m, st)[sid] == m[sid]
  {
    match st
    case Place(k, sock, token) =>
      assert SetupBusy(m, sid);
    case Complete(k, token, c, s) =>
      assert !StillOwns(m, sid, token);
    case CompleteUnchecked(k, snapshot, c, s) =>
      assert false;
    case Release(k) =>
  }

  /** Without the re-check, a late completion replaces even a completed entry with its snapshot. */
  lemma UncheckedCompletionOverwritesReadyEntry(m: Sessions, sid: SessionId, snapshot: Entry, c: ContainerId, s: StreamId)
    requires sid in m && m[sid].IsReady()
    requires snapshot.token != m[sid].token
    ensures Apply(m, CompleteUnchecked(sid, snapshot, c, s))[sid] != m[sid]
  {
  }

  lemma {:induction false} ReadyEntryStable(m: Sessions, sid: SessionId, steps: seq<Step>)
    requires sid in m && m[sid].IsReady()
    requires forall i :: 0 <= i < |steps| ==> steps[i] != Release(sid) && !steps[i].CompleteUnchecked?
    ensures sid in ApplyAll(m, steps) && ApplyAll(m, steps)[sid] == m[sid]
    decreases |steps|
  {
    if steps != [] {
      ReadyEntryOnlyReleased(m, sid, steps[0]);
      ReadyEntryStable(Apply(m, steps[0]), sid, steps[1..]);
    }
  }

  /**
   * Token authority: once the attempt holding `token` has completed, no
   * completion by any attempt changes the map again.
   */
  lemma {:induction false} CompletionIsOneShot(m: Sessions, sid: SessionId, token: Token, c: ContainerId, s: StreamId,
                                               other: Token, c2: ContainerId, s2: StreamId)
    requires StillOwns(m, sid, token)
    ensures var r := Completed(m, sid, token, c, s);
            Completed(r, sid, other, c2, s2) == r
  {
    var r := Completed(m, sid, token, c, s);
    assert !r[sid].setupInProgress;
  }

  /**
   * The registry: the session map, the streams ended by cleanup, and the
   * source of fresh setup tokens.
   */
  class ActiveSessions {
    var entries: Sessions
    /** Streams ended (and stripped of listeners) by `Cleanup`, in order. */
    var endedStreams: seq<StreamId>
    var nextToken: Token

    /** Every token in the map was minted before `nextToken`. */
    ghost predicate Valid()
      reads this
    {
      forall k :: k in entries ==> entries[k].token < nextToken
    }

    constructor ()
      ensures Valid() && entries == map[] && endedStreams == []
    {
      entries := map[];
      endedStreams := [];
      nextToken := 0;
    }

    /** A setup token that no entry carries yet. */
    method FreshToken() returns (t: Token)
      requires Valid()
      modifies this`nextToken
      ensures Valid() && nextToken == t + 1
      ensures forall k :: k in entries ==> entries[k].token != t
    {
      t := nextToken;
      nextToken := nextToken + 1;
    }

    /** `cleanupSessionResources`: end the entry's stream, if any, then drop the entry. */
    method Cleanup(sid: SessionId)
      requires Valid()
      modifies this`entries, this`endedStreams
      ensures Valid()
      ensures entries == Released(old(entries), sid)
      ensures endedStreams == old(endedStreams) +
                (if sid in old(entries) && old(entries)[sid].stream.Some?
                 then [old(entries)[sid].stream.value] else [])
    {
      if sid in entries {
        var e := entries[sid];
        if e.stream.Some? {
          endedStreams := endedStreams + [e.stream.value];
        }
        entries := entries - {sid};
      }
    }

    /** The setup guard and placeholder; `placed` says whether the attempt goes on. */
    method PlacePlaceholder(sid: SessionId, sock: SocketId, token: Token) returns (placed: bool)
      requires Valid() && token < nextToken
      modifies this`entries
      ensures Valid()
      ensures placed == !SetupBusy(old(entries), sid)
      ensures entries == WithPlaceholder(old(entries), sid, sock, token)
    {
      var existing := if sid in entries then Some(entries[sid]) else None;
      if existing.Some? && (existing.value.setupInProgress || existing.value.stream.Some?) {
        return false;
      }
      entries := entries[sid := Entry(sock, None, None, true, token)];
      placed := true;
    }

    /**
     * Completion as written: the snapshot taken at the re-check is stored
     * back with container and stream, whatever the map holds by then.
     */
    method CompleteAsWritten(sid: SessionId, snapshot: Entry, c: ContainerId, s: StreamId)
      requires Valid() && snapshot.token < nextToken
      modifies this`entries
      ensures Valid()
      ensures entries == CompletedAsWritten(old(entries), sid, snapshot, c, s)
    {
      entries := entries[sid := snapshot.(container := Some(c), stream := Some(s), setupInProgress := false)];
    }

    /** Completion re-validated by token (the corrected form of the source's completion). */
    method CompleteSetup(sid: SessionId, token: Token, c: ContainerId, s: StreamId) returns (done: bool)
      requires Valid()
      modifies this`entries
      ensures Valid()
      ensures done == StillOwns(old(entries), sid, token)
      ensures entries == Completed(old(entries), sid, token, c, s)
    {
      done := sid in entries && entries[sid].token == token && entries[sid].setupInProgress;
      if done {
        entries := entries[sid := entries[sid].(container := Some(c), stream := Some(s), setupInProgress := false)];
      }
    }
  }
}

=== FILE: server_input.dfy ===
/**
 * The server's handling of one `input` event from the owning socket: DEL and
 * other control characters go to the container stream raw; everything else
 * accumulates in the per-connection line buffer, from which each complete
 * line (ended by "\n", "\r" or "\r\n") is written with a single "\n".
 */
module ServerInput {

  /** The DEL character (0x7F) a terminal sends for Backspace. */
  const DEL: char := 127 as char

  predicate IsLineEnd(c: char)
  {
    c == '\n' || c == '\r'
  }

  /** `lineBuffer.includes("\n") || lineBuffer.includes("\r")` */
  predicate HasLineEnd(s: string)
  {
    '\n' in s || '\r' in s
  }

  /** `lineBuffer.search(/[\n\r]/)`: the first line end of a buffer that has one. */
  function FirstLineEnd(s: string): (i: nat)
    requires HasLineEnd(s)
    ensures i < |s| && IsLineEnd(s[i]) && !HasLineEnd(s[..i])
  {
    if IsLineEnd(s[0]) then 0
    else
      var k := FirstLineEnd(s[1..]);
      assert s[..k + 1] == [s[0]] + s[1..][..k];
      k + 1
  }

  /** Where the next line starts: a "\r" directly followed by "\n" ends one line, not two. */
  function NextLineStart(s: string, i: nat): nat
    requires i < |s|
  {
    if s[i] == '\r' && i + 1 < |s| && s[i + 1] == '\n' then i + 2 else i + 1
  }

  /**
   * The lines a buffer completes, each followed by one "\n", and the
   * unfinished remainder that stays buffered.
   */
  function Lines(s: string): (r: (seq<string>, string))
    ensures !HasLineEnd(s) ==> r == ([], s)
    ensures |r.1| <= |s|
    decreases |s|
  {
    if !HasLineEnd(s) then ([], s)
    else
      var i := FirstLineEnd(s);
      var tail := Lines(s[NextLineStart(s, i)..]);
      ([s[..i] + "\n"] + tail.0, tail.1)
  }

  /** The splitting loop of the input handler, proved to compute `Lines`. */
  method SplitLines(buffer: string) returns (lines: seq<string>, rest: string)
    ensures (lines, rest) == Lines(buffer)
  {
    lines := [];
    rest := buffer;
    while '\n' in rest || '\r' in rest
      invariant lines + Lines(rest).0 == Lines(buffer).0
      invariant Lines(rest).1 == Lines(buffer).1
      decreases |rest|
    {
      var lineEnd := FirstLineEnd(rest);
      var command := rest[..lineEnd];
      var next := lineEnd + 1;
      if rest[lineEnd] == '\r' && next < |rest| && rest[next] == '\n' {
        next := next + 1;
      }
      assert next == NextLineStart(rest, lineEnd);
      ghost var tail := Lines(rest[next..]);
      assert Lines(rest) == ([command + "\n"] + tail.0, tail.1);
      assert (lines + [command + "\n"]) + tail.0 == lines + ([command + "\n"] + tail.0);
      rest := rest[next..];
      command := command + "\n";
      lines := lines + [command];
      if |rest| == 0 {
        assert tail == ([], []);
        assert lines + [] == lines;
        assert lines == Lines(buffer).0;
        assert rest == Lines(buffer).1;
        break;
      }
    }
    assert !HasLineEnd(rest) ==> Lines(rest) == ([], rest);
    assert lines == Lines(buffer).0;
    assert rest == Lines(buffer).1;
  }

  /** What one input event writes to the stream, in order, and the new line buffer. */
  datatype InputEffect = InputEffect(writes: seq<string>, buffer: string)

  /** `lineBuffer.slice(0, -1)` */
  function DropLast(s: string): (r: string)
    ensures |s| > 0 ==> r == s[..|s| - 1]
    ensures |s| == 0 ==> r == []
  {
    if |s| == 0 then [] else s[..|s| - 1]
  }

  /** `data.charCodeAt(0) < 32 && data !== "\n" && data !== "\r"` (false on empty data). */
  predicate IsRawControl(data: string)
    ensures IsRawControl(data) ==> data != [DEL]
  {
    |data| > 0 && data[0] < ' ' && data != "\n" && data != "\r"
  }

  /**
   * One input event from the owning socket: DEL is written raw and drops the
   * last buffered character; another control character is written raw and
   * leaves the buffer alone; anything else is buffered and every completed
   * line is written.
   */
  function InputStep(buffer: string, data: string): (r: InputEffect)
    ensures data == [DEL] ==> r == InputEffect([data], DropLast(buffer))
    ensures data != [DEL] && IsRawControl(data) ==> r == InputEffect([data], buffer)
    ensures !HasLineEnd(r.buffer) || data == [DEL] || IsRawControl(data)
  {
    if data == [DEL] then InputEffect([data], DropLast(buffer))
    else if IsRawControl(data) then InputEffect([data], buffer)
    else
      LinesRemainderHasNoLineEnd(buffer + data);
      var (lines, rest) := Lines(buffer + data);
      InputEffect(lines, rest)
  }

  /** The remainder never holds a line end. */
  lemma {:induction false} LinesRemainderHasNoLineEnd(s: string)
    ensures !HasLineEnd(Lines(s).1)
    decreases |s|
  {
    if HasLineEnd(s) {
      var i := FirstLineEnd(s);
      LinesRemainderHasNoLineEnd(s[NextLineStart(s, i)..]);
    }
  }

  /** What stays buffered is the text after the last line end: a suffix of the input. */
  lemma {:induction false} LinesRemainderIsSuffix(s: string)
    ensures Lines(s).1 == s[|s| - |Lines(s).1|..]
    decreases |s|
  {
    if HasLineEnd(s) {
      var n := NextLineStart(s, FirstLineEnd(s));
      LinesRemainderIsSuffix(s[n..]);
      var rem := Lines(s[n..]).1;
      assert s[n..][|s[n..]| - |rem|..] == s[|s| - |rem|..];
    }
  }

  /**
   * Data whose first character is a line end but that is more than that
   * one character (a paste such as "\nls\n") counts as a raw control
   * sequence: it is written as it is and the line buffer is left alone.
   */
  lemma PasteStartingWithLineEndBypassesBuffer(buffer: string, data: string)
    requires |data| > 1 && IsLineEnd(data[0])
    ensures InputStep(buffer, data) == InputEffect([data], buffer)
  {
    assert IsRawControl(data);
  }

  /** Every written line is one line-end-free command followed by exactly one "\n". */
  lemma {:induction false} LinesAreSingleLines(s: string)
    ensures forall j :: 0 <= j < |Lines(s).0| ==>
              var line := Lines(s).0[j];
              |line| > 0 && line[|line| - 1] == '\n' && !HasLineEnd(line[..|line| - 1])
    decreases |s|
  {
    if HasLineEnd(s) {
      var i := FirstLineEnd(s);
      var tail := s[NextLineStart(s, i)..];
      LinesAreSingleLines(tail);
      var line := s[..i] + "\n";
      assert line[..|line| - 1] == s[..i];
      assert Lines(s).0 == [line] + Lines(tail).0;
    }
  }

  /** The text as the shell should see it: "\r\n" and lone "\r" both become "\n". */
  function Normalized(s: string): string
    decreases |s|
  {
    if s == [] then []
    else if s[0] == '\r' then
      if |s| > 1 && s[1] == '\n' then "\n" + Normalized(s[2..]) else "\n" + Normalized(s[1..])
    else [s[0]] + Normalized(s[1..])
  }

  function Concat(lines: seq<string>): string
  {
    if lines == [] then [] else lines[0] + Concat(lines[1..])
  }

  lemma {:induction false} NormalizedKeepsPlainPrefix(a: string, b: string)
    requires !HasLineEnd(a)
    ensures Normalized(a + b) == a + Normalized(b)
    decreases |a|
  {
    if a != [] {
      assert a[0] in a;
      assert (a + b)[0] == a[0] && a[0] != '\r';
      assert (a + b)[1..] == a[1..] + b;
      assert !HasLineEnd(a[1..]) by {
        forall c | c in a[1..] ensures !IsLineEnd(c) {
          assert c in a;
        }
      }
      NormalizedKeepsPlainPrefix(a[1..], b);
      assert Normalized(a + b) == [a[0]] + Normalized(a[1..] + b);
      assert a == [a[0]] + a[1..];
      assert [a[0]] + (a[1..] + Normalized(b)) == ([a[0]] + a[1..]) + Normalized(b);
    } else {
      assert a + b == b;
      assert a + Normalized(b) == Normalized(b);
    }
  }

  lemma NormalizedAtLineEnd(s: string, i: nat)
    requires i < |s| && IsLineEnd(s[i])
    ensures Normalized(s[i..]) == "\n" + Normalized(s[NextLineStart(s, i)..])
  {
    var t := s[i..];
    assert t[0] == s[i];
    assert t[1..] == s[i + 1..];
    if |t| > 1 {
      assert t[1] == s[i + 1];
      assert t[2..] == s[i + 2..];
    }
  }

  lemma ConcatCons(line: string, rest: seq<string>)
    ensures Concat([line] + rest) == line + Concat(rest)
  {
    assert ([line] + rest)[1..] == rest;
  }

  /** Up to its first line end a buffer is plain text, and that line end becomes one "\n". */
  lemma NormalizedAtFirstLineEnd(s: string)
    requires HasLineEnd(s)
    ensures Normalized(s) == s[..FirstLineEnd(s)] + ("\n" + Normalized(s[NextLineStart(s, FirstLineEnd(s))..]))
  {
    var i := FirstLineEnd(s);
    NormalizedAtLineEnd(s, i);
    NormalizedKeepsPlainPrefix(s[..i], s[i..]);
    assert s[..i] + s[i..] == s;
  }

  /**
   * Nothing is lost or reordered: the written lines followed by the
   * remainder are the input with its line ends normalised to "\n".
   */
  lemma {:induction false} LinesRoundTrip(s: string)
    ensures Concat(Lines(s).0) + Lines(s).1 == Normalized(s)
    decreases |s|
  {
    if !HasLineEnd(s) {
      NormalizedKeepsPlainPrefix(s, []);
      assert s + [] == s;
    } else {
      var i := FirstLineEnd(s);
      var n := NextLineStart(s, i);
      var tail := Lines(s[n..]);
      var head := s[..i] + "\n";
      assert Lines(s) == ([head] + tail.0, tail.1);
      LinesRoundTrip(s[n..]);
      ConcatCons(head, tail.0);
      NormalizedAtFirstLineEnd(s);
      JoinLine(s[..i], Concat(tail.0), tail.1);
    }
  }

  lemma JoinLine(prefix: string, body: string, rem: string)
    ensures ((prefix + "\n") + body) + rem == prefix + ("\n" + (body + rem))
  {
  }

  /**
   * A line the client sends on Enter (its buffer plus "\n") reaches the
   * container as exactly that one write and leaves the server buffer empty,
   * provided the line starts printable and holds no line end of its own.
   */
  lemma {:induction false} EnteredLineIsWrittenWhole(line: string)
    requires !HasLineEnd(line)
    requires line == [] || line[0] >= ' '
    ensures InputStep([], line + "\n") == InputEffect([line + "\n"], [])
  {
    var data := line + "\n";
    assert [] + data == data;
    assert data != [DEL] by {
      if line != [] { assert data[0] == line[0]; } else { assert |data| == 1 && data[0] == '\n'; }
    }
    assert !IsRawControl(data) by {
      if line != [] { assert data[0] == line[0]; }
    }
    assert HasLineEnd(data) by { assert data[|line|] == '\n'; }
    FirstLineEndOfLine(line);
    assert NextLineStart(data, |line|) == |line| + 1;
    assert data[..|line|] == line;
    assert data[|line| + 1..] == [];
    assert Lines([]) == ([], []);
    assert Lines(data) == ([data[..|line|] + "\n"] + Lines(data[|line| + 1..]).0, Lines(data[|line| + 1..]).1);
    assert [line + "\n"] + [] == [line + "\n"];
  }

  /** A line-end-free text followed by "\n" ends exactly at that "\n". */
  lemma {:induction false} FirstLineEndOfLine(line: string)
    requires !HasLineEnd(line)
    ensures HasLineEnd(line + "\n") && FirstLineEnd(line + "\n") == |line|
    decreases |line|
  {
    var data := line + "\n";
    assert data[|line|] == '\n';
    if line != [] {
      assert line[0] in line;
      assert data[0] == line[0];
      assert data[1..] == line[1..] + "\n";
      assert !HasLineEnd(line[1..]) by {
        forall c | c in line[1..] ensures !IsLineEnd(c) {
          assert c in line;
        }
      }
      FirstLineEndOfLine(line[1..]);
    }
  }

  /** Typing a line split over two events: nothing is written until its end arrives. */
  lemma PartialLineIsBuffered(buffer: string, data: string)
    requires !HasLineEnd(buffer) && !HasLineEnd(data)
    requires data != [DEL] && !IsRawControl(data)
    ensures InputStep(buffer, data) == InputEffect([], buffer + data)
  {
    assert !HasLineEnd(buffer + data) by {
      forall c | c in buffer + data ensures !IsLineEnd(c) {
        assert c in buffer || c in data;
      }
    }
  }
}

=== FILE: socket_service.dfy ===
/**
 * The `/terminal` socket namespace: the handshake check that admits only
 * admins, and one connection's life from admission through setup (place a
 * placeholder, get the container, attach its stream) to the live relay of
 * input, output and resizes. Each method is one atomic run of the event
 * loop between two awaits; what the awaited call returned is its argument.
 */
module SocketService {
  import opened Wrappers
  import opened Models
  import opened Registry
  import opened ServerInput

  /** `authenticateSocket`: the handshake check run on every socket of the namespace. */
  function Authenticate(token: Option<string>, verify: string -> Option<UserId>,
                        users: UserId -> Fetch<User>): (r: Result<User>)
    ensures (token.None? || token.value == []) ==> r == Err("Authentication error: Token missing")
    ensures r.Ok? <==> (&& token.Some? && token.value != [] && verify(token.value).Some?
                        && users(verify(token.value).value).Found?
                        && users(verify(token.value).value).value.role == Admin)
    ensures r.Ok? ==> r.value == users(verify(token.value).value).value
    ensures r.Err? ==> r.msg in {"Authentication error: Token missing", "Authentication error: Invalid token",
                                 "Authentication error: User not found", "Authorization error: Admin access required"}
  {
    if token.None? || token.value == [] then Err("Authentication error: Token missing")
    else match verify(token.value)
      case None => Err("Authentication error: Invalid token")
      case Some(id) =>
        match users(id)
        case Failed(_) => Err("Authentication error: Invalid token")
        case Missing => Err("Authentication error: User not found")
        case Found(u) =>
          if u.role != Admin then Err("Authorization error: Admin access required") else Ok(u)
  }

  /** What the server emits on the socket. */
  datatype ServerEvent =
    | Connected
    | Output(chunk: string)
    | Error(message: string)
    | Terminated(message: string)

  /** One write to a container stream. */
  datatype StreamWrite = StreamWrite(stream: StreamId, data: string)

  /** One resize request sent to a container. */
  datatype Resize = Resize(container: ContainerId, rows: int, cols: int)

  /** The first thing written to a freshly attached stream: turn the container's echo off. */
  const Stty: string := "stty -echo\n"

  function ToStream(s: StreamId, ws: seq<string>): (r: seq<StreamWrite>)
    ensures |r| == |ws|
    ensures forall i :: 0 <= i < |ws| ==> r[i] == StreamWrite(s, ws[i])
  {
    seq(|ws|, i requires 0 <= i < |ws| => StreamWrite(s, ws[i]))
  }

  /**
   * Where one connection stands. `Rejected`: the server disconnected it
   * before setup; `SetupEnded`: setup returned without going live (guard,
   * re-check or error); `Live`: the stream is attached and relayed.
   */
  datatype Phase = Admitting | AwaitingRecord | AwaitingContainer | Attaching | Live | SetupEnded | Rejected

  lemma NoLineEndInPrefix(s: string, k: nat)
    requires !HasLineEnd(s) && k <= |s|
    ensures !HasLineEnd(s[..k])
  {
    forall c | c in s[..k] ensures !IsLineEnd(c) {
      assert c in s;
    }
  }

  /** One authenticated admin's connection to the namespace. */
  class Connection {
    const reg: ActiveSessions
    const socket: SocketId
    const user: User
    var sid: SessionId
    var phase: Phase
    /** This attempt's `setupInstanceId`. */
    var token: Token
    var container: Option<ContainerId>
    /** The entry read at the re-check after `getContainer` (`currentSessionState`). */
    var snapshot: Option<Entry>
    var stream: Option<StreamId>
    /** The input handler's `lineBuffer`. */
    var lineBuffer: string
    var events: seq<ServerEvent>
    var writes: seq<StreamWrite>
    var resizes: seq<Resize>
    /** The socket has been disconnected. */
    var closed: bool

    /** The disconnect handler is registered once setup has returned. */
    predicate Listening()
      reads this
    {
      phase == Live || phase == SetupEnded
    }

    ghost predicate Valid()
      reads this, reg
    {
      && reg.Valid()
      && !HasLineEnd(lineBuffer)
      && (stream.Some? <==> phase == Live)
      && (phase == Live ==> container.Some?)
      && (writes != [] <==> phase == Live)
      && (phase == Live ==> writes[0] == StreamWrite(stream.value, Stty))
      && (Connected in events <==> phase == Live)
      && (phase == Attaching ==> snapshot.Some? && snapshot.value.token < reg.nextToken)
    }

    constructor (reg: ActiveSessions, socket: SocketId, user: User)
      requires reg.Valid()
      ensures Valid()
      ensures this.reg == reg && this.socket == socket && this.user == user
      ensures phase == Admitting && events == [] && writes == [] && resizes == [] && !closed
      ensures lineBuffer == [] && container.None? && stream.None?
    {
      this.reg := reg;
      this.socket := socket;
      this.user := user;
      sid := 0;
      phase := Admitting;
      token := 0;
      container := None;
      snapshot := None;
      stream := None;
      lineBuffer := [];
      events := [];
      writes := [];
      resizes := [];
      closed := false;
    }

    /**
     * The connection handler up to the record lookup: a missing session id,
     * or a session another socket streams or is setting up, is refused and
     * the socket dropped; a session whose entry is idle is let through.
     */
    method Admit(requested: Option<SessionId>)
      requires Valid() && phase == Admitting
      modifies this
      ensures Valid()
      ensures requested.None? ==>
                phase == Rejected && closed && events == old(events) + [Error("Session ID is required")]
      ensures requested.Some? && ActiveElsewhere(reg.entries, requested.value, socket) ==>
                phase == Rejected && closed && events == old(events) + [Error("Session already active elsewhere.")]
      ensures requested.Some? && !ActiveElsewhere(reg.entries, requested.value, socket) ==>
                phase == AwaitingRecord && sid == requested.value && closed == old(closed) && events == old(events)
      ensures writes == old(writes) && lineBuffer == old(lineBuffer) && resizes == old(resizes)
      ensures token == old(token) && container == old(container) && stream == old(stream)
    {
      if requested.None? {
        events := events + [Error("Session ID is required")];
        closed := true;
        phase := Rejected;
        return;
      }
      if ActiveElsewhere(reg.entries, requested.value, socket) {
        events := events + [Error("Session already active elsewhere.")];
        closed := true;
        phase := Rejected;
        return;
      }
      sid := requested.value;
      phase := AwaitingRecord;
    }

    /**
     * The record lookup returned. A failed query drops the socket and
     * releases the session's entry whoever owns it; a missing, ended or
     * foreign record drops the socket; otherwise setup starts with a fresh
     * token and either installs a placeholder or aborts at the guard.
     */
    method OnSessionRecord(f: Fetch<SessionRecord>)
      requires Valid() && phase == AwaitingRecord
      modifies this, reg
      ensures Valid()
      ensures f.Failed? ==>
                && phase == Rejected && closed
                && events == old(events) + [Error("Failed to initiate terminal session connection")]
                && reg.entries == Released(old(reg.entries), sid)
      ensures f.Missing? ==>
                phase == Rejected && closed && events == old(events) + [Error("Terminal session not found")]
                && reg.entries == old(reg.entries)
      ensures f.Found? && f.value.status != Active ==>
                phase == Rejected && closed && events == old(events) + [Error("Terminal session is not active")]
                && reg.entries == old(reg.entries)
      ensures f.Found? && f.value.status == Active && f.value.admin != user.id ==>
                phase == Rejected && closed && events == old(events) + [Error("Not authorized for this session")]
                && reg.entries == old(reg.entries)
      ensures f.Found? && f.value.status == Active && f.value.admin == user.id ==>
                && closed == old(closed) && events == old(events)
                && (forall k :: k in old(reg.entries) ==> old(reg.entries)[k].token != token)
                && reg.entries == WithPlaceholder(old(reg.entries), sid, socket, token)
                && (phase == if SetupBusy(old(reg.entries), sid) then SetupEnded else AwaitingContainer)
      ensures sid == old(sid) && writes == old(writes) && lineBuffer == old(lineBuffer) && resizes == old(resizes)
      ensures container == old(container) && stream == old(stream)
    {
      match f
      case Failed(_) =>
        events := events + [Error("Failed to initiate terminal session connection")];
        closed := true;
        phase := Rejected;
        reg.Cleanup(sid);
      case Missing =>
        events := events + [Error("Terminal session not found")];
        closed := true;
        phase := Rejected;
      case Found(rec) =>
        if rec.status != Active {
          events := events + [Error("Terminal session is not active")];
          closed := true;
          phase := Rejected;
        } else if rec.admin != user.id {
          events := events + [Error("Not authorized for this session")];
          closed := true;
          phase := Rejected;
        } else {
          token := reg.FreshToken();
          var placed := reg.PlacePlaceholder(sid, socket, token);
          phase := if placed then AwaitingContainer else SetupEnded;
        }
    }

    /**
     * `getContainer` returned. On failure the entry is released whoever owns
     * it and the error is reported (the socket stays open); on success the
     * attempt goes on only if its placeholder is still the one of record.
     */
    method OnContainer(r: Result<ContainerId>)
      requires Valid() && phase == AwaitingContainer
      modifies this, reg
      ensures Valid()
      ensures r.Err? ==>
                && phase == SetupEnded
                && events == old(events) + [Error("Failed to connect to terminal session: " + r.msg)]
                && reg.entries == Released(old(reg.entries), sid)
                && container == old(container)
      ensures r.Ok? ==>
                && events == old(events) && reg.entries == old(reg.entries)
                && (if StillOwns(reg.entries, sid, token)
                    then phase == Attaching && container == Some(r.value) && snapshot == Some(reg.entries[sid])
                    else phase == SetupEnded && container == old(container))
      ensures sid == old(sid) && token == old(token) && closed == old(closed) && stream == old(stream)
      ensures writes == old(writes) && lineBuffer == old(lineBuffer) && resizes == old(resizes)
    {
      match r
      case Err(msg) =>
        reg.Cleanup(sid);
        events := events + [Error("Failed to connect to terminal session: " + msg)];
        phase := SetupEnded;
      case Ok(c) =>
        if StillOwns(reg.entries, sid, token) {
          container := Some(c);
          snapshot := Some(reg.entries[sid]);
          phase := Attaching;
        } else {
          phase := SetupEnded;
        }
    }

    /**
     * `attach` returned. On failure as for `OnContainer`. On success, as
     * written: the snapshot is stored back with container and stream, with
     * no second re-check, and the connection goes live: echo is turned off
     * and the client told it is connected.
     */
    method OnAttached(r: Result<StreamId>)
      requires Valid() && phase == Attaching && container.Some? && snapshot.Some?
      modifies this, reg
      ensures Valid()
      ensures r.Err? ==>
                && phase == SetupEnded
                && events == old(events) + [Error("Failed to connect to terminal session: " + r.msg)]
                && reg.entries == Released(old(reg.entries), sid)
                && writes == old(writes) && stream == old(stream)
      ensures r.Ok? ==>
                && reg.entries == CompletedAsWritten(old(reg.entries), sid, old(snapshot).value,
                                                     old(container).value, r.value)
                && phase == Live && stream == Some(r.value)
                && writes == [StreamWrite(r.value, Stty)]
                && events == old(events) + [Connected]
      ensures sid == old(sid) && token == old(token) && closed == old(closed) && container == old(container)
      ensures lineBuffer == old(lineBuffer) && resizes == old(resizes)
    {
      match r
      case Err(msg) =>
        reg.Cleanup(sid);
        events := events + [Error("Failed to connect to terminal session: " + msg)];
        phase := SetupEnded;
      case Ok(s) =>
        reg.CompleteAsWritten(sid, snapshot.value, container.value, s);
        stream := Some(s);
        writes := [StreamWrite(s, Stty)];
        events := events + [Connected];
        phase := Live;
    }

    /**
     * `attach` returned, with the completion re-validated by token (the
     * corrected form of `OnAttached`): only the attempt whose placeholder
     * still stands goes live.
     */
    method OnAttachedRevalidated(r: Result<StreamId>)
      requires Valid() && phase == Attaching && container.Some?
      modifies this, reg
      ensures Valid()
      ensures r.Err? ==>
                && phase == SetupEnded
                && events == old(events) + [Error("Failed to connect to terminal session: " + r.msg)]
                && reg.entries == Released(old(reg.entries), sid)
                && writes == old(writes) && stream == old(stream)
      ensures r.Ok? ==>
                && reg.entries == Completed(old(reg.entries), sid, token, old(container).value, r.value)
                && (if StillOwns(old(reg.entries), sid, token)
                    then && phase == Live && stream == Some(r.value)
                         && writes == [StreamWrite(r.value, Stty)]
                         && events == old(events) + [Connected]
                    else phase == SetupEnded && stream == old(stream) && writes == old(writes)
                         && events == old(events))
      ensures sid == old(sid) && token == old(token) && closed == old(closed) && container == old(container)
      ensures lineBuffer == old(lineBuffer) && resizes == old(resizes)
    {
      match r
      case Err(msg) =>
        reg.Cleanup(sid);
        events := events + [Error("Failed to connect to terminal session: " + msg)];
        phase := SetupEnded;
      case Ok(s) =>
        var done := reg.CompleteSetup(sid, token, container.value, s);
        if done {
          stream := Some(s);
          writes := [StreamWrite(s, Stty)];
          events := events + [Connected];
          phase := Live;
        } else {
          phase := SetupEnded;
        }
    }

    /** The stream's listeners exist: the connection went live and cleanup has not stripped them. */
    predicate StreamListening()
      reads this, reg
    {
      phase == Live && stream.Some? && stream.value !in reg.endedStreams
    }

    /** Container output is forwarded only while the map's stream is this one. */
    method OnStreamData(chunk: string)
      requires Valid()
      modifies this
      ensures Valid()
      ensures events == old(events) +
                (if StreamListening() && ForwardsOutput(reg.entries, sid, stream.value) then [Output(chunk)] else [])
      ensures phase == old(phase) && writes == old(writes) && lineBuffer == old(lineBuffer)
      ensures resizes == old(resizes) && closed == old(closed) && stream == old(stream) && container == old(container)
    {
      if StreamListening() && ForwardsOutput(reg.entries, sid, stream.value) {
        events := events + [Output(chunk)];
      }
    }

    /** The stream ended: release the session's entry whoever owns it and tell the client. */
    method OnStreamEnd()
      requires Valid()
      modifies this, reg
      ensures Valid()
      ensures old(StreamListening()) ==>
                reg.entries == Released(old(reg.entries), sid)
                && events == old(events) + [ServerEvent.Terminated("Terminal session ended")]
      ensures !old(StreamListening()) ==> reg.entries == old(reg.entries) && events == old(events)
      ensures phase == old(phase) && writes == old(writes) && lineBuffer == old(lineBuffer)
      ensures resizes == old(resizes) && closed == old(closed) && stream == old(stream) && container == old(container)
    {
      if StreamListening() {
        reg.Cleanup(sid);
        events := events + [ServerEvent.Terminated("Terminal session ended")];
      }
    }

    /** The stream failed: release the session's entry whoever owns it and report the error. */
    method OnStreamError(msg: string)
      requires Valid()
      modifies this, reg
      ensures Valid()
      ensures old(StreamListening()) ==>
                reg.entries == Released(old(reg.entries), sid)
                && events == old(events) + [Error("Terminal connection error: " + msg)]
      ensures !old(StreamListening()) ==> reg.entries == old(reg.entries) && events == old(events)
      ensures phase == old(phase) && writes == old(writes) && lineBuffer == old(lineBuffer)
      ensures resizes == old(resizes) && closed == old(closed) && stream == old(stream) && container == old(container)
    {
      if StreamListening() {
        reg.Cleanup(sid);
        events := events + [Error("Terminal connection error: " + msg)];
      }
    }

    /**
     * Keyboard input from the client. Taken only from the owning socket of
     * an entry with a stream, and written to the map's stream as `InputStep`
     * prescribes, the completed lines split off by the handler's loop.
     */
    method OnInput(data: string)
      requires Valid() && !closed
      modifies this
      ensures Valid()
      ensures if phase == Live && AcceptsInput(reg.entries, sid, socket)
              then var eff := InputStep(old(lineBuffer), data);
                   writes == old(writes) + ToStream(reg.entries[sid].stream.value, eff.writes)
                   && lineBuffer == eff.buffer
              else writes == old(writes) && lineBuffer == old(lineBuffer)
      ensures phase == old(phase) && events == old(events) && resizes == old(resizes)
      ensures closed == old(closed) && stream == old(stream) && container == old(container)
    {
      if !(phase == Live && AcceptsInput(reg.entries, sid, socket)) {
        return;
      }
      var target := reg.entries[sid].stream.value;
      if data == [DEL] {
        writes := writes + [StreamWrite(target, data)];
        if |lineBuffer| > 0 {
          NoLineEndInPrefix(lineBuffer, |lineBuffer| - 1);
        }
        lineBuffer := DropLast(lineBuffer);
      } else if IsRawControl(data) {
        writes := writes + [StreamWrite(target, data)];
      } else {
        var lines, rest := SplitLines(lineBuffer + data);
        LinesRemainderHasNoLineEnd(lineBuffer + data);
        writes := writes + ToStream(target, lines);
        lineBuffer := rest;
      }
    }

    /** A resize from the owning socket is sent to the map's container; a failure is reported. */
    method OnResize(rows: int, cols: int, failure: Option<string>)
      requires Valid() && !closed
      modifies this
      ensures Valid()
      ensures phase == Live && AcceptsResize(reg.entries, sid, socket) ==>
                && resizes == old(resizes) + [Resize(reg.entries[sid].container.value, rows, cols)]
                && events == old(events) +
                     (if failure.Some? then [Error("Failed to resize terminal: " + failure.value)] else [])
      ensures !(phase == Live && AcceptsResize(reg.entries, sid, socket)) ==>
                resizes == old(resizes) && events == old(events)
      ensures phase == old(phase) && writes == old(writes) && lineBuffer == old(lineBuffer)
      ensures closed == old(closed) && stream == old(stream) && container == old(container)
    {
      if phase == Live && AcceptsResize(reg.entries, sid, socket) {
        resizes := resizes + [Resize(reg.entries[sid].container.value, rows, cols)];
        if failure.Some? {
          events := events + [Error("Failed to resize terminal: " + failure.value)];
        }
      }
    }

    /**
     * The client went away (socket.io reports this once per socket). The
     * entry is released only by the socket that owns it, and only once setup
     * has returned: before that no handler is registered and the registry
     * keeps whatever the attempt placed.
     */
    method OnDisconnect()
      requires Valid() && !closed
      modifies this, reg
      ensures Valid()
      ensures closed
      ensures if Listening() && OwnedBy(old(reg.entries), sid, socket)
              then reg.entries == Released(old(reg.entries), sid)
              else reg.entries == old(reg.entries)
      ensures phase == old(phase) && events == old(events) && writes == old(writes)
      ensures lineBuffer == old(lineBuffer) && resizes == old(resizes)
      ensures stream == old(stream) && container == old(container)
      ensures sid == old(sid) && token == old(token) && snapshot == old(snapshot)
    {
      if Listening() && OwnedBy(reg.entries, sid, socket) {
        reg.Cleanup(sid);
      }
      closed := true;
    }

    /**
     * The disconnect handler as evidently intended: registered as soon as the
     * connection is let in, so a disconnect during setup also releases the
     * entry this socket owns.
     */
    method OnDisconnectRegisteredEarly()
      requires Valid() && !closed
      modifies this, reg
      ensures Valid()
      ensures closed
      ensures if phase != Admitting && OwnedBy(old(reg.entries), sid, socket)
              then reg.entries == Released(old(reg.entries), sid)
              else reg.entries == old(reg.entries)
      ensures phase == old(phase) && events == old(events) && writes == old(writes)
      ensures lineBuffer == old(lineBuffer) && resizes == old(resizes)
      ensures stream == old(stream) && container == old(container)
      ensures sid == old(sid) && token == old(token) && snapshot == old(snapshot)
    {
      if phase != Admitting && OwnedBy(reg.entries, sid, socket) {
        reg.Cleanup(sid);
      }
      closed := true;
    }
  }

  /**
   * The client of socket 1 disconnects while `getContainer` is awaited. No
   * disconnect handler is registered yet, so nothing is released; setup then
   * completes for the dead socket, and socket 2's connection to the session
   * is refused. Only the stream's end frees the entry.
   */
  method DisconnectDuringSetupStrandsEntry(admin: User, rec: SessionRecord, sid: SessionId,
                                           c: ContainerId, s: StreamId)
    returns (stuck: Entry, refused: seq<ServerEvent>)
    requires rec.status == Active && rec.admin == admin.id
    ensures stuck.IsReady() && stuck.socket == 1 && stuck.stream == Some(s)
    ensures refused == [Error("Session already active elsewhere.")]
  {
    var reg := new ActiveSessions();
    var first := new Connection(reg, 1, admin);
    first.Admit(Some(sid));
    first.OnSessionRecord(Found(rec));
    first.OnDisconnect();
    first.OnContainer(Ok(c));
    first.OnAttached(Ok(s));
    stuck := reg.entries[sid];
    var second := new Connection(reg, 2, admin);
    second.Admit(Some(sid));
    refused := second.events;
  }

  /**
   * The same disconnect, now during the attach await, with the handler
   * registered early and the completion re-validated: the entry is released
   * at once, the late completion writes nothing, and socket 2 is let in.
   */
  method EarlyDisconnectFreesSession(admin: User, rec: SessionRecord, sid: SessionId,
                                     c: ContainerId, s: StreamId)
    returns (remains: bool, firstLive: bool, secondPhase: Phase)
    requires rec.status == Active && rec.admin == admin.id
    ensures !remains && !firstLive
    ensures secondPhase == AwaitingRecord
  {
    var reg := new ActiveSessions();
    var first := new Connection(reg, 1, admin);
    first.Admit(Some(sid));
    first.OnSessionRecord(Found(rec));
    first.OnContainer(Ok(c));
    first.OnDisconnectRegisteredEarly();
    first.OnAttachedRevalidated(Ok(s));
    remains := sid in reg.entries;
    firstLive := first.phase == Live;
    var second := new Connection(reg, 2, admin);
    second.Admit(Some(sid));
    secondPhase := second.phase;
  }
}

=== FILE: terminal_reducer.dfy ===
/** The client's terminal slice: which session is open and whether its socket is connected. */
module TerminalReducer {
  import opened Wrappers
  import opened ClientActions

  datatype TerminalState = TerminalState(
    sessionId: Option<string>,
    isActive: bool,
    isConnected: bool,
    loading: bool,
    error: ErrorValue)

  const Initial: TerminalState := TerminalState(None, false, false, false, NoError)

  /** The action types the terminal reducer names. */
  predicate Handles(a: Action)
  {
    a.StartTerminal? || a.TerminalConnected? || a.TerminalDisconnected? || a.TerminateTerminal? || a.TerminalError?
  }

  /** `terminalReducer` */
  function Reduce(s: TerminalState, a: Action): (r: TerminalState)
    ensures a.StartTerminal? ==>
              && r.sessionId == a.sessionId && r.isActive && !r.loading
              && r.isConnected == s.isConnected && r.error == s.error
    ensures a.TerminalConnected? ==>
              && r.isConnected && !r.loading
              && r.sessionId == s.sessionId && r.isActive == s.isActive && r.error == s.error
    ensures a.TerminalDisconnected? || a.TerminateTerminal? ==>
              r == TerminalState(None, false, false, false, s.error)
    ensures a.TerminalError? ==>
              && r.error == a.error && !r.loading
              && r.sessionId == s.sessionId && r.isActive == s.isActive && r.isConnected == s.isConnected
    ensures !Handles(a) ==> r == s
  {
    match a
    case StartTerminal(sid) => s.(sessionId := sid, isActive := true, loading := false)
    case TerminalConnected => s.(isConnected := true, loading := false)
    case TerminalDisconnected => s.(sessionId := None, isActive := false, isConnected := false, loading := false)
    case TerminateTerminal => s.(sessionId := None, isActive := false, isConnected := false, loading := false)
    case TerminalError(e) => s.(error := e, loading := false)
    case _ => s
  }

  /** A disconnect and a termination leave the same state, and repeating either changes nothing. */
  lemma EndingIsIdempotent(s: TerminalState)
    ensures Reduce(s, TerminalDisconnected) == Reduce(s, TerminateTerminal)
    ensures Reduce(Reduce(s, TerminalDisconnected), TerminalDisconnected) == Reduce(s, TerminalDisconnected)
    ensures Reduce(Reduce(s, TerminateTerminal), TerminalDisconnected) == Reduce(s, TerminateTerminal)
    ensures Reduce(s, TerminateTerminal).error == s.error
  {
  }

  /** A second START_TERMINAL replaces the session id the first one stored. */
  lemma SecondStartReplacesSession(s: TerminalState, first: string, second: string)
    ensures Reduce(Reduce(s, StartTerminal(Some(first))), StartTerminal(Some(second))).sessionId == Some(second)
    ensures Reduce(Reduce(s, StartTerminal(Some(first))), StartTerminal(Some(second))).isActive
  {
  }

  /** Starting then connecting gives an active, connected terminal for that session. */
  lemma StartThenConnect(s: TerminalState, sid: Option<string>)
    ensures var r := Reduce(Reduce(s, StartTerminal(sid)), TerminalConnected);
            r.sessionId == sid && r.isActive && r.isConnected && !r.loading && r.error == s.error
  {
  }

  /** An ended terminal is neither active nor connected until it is started again. */
  lemma EndedStaysInactive(s: TerminalState, a: Action)
    requires !s.isActive && s.sessionId.None?
    requires !a.StartTerminal?
    ensures !Reduce(s, a).isActive && Reduce(s, a).sessionId.None?
  {
  }
}

=== FILE: text.dfy ===
/**
 * String helpers used by the request handlers: ASCII lower-casing, prefix and
 * suffix tests, the second space-separated field of a header, and the
 * extension of a file name as Node's `path.extname` computes it.
 */
module Text {
  import opened Wrappers

  /** `String.prototype.toLowerCase` on one character (ASCII letters only). */
  function LowerChar(c: char): char
  {
    if 'A' <= c <= 'Z' then (c as int + 32) as char else c
  }

  function Lower(s: string): (r: string)
    ensures |r| == |s|
    ensures forall i :: 0 <= i < |s| ==> r[i] == LowerChar(s[i])
  {
    seq(|s|, i requires 0 <= i < |s| => LowerChar(s[i]))
  }

  predicate StartsWith(s: string, prefix: string)
  {
    prefix <= s
  }

  predicate EndsWith(s: string, suffix: string)
  {
    |suffix| <= |s| && s[|s| - |suffix|..] == suffix
  }

  /** Index of the first occurrence of `c` in `s`, if any. */
  function IndexOf(s: string, c: char): (r: Option<nat>)
    ensures r.None? <==> c !in s
    ensures r.Some? ==> r.value < |s| && s[r.value] == c && c !in s[..r.value]
  {
    if |s| == 0 then None
    else if s[0] == c then Some(0)
    else
      match IndexOf(s[1..], c)
      case None => None
      case Some(k) => assert s[1..][..k] == s[1..k + 1]; Some(k + 1)
  }

  /** Index of the last occurrence of `c` in `s`, if any. */
  function LastIndexOf(s: string, c: char): (r: Option<nat>)
    ensures r.None? <==> c !in s
    ensures r.Some? ==> r.value < |s| && s[r.value] == c && c !in s[r.value + 1..]
    ensures r.Some? ==> forall j :: r.value < j < |s| ==> s[j] != c
  {
    if |s| == 0 then None
    else if s[|s| - 1] == c then Some(|s| - 1)
    else
      var init := s[..|s| - 1];
      assert s == init + [s[|s| - 1]];
      match LastIndexOf(init, c)
      case None => None
      case Some(k) => assert s[k + 1..] == init[k + 1..] + [s[|s| - 1]]; Some(k)
  }

  /** `s.split(' ')[1]`: the text between the first and the second space, or absent. */
  function SecondField(s: string): (r: Option<string>)
    ensures r.None? <==> ' ' !in s
    ensures r.Some? ==> ' ' !in r.value
    ensures r.Some? ==>
              var start := IndexOf(s, ' ').value + 1;
              && start + |r.value| <= |s| && s[start..start + |r.value|] == r.value
              && (start + |r.value| == |s| || s[start + |r.value|] == ' ')
  {
    match IndexOf(s, ' ')
    case None => None
    case Some(i) =>
      var rest := s[i + 1..];
      match IndexOf(rest, ' ')
      case None => Some(rest)
      case Some(j) => Some(rest[..j])
  }

  /** The header `"Bearer " + t` carries the token `t` whenever `t` has no space. */
  lemma {:induction false} SecondFieldOfBearer(t: string)
    requires ' ' !in t
    ensures SecondField("Bearer " + t) == Some(t)
  {
    var s := "Bearer " + t;
    assert s[6] == ' ' && ' ' !in s[..6];
    assert IndexOf(s, ' ') == Some(6);
    assert s[7..] == t;
  }

  /** `p` without its trailing '/' characters. */
  function TrimTrailingSlashes(p: string): (r: string)
    ensures r <= p
    ensures r == [] || r[|r| - 1] != '/'
  {
    if |p| > 0 && p[|p| - 1] == '/' then TrimTrailingSlashes(p[..|p| - 1]) else p
  }

  /** The last segment of a POSIX path (trailing separators ignored). */
  function LastSegment(p: string): (r: string)
    ensures '/' !in r
  {
    var t := TrimTrailingSlashes(p);
    match LastIndexOf(t, '/')
    case None => t
    case Some(k) => t[k + 1..]
  }

  /**
   * Node's `path.extname` (POSIX): from the last '.' of the last segment to
   * its end; empty when the segment has no '.', when that '.' is the
   * segment's first character, or when the segment is "..".
   */
  function ExtName(p: string): (r: string)
    ensures r == [] || (r[0] == '.' && '.' !in r[1..] && '/' !in r)
    ensures r != [] ==> EndsWith(LastSegment(p), r) && |r| < |LastSegment(p)|
    ensures '.' !in LastSegment(p) ==> r == []
    ensures r != [] <==>
              LastSegment(p) != ".." && exists k :: 0 < k < |LastSegment(p)| && LastSegment(p)[k] == '.'
  {
    var seg := LastSegment(p);
    match LastIndexOf(seg, '.')
    case None => []
    case Some(k) =>
      if k == 0 || seg == ".." then
        assert forall j :: 0 < j < |seg| ==> seg[j] != '.' || seg == "..";
        []
      else
        assert seg[k..][1..] == seg[k + 1..];
        assert forall i :: 0 <= i < |seg[k..]| ==> seg[k..][i] == seg[k + i];
        seg[k..]
  }

  /** A name without '/' is its own last segment. */
  lemma LastSegmentOfPlainName(p: string)
    requires '/' !in p
    ensures LastSegment(p) == p
  {
    if |p| > 0 {
      assert p[|p| - 1] in p;
    }
    assert TrimTrailingSlashes(p) == p;
  }

  /** An occurrence of `c` with none after it is the one `LastIndexOf` finds. */
  lemma LastIndexOfIsUnique(s: string, c: char, k: nat)
    requires k < |s| && s[k] == c && c !in s[k + 1..]
    ensures LastIndexOf(s, c) == Some(k)
  {
    assert c in s;
  }

  /** Worked values of `ExtName`: an upper-case extension is kept as written. */
  lemma ExtNameOfTex()
    ensures ExtName("a.TEX") == ".TEX"
  {
    assert TrimTrailingSlashes("a.TEX") == "a.TEX";
    assert LastIndexOf("a.TEX", '/') == None;
    assert LastIndexOf("a.TEX", '.') == Some(1);
  }

  /** A leading dot is not an extension. */
  lemma ExtNameOfDotFile()
    ensures ExtName(".zip") == []
  {
    assert TrimTrailingSlashes(".zip") == ".zip";
    assert LastIndexOf(".zip", '/') == None;
    assert LastIndexOf(".zip", '.') == Some(0);
  }
}

=== FILE: upload.dfy ===
/**
 * The upload rules: the single-file middlewares (a zip of at most 50 MiB
 * and a LaTeX file of at most 10 MiB, each judged by its extension), and
 * the project route's two-field upload (judged by field name, MIME type and
 * extension). Both store a file under a generated name that keeps the
 * original extension. The time-and-random suffix is a parameter; disk
 * writes are not modelled.
 */
module Upload {
  import opened Wrappers
  import opened Text
  import opened Http

  /** What the multipart parser knows of an incoming file. */
  datatype FileInfo = FileInfo(fieldname: string, originalname: string, mimetype: string, size: nat)

  /** A file filter's decision. */
  datatype Verdict = Accept | Reject(message: string)

  const MiB: nat := 1024 * 1024

  /** `zipFileFilter`: only a `.zip` extension, in any case. */
  function ZipFileFilter(f: FileInfo): (r: Verdict)
    ensures r == Accept <==> Lower(ExtName(f.originalname)) == ".zip"
    ensures r != Accept ==> r == Reject("Only zip files are allowed!")
  {
    if Lower(ExtName(f.originalname)) in [".zip"] then Accept
    else Reject("Only zip files are allowed!")
  }

  /** `latexFileFilter`: only a `.tex` or `.latex` extension, in any case. */
  function LatexFileFilter(f: FileInfo): (r: Verdict)
    ensures r == Accept <==> Lower(ExtName(f.originalname)) == ".tex" || Lower(ExtName(f.originalname)) == ".latex"
    ensures r != Accept ==> r == Reject("Only LaTeX files are allowed!")
  {
    if Lower(ExtName(f.originalname)) in [".tex", ".latex"] then Accept
    else Reject("Only LaTeX files are allowed!")
  }

  /** A stored file's name: a prefix, "-", the unique suffix, and the original extension as written. */
  function StoredName(prefix: string, suffix: string, originalname: string): (r: string)
    ensures |r| == |prefix| + 1 + |suffix| + |ExtName(originalname)|
    ensures r[..|prefix| + 1 + |suffix|] == prefix + "-" + suffix
    ensures EndsWith(r, ExtName(originalname))
  {
    var head := prefix + "-" + suffix;
    var e := ExtName(originalname);
    assert (head + e)[..|head|] == head;
    assert (head + e)[|head + e| - |e|..] == e;
    head + e
  }

  /**
   * The generated name has the original file's extension, letter case
   * included, provided the prefix and suffix hold no '.' or '/' (the
   * suffix is digits and '-').
   */
  lemma StoredNameKeepsExtension(prefix: string, suffix: string, originalname: string)
    requires '.' !in prefix && '/' !in prefix && '.' !in suffix && '/' !in suffix
    ensures ExtName(StoredName(prefix, suffix, originalname)) == ExtName(originalname)
  {
    var e := ExtName(originalname);
    var head := prefix + "-" + suffix;
    var s := head + e;
    assert '/' !in head && '.' !in head by {
      forall c | c in head ensures c != '/' && c != '.' {
        assert c in prefix || c == '-' || c in suffix;
      }
    }
    assert '/' !in s by {
      forall c | c in s ensures c != '/' {
        assert c in head || c in e;
      }
    }
    LastSegmentOfPlainName(s);
    assert s[0] != '.' by {
      assert s[0] == head[0];
      assert head[0] in head;
    }
    if e == [] {
      assert s == head;
    } else {
      var k := |head|;
      assert s[k] == '.';
      assert s[k + 1..] == e[1..];
      LastIndexOfIsUnique(s, '.', k);
      assert s != "..";
      assert s[k..] == e;
    }
  }

  /** The two single-file uploads. */
  datatype SingleKind = ProjectZip | LatexSource

  /** The form field each middleware reads: one of the two the project route knows. */
  function Field(kind: SingleKind): (r: string)
    ensures RouteDestination(r).Some?
  {
    match kind
    case ProjectZip => "zipFile"
    case LatexSource => "latexFile"
  }

  /** The size cap: never above the project route's 50 MiB. */
  function Limit(kind: SingleKind): (r: nat)
    ensures 0 < r <= 50 * MiB
  {
    match kind
    case ProjectZip => 50 * MiB
    case LatexSource => 10 * MiB
  }

  /** The directory: the one the project route uses for the same field. */
  function Destination(kind: SingleKind): (r: string)
    ensures RouteDestination(Field(kind)) == Some(r)
  {
    match kind
    case ProjectZip => "uploads/projects"
    case LatexSource => "uploads/latex"
  }

  /** The stored name's prefix: plain text, unlike the route's, which is the field name. */
  function Prefix(kind: SingleKind): (r: string)
    ensures r != [] && '.' !in r && '/' !in r
    ensures r != Field(kind)
  {
    match kind
    case ProjectZip => "project"
    case LatexSource => "latex"
  }

  /** The kind's filter: it accepts only a name with an extension. */
  function Filter(kind: SingleKind, f: FileInfo): (r: Verdict)
    ensures r == Accept ==> ExtName(f.originalname) != []
    ensures r.Reject? ==> r.message in {"Only zip files are allowed!", "Only LaTeX files are allowed!"}
  {
    match kind
    case ProjectZip => ZipFileFilter(f)
    case LatexSource => LatexFileFilter(f)
  }

  /** Where a received file is written. */
  datatype Stored = Stored(directory: string, filename: string)

  /**
   * One file through a single-file upload: a file under another field is
   * unexpected, then the filter decides, then a file over the size cap is
   * refused; an accepted file is stored in the kind's directory.
   */
  function Receive(kind: SingleKind, f: FileInfo, suffix: string): (r: Result<Stored>)
    ensures r.Ok? <==> f.fieldname == Field(kind) && Filter(kind, f) == Accept && f.size <= Limit(kind)
    ensures r.Ok? ==> r.value == Stored(Destination(kind), StoredName(Prefix(kind), suffix, f.originalname))
    ensures f.fieldname != Field(kind) ==> r == Err("Unexpected field")
    ensures f.fieldname == Field(kind) && Filter(kind, f).Reject? ==> r == Err(Filter(kind, f).message)
  {
    if f.fieldname != Field(kind) then Err("Unexpected field")
    else if Filter(kind, f).Reject? then Err(Filter(kind, f).message)
    else if f.size > Limit(kind) then Err("File too large")
    else Ok(Stored(Destination(kind), StoredName(Prefix(kind), suffix, f.originalname)))
  }

  /** A file a middleware stores keeps its extension, whatever its kind. */
  lemma ReceiveKeepsExtension(kind: SingleKind, f: FileInfo, suffix: string)
    requires '.' !in suffix && '/' !in suffix
    requires Receive(kind, f, suffix).Ok?
    ensures ExtName(Receive(kind, f, suffix).value.filename) == ExtName(f.originalname)
  {
    StoredNameKeepsExtension(Prefix(kind), suffix, f.originalname);
  }

  /**
   * `uploadProjectMiddleware` / `uploadLatexMiddleware`: an upload error is
   * passed on with status 400; a request with no file, or an accepted one,
   * goes on without an error.
   */
  function UploadMiddleware(kind: SingleKind, f: Option<FileInfo>, suffix: string): (r: (Next, Option<Stored>))
    ensures r.0 == Proceed <==> f.None? || Receive(kind, f.value, suffix).Ok?
    ensures r.0 != Proceed ==> r.0.preset == Some(400) && r.1.None?
    ensures r.1.Some? <==> f.Some? && Receive(kind, f.value, suffix).Ok?
  {
    if f.None? then (Proceed, None)
    else
      match Receive(kind, f.value, suffix)
      case Err(msg) => (Fail(Some(400), msg), None)
      case Ok(stored) => (Proceed, Some(stored))
  }

  /** The project route's `fileFilter`, keyed on the field name. */
  function RouteFilter(f: FileInfo): (r: Verdict)
    ensures f.fieldname == "zipFile" ==>
              (r == Accept <==> f.mimetype == "application/zip" || f.mimetype == "application/x-zip-compressed"
                                || EndsWith(Lower(f.originalname), ".zip"))
    ensures f.fieldname == "latexFile" ==>
              (r == Accept <==> Lower(ExtName(f.originalname)) in [".tex", ".latex", ".ltx"])
    ensures f.fieldname != "zipFile" && f.fieldname != "latexFile" ==> r == Reject("Unexpected field")
  {
    if f.fieldname == "zipFile" then
      if f.mimetype == "application/zip" || f.mimetype == "application/x-zip-compressed"
         || EndsWith(Lower(f.originalname), ".zip")
      then Accept
      else Reject("Invalid file type. Only zip files are allowed.")
    else if f.fieldname == "latexFile" then
      if Lower(ExtName(f.originalname)) in [".tex", ".latex", ".ltx"] then Accept
      else Reject("Invalid file type. Only tex files are allowed.")
    else Reject("Unexpected field")
  }

  /** The project route's storage `destination`: none for an unknown field. */
  function RouteDestination(fieldname: string): (r: Option<string>)
    ensures r.Some? <==> fieldname == "zipFile" || fieldname == "latexFile"
  {
    if fieldname == "zipFile" then Some("uploads/projects")
    else if fieldname == "latexFile" then Some("uploads/latex")
    else None
  }

  /** One file through the project route's upload: the filter, then the 50 MiB cap. */
  function RouteReceive(f: FileInfo, suffix: string): (r: Result<Stored>)
    ensures r.Ok? <==> RouteFilter(f) == Accept && f.size <= 50 * MiB
    ensures r.Ok? ==> RouteDestination(f.fieldname).Some?
    ensures r.Ok? ==> r.value == Stored(RouteDestination(f.fieldname).value,
                                        StoredName(f.fieldname, suffix, f.originalname))
  {
    match RouteFilter(f)
    case Reject(msg) => Err(msg)
    case Accept =>
      if f.size > 50 * MiB then Err("File too large")
      else Ok(Stored(RouteDestination(f.fieldname).value, StoredName(f.fieldname, suffix, f.originalname)))
  }

  /**
   * Whatever the zip middleware accepts (by name), the project route
   * accepts too, for a plain file name without '/'.
   */
  lemma RouteAcceptsMiddlewareZips(f: FileInfo)
    requires f.fieldname == "zipFile" && '/' !in f.originalname
    requires ZipFileFilter(f) == Accept
    ensures RouteFilter(f) == Accept
  {
    var n := f.originalname;
    var e := ExtName(n);
    LastSegmentOfPlainName(n);
    assert |e| == 4 && EndsWith(n, e);
    var ln := Lower(n);
    assert ln[|ln| - 4..] == Lower(e) by {
      forall i | 0 <= i < 4 ensures ln[|ln| - 4..][i] == Lower(e)[i] {
        assert n[|n| - 4 + i] == e[i];
      }
    }
  }

  /** The LaTeX middleware's extensions are a subset of the route's, which adds ".ltx". */
  lemma RouteAcceptsMiddlewareLatex(f: FileInfo)
    requires f.fieldname == "latexFile" && LatexFileFilter(f) == Accept
    ensures RouteFilter(f) == Accept
  {
  }

  /** The route is laxer: it takes a zip by MIME type alone, whatever the name ... */
  lemma RouteTakesZipByMimeType()
    ensures var f := FileInfo("zipFile", "archive", "application/zip", 1);
            RouteFilter(f) == Accept && ZipFileFilter(f) != Accept
  {
    LastSegmentOfPlainName("archive");
    assert ExtName("archive") == [];
    assert Lower([]) == [];
  }

  /** ... and a ".ltx" source, which the LaTeX middleware refuses. */
  lemma RouteTakesLtx()
    ensures var g := FileInfo("latexFile", "paper.ltx", "text/plain", 1);
            RouteFilter(g) == Accept && LatexFileFilter(g) != Accept
  {
    var n := "paper.ltx";
    LastSegmentOfPlainName(n);
    LastIndexOfIsUnique(n, '.', 5);
    assert n[5..] == ".ltx";
    assert ExtName(n) == ".ltx";
    var l := Lower(".ltx");
    assert l[0] == '.' && l[1] == 'l' && l[2] == 't' && l[3] == 'x';
    assert l == ".ltx";
  }
}

=== FILE: wrappers.dfy ===
/** Option and Result values shared by every module of the model. */
module Wrappers {

  /** A value that may be absent (JavaScript's `null` / `undefined`). */
  datatype Option<+T> = None | Some(value: T)

  /** The outcome of an operation that can throw: a value, or the thrown error's message. */
  datatype Result<+T> = Ok(value: T) | Err(msg: string)

  /** The outcome of a database lookup by id: the query failed, found nothing, or found a record. */
  datatype Fetch<+T> = Failed(msg: string) | Missing | Found(value: T)
}
